=== FILE: README.md ===
# WebSocket Quiz Game in Dafny

This project models the core of a live multiple-choice quiz game.

The host creates a game over HTTP and gets a four-character code. Players join the game over a WebSocket with that code. The host loads a quiz into the game, starts it and moves it on. For each question the server sends the question, scores answers by speed, and shows a scoreboard of the real players, i.e. everyone except the host. It then moves to the next question, or ends the game with a podium and each player's final rank.

The host's browser page has three parts that are modelled here:

- the lobby, the question preview and its countdown, and the teardown back to the dashboard;
- the quiz builder, which validates and stores quizzes;
- a GIFT importer (GIFT is Moodle's text format for questions).

Every handler is a pure function. The handlers are:

- On the server, a handler takes the game and one message, and returns the new game plus a list of effects: messages to send, sockets to close and tasks to schedule.
- On the host's page, a handler takes the screen state and one event, and returns the new state plus what the page does outside itself.
- In the builder, a handler takes the form and returns the next form.

Time, randomness, the network and the browser's storage are inputs to these functions.

Modules:

- `Wrappers`: `Option` and `Result`.
- `Text`: the string functions the source relies on. These are JavaScript `trim`/`parseInt`/`String`, Python `strip`/`upper`, and substring search.
- `Models`: the game state names, the quiz data and its validation, players and games. It also holds `Revision`: a host-page or builder handler runs either `AsWritten`, the code as it stands, or `Corrected`, with the defect listed under Findings fixed.
- `Scoreboard`: the real players, the sort by score (stable, descending), ranks, the podium and the final table.
- `GameLogic`: the game engine. It covers joining, starting, sending a question, answering, advancing, ending and disconnecting, plus the invariant every handler keeps.
- `Server`: the registry of games by code and game creation. It also covers accepting a socket, routing messages with the join and host checks (a join runs the handler as written), cleanup when a client goes away, and the scheduled tasks.
- `Gift`: the GIFT parser in both revisions of the builder. `Extended` is builder.js; `Basic` is js/builder.js. The parser takes a counting rule for correct options: `CountMatches` is the code as written, `CountKept` the correction listed under Findings.
- `HostClient`: the host's screen (js/game.js, js/utils.js).
- `Builder`: the quiz builder form, in both revisions (builder.js, js/builder.js). The add-question button of builder.js runs `AddQuestionAsWritten` under `AsWritten` and `AddQuestionBlock` under `Corrected`.

## Model

| member | source | states |
|---|---|---|
| Models.ParseState | models.py:20-25 | A state name parses to a state exactly when it is that state's wire value, so the four names are distinct and read back. |
| Models.ValidateQuiz | models.py:29-46 | Accepts the quiz exactly when every question has 2 to 4 options and any given time limit is within 5..120. The accepted quiz keeps the title, question texts, ids, option texts and correctness flags, in order. A missing limit becomes 20. The accepted quiz satisfies the validity predicate. |
| Text.TrimShape | builder.js:281 | The trimmed string is a contiguous slice of the input with only white space cut from both ends, and its first and last characters are not white space. |
| Text.TrimEmptyIffBlank | game_logic.py:295-298 | Trimming gives the empty string exactly when the input is all white space. This is the "empty nickname" / "empty text" test. |
| Text.TrimIdempotent | builder.js:677-705 | Trimming an already trimmed string changes nothing. |
| Text.UpperStrMeaning | main.py:163 | Upper-casing leaves no lower-case ASCII letter and keeps every other character. |
| Text.IndexOfFindsContained | builder.js:698 | `indexOf` finds a position exactly when the pattern occurs. The position it returns is the first occurrence at or after the start. |
| Text.ContainsText | js/game.js:296 | The decidable substring test agrees with occurrence at some position. |
| Text.DigitsValueOfNatToString | builder.js:727 | The decimal rendering of a number reads back as that number. |
| Text.NatToStringInjective | builder.js:741 | Distinct numbers render differently, so generated ids built from indices differ. |
| Text.ParseIntJsOfIntToString | builder.js:772-773 | `parseInt` reads back every integer that `String` writes. |
| Scoreboard.RealPlayersComplete | game_logic.py:202-207 | Every player whose connection is not the host's is among the real players. |
| Scoreboard.RealPlayerCountExcludesHost | game_logic.py:197-200 | With distinct connections, the real-player count is the number of players, minus one exactly when the host is among them. |
| Scoreboard.InsertPermutes | game_logic.py:188 | Inserting into a score-sorted list adds exactly the new player. |
| Scoreboard.InsertKeepsTies | game_logic.py:188 | Insertion puts the new player ahead of earlier players with the same score, as a stable sort of the prepended list would. |
| Scoreboard.SortByScore | game_logic.py:188 | The sorted list has the input's length, and its scores do not increase along it. |
| Scoreboard.SortPermutes | game_logic.py:188 | The sort is a permutation of its input. |
| Scoreboard.SortKeepsTies | game_logic.py:188 | The sort is stable: the players with any one score keep their input order. |
| Scoreboard.SortSameMembers | game_logic.py:188 | A player is in the sorted list exactly when it is in the input. |
| Scoreboard.FullScoreboard | game_logic.py:181-193 | The scoreboard over all players, host included, has one entry per player, ranks 1, 2, 3, … and non-increasing scores. Every entry is a player's nickname and score, and every player has such an entry. |
| Scoreboard.PlayerOnlyScoreboard | game_logic.py:202-218 | The scoreboard has one entry per real player. Ranks run 1, 2, 3, … and scores do not increase along it. |
| Scoreboard.ScoreboardEntriesAreReal | game_logic.py:206-208 | Every scoreboard entry is a real player's nickname and score. |
| Scoreboard.RealPlayersHaveEntries | game_logic.py:206-217 | Every real player has an entry with its nickname and score. |
| Scoreboard.PodiumIsTopThree | game_logic.py:710-720 | The podium holds min(3, real players) entries, and a real player missing from it scored no more than anyone on it. |
| Scoreboard.RankOf | game_logic.py:545 | The rank is the rank of the first entry with the nickname, or 0 when none has it. |
| Scoreboard.FinalTable | game_logic.py:713-717 | Every entry's nickname is a key. Each key maps to the rank and score of the last entry with that nickname, as a dict comprehension keeps the last value for a repeated key. |
| GameLogic.PlayerIndex | game_logic.py:491-494 | Finds the player of a connection, and fails exactly when no player has it. |
| GameLogic.AssignIds | game_logic.py:116-123 | Gives each option a non-empty id that is not already used and differs from every other option's id. |
| GameLogic.AssignIdsKeepsFreeIds | game_logic.py:118 | Each option keeps its own id unless it is missing or already taken by an earlier option. |
| GameLogic.FirstCorrect | game_logic.py:127-131 | Returns the first option marked correct, or none when no option is. |
| GameLogic.CurrentQuestion | game_logic.py:89-149 | Yields a question exactly when a quiz is loaded, the index is in range and some option is correct. The question keeps the text, limit and option texts. Option ids are non-empty and distinct. The answer is the first correct option's id, and the game records it. When there is no question the game is unchanged. |
| GameLogic.CalculatePoints | game_logic.py:151-179 | Points lie in 0..1000. An answer inside the limit earns at least 100. An answer that is early (negative time) or too late earns 0. |
| GameLogic.PointsNonIncreasing | game_logic.py:175-179 | A later answer never earns more points. |
| GameLogic.HandleJoin | game_logic.py:293-353 | Accepts a join exactly when the stripped nickname is non-empty, the game is in the lobby, the nickname is not taken (ignoring case) and the connection is new. The player is then appended and becomes host if there was none. The ack carries the real-player count, and the others are told. A rejection leaves the game unchanged. An empty nickname, a wrong state or a taken name also closes the socket with policy-violation code 1008 (section 7.4.1 of RFC 6455). |
| GameLogic.JoinAckCountsHost | game_logic.py:325-343 | As written: a host joining a fresh game is acked with a player count of 1, while the real-player count is 0. |
| GameLogic.HandleJoinAsWritten | game_logic.py:293-353 | The join as the server runs it. A rejection leaves the game unchanged. An accepted player is appended, becomes an active connection, and becomes host when there was none. |
| GameLogic.JoinAsWrittenAgrees | game_logic.py:325-343 | The handler as written leaves the same game as the corrected one, and rejects with the same messages. When it accepts, its ack announces the real-player count plus one exactly when the joiner became host. |
| GameLogic.HandleStartGame | game_logic.py:392-420 | The game changes exactly when the host asks in the lobby with at least one real player and a non-empty quiz. It then shows question 0, broadcasts `game_started` and schedules the first question. Otherwise the sender gets one error. |
| GameLogic.SendCurrentQuestion | game_logic.py:423-471 | With no question the game ends. Otherwise the game shows the question from `now`, clears the answers and every player's answered flag, and broadcasts the question with its 1-based number and the total. |
| GameLogic.HandleSubmitAnswer | game_logic.py:474-569 | Outside question display, or from an unknown connection, the game is unchanged. Only the sender's record changes, scores never drop, and a player who already answered is untouched. Replies go to the sender only. A result reports the recorded correct id and awards 0..1000 points, and only for a correct answer. |
| GameLogic.TakenAnswerScores | game_logic.py:504-554 | An answer that gets through the checks marks the player answered at `now` and adds exactly the awarded points to the score. The points are `CalculatePoints(start, now, limit)` for a correct answer received no earlier than the question start, where the limit is the current question's or else 30, and 0 otherwise. The answer record holds those points, and the one reply carries them with the new score, the correct id and the player's rank among real players. |
| GameLogic.UntakenAnswerChangesNothing | game_logic.py:488-520 | During question display, an answer that does not get through the checks leaves the game unchanged. A player who already answered gets no reply; otherwise the sender gets exactly one error. |
| GameLogic.AnswerAtMostOnce | game_logic.py:495-497 | Once an answer is recorded, a second answer from the same player changes nothing and gets no reply. |
| GameLogic.Advance | game_logic.py:643-695 | From a question it moves to the leaderboard, broadcasts the real players' scoreboard and schedules the automatic advance. From the leaderboard it moves to the next question, or ends the game after the last one (or with no quiz). In the lobby or once finished it does nothing. |
| GameLogic.HandleNextQuestion | game_logic.py:571-609 | A non-host gets an error. The host moves a question to the leaderboard. A leaderboard is left to the timer. Lobby and finished games give the host an error. |
| GameLogic.GameOverOutcome | game_logic.py:697-750 | An already finished game is left alone. Otherwise the game becomes finished, and every message goes to an active connection with the podium of the real players. |
| GameLogic.GameOverIdempotent | game_logic.py:702-704 | Ending a game twice is ending it once. |
| GameLogic.GameOverTellsOwnResult | game_logic.py:706-739 | Under the game invariant, the game-over message built for a real player's connection is exactly one message. It carries the podium and the player's own score, with rank i+1 where entry i of the real-player scoreboard bears its nickname. |
| GameLogic.GameOverMessagesTo | game_logic.py:723-750 | When a game that has not finished ends, the messages the handler sends to an active connection are exactly the ones built for that connection. Each connection is visited once. |
| GameLogic.GameOverTellsHostPodium | game_logic.py:741-743 | When a game with a host ends, the host is sent exactly one game-over message. It holds the podium of the real players, with no rank and no score. |
| GameLogic.GameOverTellsPlayer | game_logic.py:725-739 | When a game ends, a real player is sent exactly one game-over message. It holds the podium, the player's rank i+1 on the real-player scoreboard and the player's own score. |
| GameLogic.HandleDisconnect | game_logic.py:766-830 | The leaving connection's player is removed and everyone else is kept. If that player was the host, the host is cleared. Game state, quiz and index are unchanged. Outside a finished game, a leaving real player is announced with the new count, and a leaving host triggers the host-disconnected error and the end of the game. A finished game sends nothing. |
| GameLogic.NewGameInv | models.py:82-93 | A new game satisfies the invariant: distinct connections and nicknames, active connections equal to the players' connections, non-negative scores, the host among the players, a valid quiz, and an index in range while a question or leaderboard is shown. |
| GameLogic.JoinPreservesInv | game_logic.py:276-353 | Joining keeps the game invariant. |
| GameLogic.StartPreservesInv | game_logic.py:376-420 | Starting keeps the game invariant. |
| GameLogic.SendQuestionPreservesInv | game_logic.py:423-471 | Sending a question keeps the game invariant. |
| GameLogic.SubmitPreservesInv | game_logic.py:474-569 | Answering keeps the game invariant. |
| GameLogic.AdvancePreservesInv | game_logic.py:643-695 | Advancing keeps the game invariant. |
| GameLogic.NextPreservesInv | game_logic.py:571-609 | The host's next-question command keeps the game invariant. |
| GameLogic.GameOverPreservesInv | game_logic.py:697-750 | Ending keeps the game invariant. |
| GameLogic.DisconnectPreservesInv | game_logic.py:753-830 | A disconnect keeps the game invariant. |
| GameLogic.ActiveConnsArePlayers | game_logic.py:320-321 | Under the invariant, a connection is active exactly when it belongs to a player. |
| Server.Recipients | game_logic.py:240-242 | A broadcast reaches exactly the active connections other than the excluded one. |
| Server.FirstFree | main.py:109-114 | Returns the first drawn code that is not registered, or fails exactly when all are registered. |
| Server.CreateGame | main.py:108-131 | Fails with status 500 exactly when all ten drawn codes are taken. Otherwise it registers a fresh lobby game under the first free code and returns that code, leaving everything else as it was. |
| Server.Connect | main.py:163-190 | An unknown code (stripped and upper-cased) gets an `INVALID_GAME_CODE` error and a 1008 close, with nothing stored. A known code records the connection for that game, not yet joined. |
| Server.LoadQuiz | main.py:246-267 | The host in the lobby with a valid quiz gets it loaded and is acked with its title and question count. In every other case the game is unchanged and the sender gets one error. |
| Server.Dispatch | main.py:242-304 | A non-host cannot change the game's state, quiz or index, and every reply goes to that sender alone. A non-host's start, next or end message leaves the game as it was and gets exactly one error naming what only the host may do. The host's own answer is ignored: the game is unchanged and nothing is sent. An unknown message type gets exactly one error naming that type, and the game is unchanged. |
| Server.Receive | main.py:200-322 | Bad JSON, a malformed message, or any message before `join_game` closes the socket with 1003 and forgets the connection. No game other than the connection's own is touched, and the registry is kept. A join runs the handler as written (GameLogic.HandleJoinAsWritten). Afterwards the connection counts as joined exactly when it is then a player of the game. A second `join_game` on a joined connection gets exactly one "already joined" error, and nothing else changes. Any other message from a joined connection is routed to its game by Server.Dispatch, and the routes are kept. |
| Server.ClientGone | main.py:334-337 | The connection is forgotten and its game takes the disconnect. The code stays registered exactly while the game still has active connections. |
| Server.RunTask | game_logic.py:410-420 | An automatic advance whose game is gone or no longer on the leaderboard does nothing except leave the queue. The first question is sent only while the game shows question 0 without a start time, as it does right after start; otherwise the task only leaves the queue. |
| Server.StartMakesFirstQuestionDue | game_logic.py:410-420 | A start that changes the game leaves it showing question 0 with no start time and schedules the first question. |
| Server.MovedOnGameKeepsState | main.py:269-272 | A first-question task for a game that is no longer waiting for it leaves every game unchanged and sends nothing, so it cannot reopen a finished game. |
| Server.EmptyInv | main.py:93-131 | The empty server satisfies the server invariant: registered codes are valid and lead to games with that code, every game keeps the game invariant, and routes and tasks point at existing games. |
| Server.CreateGamePreservesInv | main.py:108-131 | Creating a game keeps the server invariant. |
| Server.ConnectPreservesInv | main.py:163-190 | Accepting a connection keeps the server invariant. |
| Server.ReceivePreservesInv | main.py:200-322 | Handling any message keeps the server invariant. |
| Server.ClientGonePreservesInv | game_logic.py:753-830 | Cleaning up after a client keeps the server invariant. |
| Server.RunTaskPreservesInv | game_logic.py:612-641 | Running a scheduled task keeps the server invariant. |
| Server.OnlyHostSteers | main.py:242-299 | A message from a connection that is not the host never changes the game's state, quiz or index, and never schedules a task. |
| Gift.NormalizeNewlines | builder.js:671 | Text without carriage returns is unchanged. |
| Gift.BlocksHaveNoSeparator | builder.js:671 | No block contains a separator (a blank line; in the Basic dialect, two line feeds). |
| Gift.UnescapeEscape | builder.js:709 | Removing the escapes from escaped text gives the original. |
| Gift.StripTags | builder.js:708 | Text without `>` is unchanged, and every `>` that remains was in the input. |
| Gift.MatchesRender | builder.js:713-734 | The option scanner reads back every list of plain options written as `=text` / `~text`, with their texts and correctness. |
| Gift.KeptOptions | builder.js:725-733 | Keeps only options with non-empty cleaned text, numbered `opt_gift_<block>_<n>` in order. |
| Gift.ParseBlock | builder.js:683-753 | A block yields a question only if it has id `q_gift_<block>`, non-empty text, 20 seconds, two to four options with texts and ids `opt_gift_<block>_<n>`, and the title in effect. When only kept options are counted, exactly one of them is correct. |
| Gift.FromParts | builder.js:698-753 | A question made from a block's parts has the cleaned text, two to four kept options numbered in order, and its own title or else the one in effect. When only kept options are counted, exactly one is correct. |
| Gift.ParseRenderedBlock | builder.js:683-753 | Completeness for one block: plain question text followed by `{`, plain `=`/`~` options with exactly one correct, and `}` parses to exactly that question, under both counting rules. |
| Gift.ParseGift | builder.js:667-757 | Every question has trimmed non-empty text, 20 seconds and two to four options with texts and distinct ids. No two questions share an id. When only kept options are counted, every question has exactly one correct option. As written (CountMatches) that last promise is not made. |
| Gift.ParseRenderedGift | builder.js:667-757 | Completeness: any list of plain questions written in GIFT, a blank line between two, parses back to exactly those questions with their options, numbered by position, in both revisions and under both counting rules. |
| Gift.BlockQuestionFits | js/builder.js:487-563 | A question produced from a block has the parsed shape, and exactly one correct option when only kept options are counted. |
| Gift.QuestionIdInjective | builder.js:741 | Blocks at different positions give different question ids. |
| Gift.RulesAgreeWhenNothingDropped | builder.js:722-733 | When no option is emptied by cleaning, counting correct matches and counting kept correct options agree. |
| Gift.DroppedCorrectOptionAccepted | builder.js:722-736 | As written: an `=` option whose text cleans to nothing is counted as correct and dropped, so a question with no correct kept option passes the count. |
| Gift.DroppedCorrectOptionScanned | builder.js:713 | The scanner reads `=<b>~a~b` as one correct option `<b>` and two wrong ones. |
| Gift.DroppedCorrectBlockAccepted | builder.js:683-753 | As written, the block `Q{=<b>~a~b}` becomes a question with options `a` and `b`, neither correct. Counting only kept options, it is refused. |
| Gift.DroppedCorrectTextAccepted | builder.js:667-757 | As written, the text `Q{=<b>~a~b}` yields that one question with no correct option. Counting only kept options, it yields none. |
| HostClient.ShowViewShowsOne | js/utils.js:3-6 | With distinct section ids, exactly one section is visible. |
| HostClient.DomIdInjectiveOnWords | js/game.js:344 | Nicknames made of word characters get distinct lobby element ids. |
| HostClient.AddPlayer | js/game.js:319-346 | Host nicknames, nicknames already present and names an object inherits (`constructor`, `toString`, `__proto__`, …) leave the lobby unchanged. Otherwise the nickname is appended. The list keeps showing the roster, and the roster stays free of duplicates and host names. |
| HostClient.InheritedNameNotListed | js/game.js:329 | A player named after an inherited object property is never listed: alone in the lobby it leaves the count at 0 and start disabled. |
| HostClient.RemovePlayer | js/game.js:348-370 | Host nicknames change nothing. Otherwise the nickname leaves the roster, and with the corrected removal the list keeps showing the roster. |
| HostClient.RemoveByNameKeepsLobby | js/game.js:357-361 | Removing the item that shows the nickname leaves a list that shows the roster without it. |
| HostClient.LobbyIdCollision | js/game.js:344-360 | As written: when two ordinary nicknames share an element id and the second leaves after both joined, the roster keeps the first but the list shows the second. |
| HostClient.CollidingNames | js/game.js:344 | "a b" and "a_b" are distinct ordinary nicknames with the same element id. |
| HostClient.ArrivalsAndDeparturesKeepLobby | js/game.js:232-250 | A join or a departure followed by the recount keeps the lobby invariant. |
| HostClient.PreviewMarksOne | js/game.js:422-435 | With distinct option ids, exactly the correct option is marked. |
| HostClient.FirstCorrectId | js/game.js:424 | The id of the first option marked correct, or none when no option is. |
| HostClient.CountdownAfter | js/game.js:451-494 | After k ticks of a d-second countdown, d-k seconds are left. It is red once k ≥ 1 and at most 5 are left, and it runs while time remains. |
| HostClient.CountdownStops | js/game.js:482-484 | Ticks after the countdown reached 0 change nothing. |
| HostClient.MedalLabel | js/game.js:522-526 | Rank 1 gets the gold medal, rank 2 the silver and rank 3 the bronze. Every other rank is shown as its number followed by ". ". |
| HostClient.MedalLabelShowsRank | js/game.js:526 | Past the medals, `parseInt` reads the rank back from the label. |
| HostClient.DisplayQuestion | js/game.js:406-449 | The question number, total and countdown come from the message. The preview marks the quiz's first correct option when the quiz has that question. |
| HostClient.Reset | js/utils.js:36-79 | The game, socket, roster and countdown are forgotten, and the lobby, code display and next button are reset. A live socket is closed with code 1000, and the view is kept. As written the end button keeps its state; the correction enables it. |
| HostClient.ResetIdempotent | js/utils.js:36-79 | Resetting twice is resetting once, and the second reset closes nothing. |
| HostClient.Cancel | js/game.js:535-550 | Without confirmation nothing happens. Once confirmed, an open socket is closed with 1000, the game is reset and the dashboard is shown. |
| HostClient.SendCommand | js/game.js:383-404 | A command is sent exactly when the socket is open. Otherwise start, next and end reset to the dashboard, and other commands do nothing. |
| HostClient.OnRoster | js/game.js:214-250 | `join_ack` for a nickname the page has, or an object inherits, changes nothing, not even the count. Otherwise `join_ack` and `player_joined` add the nickname under the same checks, `player_left` removes it, and the start button is enabled exactly when the quiz is loaded and the roster is not empty. |
| HostClient.OnQuizLoaded | js/game.js:222-230 | The quiz is marked loaded, and start is enabled exactly when somebody has joined. |
| HostClient.OnStage | js/game.js:257-291 | A new question clears the results and enables next. A scoreboard stops the countdown and shows the top five. Game over shows the end view with the podium and closes an open socket with 1000. |
| HostClient.OnError | js/game.js:293-306 | Every error is alerted. A quiz-load error, a message containing "Formato de cuestionario inválido" or a host-disconnected code cancel to the dashboard; any other error changes nothing else. |
| HostClient.InvalidQuizCancels | js/game.js:296-301 | The server's invalid-quiz error sends the host back to the dashboard with the game forgotten. |
| HostClient.HostJoinNotListed | js/game.js:147 | The host's own join ack never adds the host to the lobby list. |
| HostClient.FindQuiz | js/game.js:29 | Finds a stored quiz with the id, and fails exactly when none has it. |
| HostClient.HandleInitiate | js/game.js:26-56 | An unknown quiz or one without questions is refused with an alert. Otherwise the game is reset, the lobby view shows "CREANDO..." with start and cancel disabled, and a game is requested from the server. |
| HostClient.Connect | js/game.js:101-141 | A created socket becomes the current one, connecting to the game's code, with an empty waiting lobby. A failed creation resets to the dashboard. |
| HostClient.HandleCreateDone | js/game.js:61-92 | A reply with a code stores it, opens the socket and enables cancel. A failure resets to the dashboard. |
| HostClient.HandleOpened | js/game.js:144-160 | When the current socket opens, the host joins under its nickname and then sends the quiz. If there is no quiz to send, the host joins and then alerts. The game is cancelled without asking: the socket is closed with 1000 and forgotten, the game code is dropped, the lobby is reset and the dashboard is shown. |
| HostClient.HandleClosed | js/game.js:180-197 | After a normal end the close only forgets the socket. Otherwise the game is reset and the dashboard is shown, unless the user is logged out. An alert is raised exactly for an unclean close whose code is neither 1000 nor 1008. |
| HostClient.HandleClick | js/game.js:586-665 | Confirming the end sends `end_game` and disables next and end. Start sends `start_game` and disables itself. The code copies only once it is known. Back returns to the dashboard and reloads the quizzes. |
| HostClient.Step | js/game.js:164-317 | Every event keeps the screen invariant and the login data, and, as written, a disabled end button stays disabled. A socket error while connecting or open alerts and shows the dashboard. |
| HostClient.FailedConnectionAlerts | js/game.js:173-178 | A socket that fails while still connecting alerts the host and shows the dashboard. |
| HostClient.RunKeepsValid | js/game.js:201-317 | Any sequence of events keeps the screen invariant. With the corrected removal, the lobby list keeps showing the roster. |
| HostClient.EndButtonStaysDisabled | js/game.js:644-648 | As written: once the end button is disabled, no sequence of events enables it again. |
| HostClient.EndedGameDisablesNextGame | js/game.js:641-663 | As written: ending a game, going back and starting another leaves the new game's end button disabled. |
| HostClient.NewGameOffersEnd | js/utils.js:36-79 | With the corrected reset, starting a game enables the end button. |
| HostClient.StaleCloseResets | js/game.js:180-197 | The close of an earlier socket still resets the current game and closes its open socket. |
| Builder.OrElse | builder.js:400 | Picks the first string unless it is empty. The result is empty only when both are. |
| Builder.BlankIffTrimEmpty | builder.js:289 | A field counts as empty exactly when trimming leaves nothing. |
| Builder.CollectOptions | builder.js:335-361 | Options are collected exactly when all are filled and at most one is checked. Each keeps its id (or `opt_<question>_<index>`), trimmed text and flag. Otherwise the first empty option, or the second checked one, is reported. |
| Builder.CollectQuestion | builder.js:304-377 | A block saves exactly when its text is filled, its time parses to 5..120, it has 2 to 4 filled options and exactly one is checked. The first failing rule, in source order, is reported. |
| Builder.Collect | builder.js:280-400 | The form saves exactly when the title is filled, there is a question and every block saves. The quiz keeps the form's id or a generated one, the trimmed title and every block's question in order. Otherwise the first problem is reported. |
| Builder.SavedQuizAccepted | builder.js:321-369 | A quiz the builder saves is one the server's quiz validation accepts, and every question has exactly one correct option. |
| Builder.Store | builder.js:402-421 | A new quiz is appended. An edited quiz replaces the first stored quiz with its id, and it is an error when none has it. |
| Builder.SaveQuiz | builder.js:263-448 | An invalid form reports its first problem. A valid new quiz is appended, and a successful save changes the list's length by one exactly when the quiz is new. |
| Builder.SavedQuizIsFound | builder.js:399-421 | After a save, looking up the quiz's id finds exactly the saved quiz. |
| Builder.IndexOfQuiz | builder.js:408 | Returns the first position holding the id, or none. |
| Builder.RefreshMoves | builder.js:250-261 | Only the first block cannot move up and only the last cannot move down; content is untouched. |
| Builder.Settle | builder.js:212-248 | After the full refresh every block's buttons agree with the form, and content is untouched. |
| Builder.NewForm | builder.js:115-123 | A new form has one empty question with the default time, and its buttons agree. |
| Builder.StoredBlock | builder.js:143-186 | A stored question is shown with its options, or with two empty options when it has fewer than two, and with its time limit when one is set. |
| Builder.Open | builder.js:59-125 | Opening a quiz shows its id, title and one block per question, or a single empty block when it has none, and the buttons agree. |
| Builder.EditForm | builder.js:129-141 | Editing opens a form exactly when a stored quiz has the id. |
| Builder.ReopenSavesSame | builder.js:101-114 | Reopening a saved quiz and saving it again, at any later time, gives the same quiz. |
| Builder.ReshownQuestionSavesSame | builder.js:165-178 | A saved question shown again saves to the same question. |
| Builder.AddQuestionAsWritten | builder.js:143-186 | As written: a new block with the default time is appended and the existing blocks keep their content. |
| Builder.StaleDeleteButton | builder.js:822 | As written: after adding a question to a new form, the first block's delete button stays disabled although two questions exist. |
| Builder.AddQuestionAsWrittenSafe | builder.js:212-248 | As written, adding a question still never enables a button whose action is not allowed. |
| Builder.AddQuestionBlock | js/builder.js:668 | A new block with the default time is appended, existing blocks keep their content, and all buttons agree with the form. |
| Builder.BasicAddQuestionAgrees | js/builder.js:668 | In the Basic revision, the wiring as written already refreshes every block. |
| Builder.Swap | builder.js:933-944 | Exchanges two neighbouring blocks and leaves the others in place. |
| Builder.Edit | builder.js:901-946 | Editing never changes the quiz id, title or default time. Adding a question (the button wired at builder.js:822) appends a new block and keeps the content of every other block, in the handler as written and in the corrected one. Deleting the only question is refused and leaves the form unchanged, and no other click is refused. A click whose button is absent or disabled changes nothing. Adding an option appends one empty option to that question. Deleting an option removes exactly that option. In both cases every other block is kept. |
| Builder.AddThenDeleteOption | builder.js:911-923 | Adding an option and then deleting the new option gives back the question's content. Every other block is kept. |
| Builder.EditKeepsForm | builder.js:212-248 | With the corrected add-question handler, or on the Basic page, every click keeps each question at 2 to 4 options and at least one question, and keeps every block's buttons in agreement with the form. |
| Builder.EditKeepsButtonsSafe | builder.js:212-248 | For either revision of the add-question handler, including builder.js as written: when the option and move buttons agree with the form and a delete-question button is enabled only while another question exists, every click keeps each question at 2 to 4 options and at least one question, keeps the buttons that way, and is never refused. |
| Builder.MoveUpThenDown | builder.js:933-944 | Moving a block up and then back down restores the form. |
| Builder.DeleteQuestionKeepsOthers | builder.js:924-929 | Deleting a question removes exactly that block and keeps the others, in order. |
| Builder.DefaultTimeValue | builder.js:760-770 | NaN gives 20. Otherwise the value is clamped into [min, max], and when min exceeds max the result is min. |
| Builder.ApplyDefaultTime | builder.js:772-781 | The default-time input and every question's time show the chosen value, and nothing else changes. |
| Builder.DefaultTimeIdempotent | builder.js:772-774 | Applying the displayed default time again changes nothing. |
| Builder.DefaultTimeSavable | builder.js:760-781 | With limits inside 5..120, every time the control sets passes the save check. |
| Builder.ImportTime | builder.js:509-511 | An imported question's time parses exactly when the default time does, and it is valid whenever the default time is. |
| Builder.GiftBlock | builder.js:510-512 | An imported question becomes a block with its id, text and options. |
| Builder.AddImported | builder.js:485-522 | Imported blocks are appended after the kept blocks; an untouched first question of a new quiz is dropped. A blank title takes the first question's GIFT title. All buttons agree. |
| Builder.ImportGift | builder.js:463-536 | The import succeeds exactly when the parser (with the given counting rule; the pages as written count matches) finds questions, and reports their number. Otherwise the form is unchanged, and "empty content" is reported exactly for empty input to the Extended revision. |
| Builder.ImportUncheckedQuestion | builder.js:463-536 | As written, importing `Q{=<b>~a~b}` adds one question whose block then fails the save check. Counting only kept options, nothing is found and the form is unchanged. |
| Builder.ImportKeepsForm | builder.js:463-536 | An import keeps the form's shape and button agreement. |
| Builder.ImportedQuestionSaves | builder.js:510-512 | An imported question saves as it stands when the default time is valid. |
| Builder.OneCorrectOption | builder.js:736 | A correct count of one means exactly one option is marked correct. |
| Builder.FileImport | builder.js:558-562 | A file is refused exactly when its name, lower-cased, ends neither in `.txt` nor in `.gift`. A refusal leaves the form unchanged, and an accepted file is imported under the given counting rule. |
| Builder.FileNames | builder.js:558 | `Quiz.GIFT` and `preguntas.txt` are accepted; `quiz.gift.pdf` and `gift` are refused. |
| Builder.TextImport | builder.js:578-607 | Pasted text that is blank is refused with the form unchanged. Otherwise the trimmed text is imported by the Extended parser under the given counting rule. |

## Left out

- Sockets, HTTP, `fetch`, `FileReader`, `localStorage` and the DOM are replaced by explicit inputs and output lists. JSON encoding is left out: messages are datatypes.
- `time.time()` and `Date.now()` are a `now` parameter. `secrets`/`uuid` random choices are a parameter: the ten codes drawn by game creation are given as a list, and the option-id fallback picks a fresh id deterministically.
- asyncio timing (`sleep`, `create_task`) and `setTimeout`/`setInterval` become queued tasks and tick events, and delays are not modelled. The host's first question is a task run after `game_started`.
- Server.RunTask: the host's start handler sends the first question before the host's next message is read (main.py:269-272), but here it is a queued task, so other messages may be received first. A first question whose game has moved on by then is dropped, and the model does not promise that the question is sent.
- Exceptions from socket sends, and the server's catch-all error replies, are left out. A send always succeeds.
- GameLogic.CalculatePoints: Python floats are modelled as exact reals, so `int()` truncation is exact; float rounding near the limits is not modelled.
- Text.LowerStr and Text.UpperStr: only ASCII case mapping is modelled, not full Unicode case mapping. Strings are sequences of characters, not UTF-16 code units.
- Logging and the modal dialogs are left out; the text of alerts and status messages is abstracted to tags.
- Drag-and-drop reordering (js/builder.js 571-650), `copyGiftPrompt` and the tab switching are left out as presentation only.
- The `order` field builder.js writes into each saved question (builder.js:376) is left out; nothing reads it.
- Radio-group exclusivity when a stored quiz is loaded into the form is left out: a stored quiz with two correct options shows two checked options.
- The question template's preset time for a Basic new question is taken to be "20", because the template is not part of this model.
- The no-file branch of handleFileSelect is left out, since it only clears the file-name label.
- js/auth.js, js/main.js, js/ui_helpers.js and js/dashboard.js are not part of this model.
- HostClient.AddPlayer and HostClient.OnRoster: the inherited names are the properties ECMA-262 gives Object.prototype (section 20.1.3 and annex B.2.2); properties another script might add to it are not modelled.
- Server.Receive: the server's catch-all for unexpected exceptions while handling a message is left out.

## Findings

| source | as written | input that shows it | evidently intended | confidence | as-written member | corrected member |
|---|---|---|---|---|---|---|
| game_logic.py:325-343 | the join ack's `player_count` is computed after the joiner is added, so a host's ack counts the host | a host joins a fresh game: the ack says 1 while there are 0 real players | the ack reports the number of real players, which `player_joined` also reports | medium, not executed | GameLogic.JoinAckCountsHost | GameLogic.HandleJoin |
| builder.js:722-736 | `correctCount` counts every `=` match, including one whose text cleaning empties and drops | `Q{=<b>~a~b}`: the count is 1, and the kept options `a` and `b` are both wrong | a question is accepted only when exactly one kept option is correct | high, not executed | Gift.DroppedCorrectTextAccepted | Gift.ParseGift |
| js/game.js:641-648 | confirming the end disables the end button, and no path (including resetHostState) enables it again | end a game, go back, start another: the end button stays disabled | a new game offers the end button again | high, not executed | HostClient.EndedGameDisablesNextGame | HostClient.NewGameOffersEnd |
| js/game.js:344-360 | lobby element ids replace non-word characters with `_`, so two nicknames can share an id, and removal deletes the first element with that id | "a b" and "a_b" join, then "a_b" leaves: the list still shows "a_b" and drops "a b" | the item showing the leaving nickname is removed | high, not executed | HostClient.LobbyIdCollision | HostClient.RemoveByNameKeepsLobby |
| builder.js:822 | the add-question button calls addQuestionBlock, which refreshes only the new block's buttons (builder.js:184), so earlier blocks keep a disabled delete button | a new form, then add a question: the first block's delete button stays disabled with two questions | every block's delete button is enabled once there are two questions, as js/builder.js:668 does | high, not executed | Builder.StaleDeleteButton | Builder.AddQuestionBlock |

=== FILE: builder.dfy ===
/** The quiz builder of the host's page: the editing form with its
    per-question buttons, saving the form as a quiz (validation first, the
    first problem reported), storing the quiz in the host's list, the
    default-time control and importing GIFT text.

    Two revisions of the page exist and are told apart by Gift.Dialect:
    Extended is builder.js (move buttons, a default-time control, import
    from pasted text) and Basic is js/builder.js. */
module Builder {
  import opened Wrappers
  import opened Text
  import opened Models
  import Gift
  import HostClient

  // ----- the form -----

  datatype OptionField = OptionField(id: string, text: string, checked: bool)

  /** Which of a question block's buttons are enabled. */
  datatype Buttons = Buttons(deleteQuestion: bool, addOption: bool, deleteOption: bool, moveUp: bool, moveDown: bool)

  /** One question block: its stored id ("" for a new question), the text
      and time inputs as typed, its options and its buttons. */
  datatype Block = Block(id: string, text: string, time: string, options: seq<OptionField>, buttons: Buttons)

  /** The builder form: the edited quiz's id ("" when creating), the title
      and default-time inputs, and the question blocks in page order. */
  datatype Form = Form(quizId: string, title: string, defaultTime: string, blocks: seq<Block>)

  /** JavaScript's `a || b` on strings. */
  function OrElse(a: string, b: string): (r: string)
    ensures r == a || r == b
    ensures r == [] ==> a == [] && b == []
  {
    if a != [] then a else b
  }

  /** The input holds only white space, which is when trimming empties it
      (BlankIffTrimEmpty). */
  predicate Blank(s: string) {
    s == [] || (IsSpace(Js, s[0]) && Blank(s[1..]))
  }

  lemma {:induction false} BlankIffTrimEmpty(s: string)
    ensures Blank(s) <==> JsTrim(s) == []
  {
    BlankIsBlank(s);
    TrimEmptyIffBlank(Js, s);
  }

  lemma {:induction false} BlankIsBlank(s: string)
    ensures Blank(s) <==> IsBlank(Js, s)
  {
    if s != [] {
      BlankIsBlank(s[1..]);
      assert forall i :: 1 <= i < |s| ==> s[i] == s[1..][i - 1];
    }
  }

  // ----- saving: validation -----

  /** The problems saving reports, with 0-based question and option
      positions (the messages show them counted from 1). */
  datatype SaveError =
    | EmptyTitle
    | NoQuestions
    | EmptyQuestionText(question: nat)
    | BadTime(question: nat)
    | BadOptionCount(question: nat)
    | EmptyOptionText(question: nat, option: nat)
    | MultipleCorrect(question: nat)
    | NoCorrect(question: nat)

  /** parseInt of the time input gives a number of seconds from 5 to 120. */
  predicate TimeOk(time: string) {
    var t := ParseIntJs(time);
    t.Some? && MinTimeLimit <= t.value <= MaxTimeLimit
  }

  predicate OptionsFilled(opts: seq<OptionField>, lo: nat, hi: nat)
    requires lo <= hi <= |opts|
  {
    forall k :: lo <= k < hi ==> !Blank(opts[k].text)
  }

  predicate AtMostOneChecked(opts: seq<OptionField>, hi: nat)
    requires hi <= |opts|
  {
    forall j, k :: 0 <= j < k < hi ==> !(opts[j].checked && opts[k].checked)
  }

  predicate CheckedBefore(opts: seq<OptionField>, hi: nat)
    requires hi <= |opts|
  {
    exists j :: 0 <= j < hi && opts[j].checked
  }

  /** Text, time and option count of a block pass. */
  predicate HeaderOk(b: Block) {
    !Blank(b.text) && TimeOk(b.time) && MinOptions <= |b.options| <= MaxOptions
  }

  /** Everything saving checks of one block passes. */
  predicate BlockOk(b: Block) {
    HeaderOk(b) && OptionsFilled(b.options, 0, |b.options|)
    && AtMostOneChecked(b.options, |b.options|) && CheckedBefore(b.options, |b.options|)
  }

  /** Everything saving checks passes. */
  predicate FormOk(f: Form) {
    !Blank(f.title) && |f.blocks| > 0 && forall i :: 0 <= i < |f.blocks| ==> BlockOk(f.blocks[i])
  }

  /** e is the problem the option scan of question q meets first: an empty
      option text, or a second checked option, with no problem before it. */
  predicate OptionErrorFirst(opts: seq<OptionField>, q: nat, e: SaveError) {
    match e
    case EmptyOptionText(i, k) =>
      i == q && k < |opts| && Blank(opts[k].text) && OptionsFilled(opts, 0, k) && AtMostOneChecked(opts, k)
    case MultipleCorrect(i) =>
      i == q
      && (exists k :: 0 <= k < |opts| && opts[k].checked && CheckedBefore(opts, k)
                      && OptionsFilled(opts, 0, k + 1) && AtMostOneChecked(opts, k))
    case _ => false
  }

  /** e is the problem saving meets first in block b at position q. */
  predicate BlockErrorFirst(b: Block, q: nat, e: SaveError) {
    match e
    case EmptyQuestionText(i) => i == q && Blank(b.text)
    case BadTime(i) => i == q && !Blank(b.text) && !TimeOk(b.time)
    case BadOptionCount(i) => i == q && !Blank(b.text) && TimeOk(b.time) && !(MinOptions <= |b.options| <= MaxOptions)
    case NoCorrect(i) =>
      i == q && HeaderOk(b) && OptionsFilled(b.options, 0, |b.options|)
      && !CheckedBefore(b.options, |b.options|)
    case _ => HeaderOk(b) && OptionErrorFirst(b.options, q, e)
  }

  /** e is the problem saving meets first in the whole form. */
  predicate ReportsFirst(f: Form, e: SaveError) {
    if e.EmptyTitle? then Blank(f.title)
    else if e.NoQuestions? then !Blank(f.title) && f.blocks == []
    else
      !Blank(f.title) && e.question < |f.blocks|
      && (forall j :: 0 <= j < e.question ==> BlockOk(f.blocks[j]))
      && BlockErrorFirst(f.blocks[e.question], e.question, e)
  }

  // ----- saving: the quiz written -----

  function GeneratedQuizId(now: nat): string {
    "quiz_" + NatToString(now)
  }

  function GeneratedQuestionId(now: nat, q: nat): string {
    "q_" + NatToString(now) + "_" + NatToString(q)
  }

  function GeneratedOptionId(questionId: string, k: nat): string {
    "opt_" + questionId + "_" + NatToString(k)
  }

  /** Option k of a question with id questionId is saved as ro: its own id
      or a generated one, the trimmed text, and the radio's state. */
  predicate SavedOption(o: OptionField, questionId: string, k: nat, ro: RawOption) {
    ro == RawOption(Some(OrElse(o.id, GeneratedOptionId(questionId, k))), JsTrim(o.text), o.checked)
  }

  /** Block b at position q is saved as rq at clock reading now. */
  predicate SavedQuestion(b: Block, q: nat, now: nat, rq: RawQuestion) {
    rq.id == Some(OrElse(b.id, GeneratedQuestionId(now, q)))
    && rq.text == JsTrim(b.text) && rq.timeLimit == ParseIntJs(b.time)
    && |rq.options| == |b.options|
    && forall k :: 0 <= k < |b.options| ==> SavedOption(b.options[k], rq.id.value, k, rq.options[k])
  }

  /** The option loop of saveQuiz from option k on, the options before k
      having passed. */
  function CollectOptions(opts: seq<OptionField>, questionId: string, q: nat, k: nat): (r: Result<seq<RawOption>, SaveError>)
    requires k <= |opts|
    requires OptionsFilled(opts, 0, k) && AtMostOneChecked(opts, k)
    decreases |opts| - k
    ensures r.Ok? <==> OptionsFilled(opts, 0, |opts|) && AtMostOneChecked(opts, |opts|)
    ensures r.Ok? ==> |r.value| == |opts| - k
                      && forall i :: k <= i < |opts| ==> SavedOption(opts[i], questionId, i, r.value[i - k])
    ensures r.Err? ==> OptionErrorFirst(opts, q, r.error)
  {
    if k == |opts| then Ok([])
    else
      var o := opts[k];
      if Blank(o.text) then
        assert !OptionsFilled(opts, 0, |opts|);
        Err(EmptyOptionText(q, k))
      else if o.checked && CheckedBefore(opts, k) then
        var j :| 0 <= j < k && opts[j].checked;
        assert !AtMostOneChecked(opts, |opts|);
        assert OptionsFilled(opts, 0, k + 1);
        Err(MultipleCorrect(q))
      else
        assert OptionsFilled(opts, 0, k + 1);
        assert AtMostOneChecked(opts, k + 1);
        match CollectOptions(opts, questionId, q, k + 1)
        case Err(e) => Err(e)
        case Ok(rest) =>
          var ro := RawOption(Some(OrElse(o.id, GeneratedOptionId(questionId, k))), JsTrim(o.text), o.checked);
          SavedOptionsCons(opts, questionId, k, ro, rest);
          Ok([ro] + rest)
  }

  lemma {:induction false} SavedOptionsCons(opts: seq<OptionField>, questionId: string, k: nat, ro: RawOption, rest: seq<RawOption>)
    requires k < |opts| && |rest| == |opts| - k - 1
    requires SavedOption(opts[k], questionId, k, ro)
    requires forall i :: k + 1 <= i < |opts| ==> SavedOption(opts[i], questionId, i, rest[i - k - 1])
    ensures forall i :: k <= i < |opts| ==> SavedOption(opts[i], questionId, i, ([ro] + rest)[i - k])
  {
    forall i | k <= i < |opts| ensures SavedOption(opts[i], questionId, i, ([ro] + rest)[i - k]) {
      if i > k {
        assert ([ro] + rest)[i - k] == rest[i - k - 1];
      }
    }
  }

  /** One iteration of saveQuiz's question loop. */
  function CollectQuestion(b: Block, q: nat, now: nat): (r: Result<RawQuestion, SaveError>)
    ensures r.Ok? <==> BlockOk(b)
    ensures r.Ok? ==> SavedQuestion(b, q, now, r.value)
    ensures r.Err? ==> BlockErrorFirst(b, q, r.error)
  {
    var text := JsTrim(b.text);
    var time := ParseIntJs(b.time);
    var qid := OrElse(b.id, GeneratedQuestionId(now, q));
    if Blank(b.text) then Err(EmptyQuestionText(q))
    else if time.None? || time.value < MinTimeLimit || time.value > MaxTimeLimit then Err(BadTime(q))
    else if |b.options| < MinOptions || |b.options| > MaxOptions then Err(BadOptionCount(q))
    else
      match CollectOptions(b.options, qid, q, 0)
      case Err(e) => Err(e)
      case Ok(os) =>
        if !CheckedBefore(b.options, |b.options|) then Err(NoCorrect(q))
        else Ok(RawQuestion(Some(qid), text, os, Some(time.value)))
  }

  /** Blocks i and after all pass. */
  predicate BlocksOkFrom(blocks: seq<Block>, i: nat)
    decreases |blocks| - i
  {
    i >= |blocks| || (BlockOk(blocks[i]) && BlocksOkFrom(blocks, i + 1))
  }

  /** qs are blocks i and after, saved at clock reading now. */
  predicate SavedFrom(blocks: seq<Block>, i: nat, now: nat, qs: seq<RawQuestion>)
    decreases |blocks| - i
  {
    if i >= |blocks| then qs == []
    else qs != [] && SavedQuestion(blocks[i], i, now, qs[0]) && SavedFrom(blocks, i + 1, now, qs[1..])
  }

  lemma {:induction false} BlocksOkFromAll(blocks: seq<Block>, i: nat)
    requires i <= |blocks|
    decreases |blocks| - i
    ensures BlocksOkFrom(blocks, i) <==> forall j :: i <= j < |blocks| ==> BlockOk(blocks[j])
  {
    if i < |blocks| {
      BlocksOkFromAll(blocks, i + 1);
    }
  }

  lemma {:induction false} SavedFromAll(blocks: seq<Block>, i: nat, now: nat, qs: seq<RawQuestion>)
    requires i <= |blocks| && SavedFrom(blocks, i, now, qs)
    decreases |blocks| - i
    ensures |qs| == |blocks| - i
    ensures forall j :: i <= j < |blocks| ==> SavedQuestion(blocks[j], j, now, qs[j - i])
  {
    if i < |blocks| {
      SavedFromAll(blocks, i + 1, now, qs[1..]);
      forall j | i < j < |blocks|
        ensures SavedQuestion(blocks[j], j, now, qs[j - i])
      {
        assert qs[j - i] == qs[1..][j - (i + 1)];
      }
    }
  }

  /** e is the problem saving meets first in blocks i and after. */
  predicate FirstBadBlock(blocks: seq<Block>, i: nat, e: SaveError)
    decreases |blocks| - i
  {
    i < |blocks| && !e.EmptyTitle? && !e.NoQuestions?
    && if e.question == i then BlockErrorFirst(blocks[i], i, e)
       else BlockOk(blocks[i]) && FirstBadBlock(blocks, i + 1, e)
  }

  lemma {:induction false} FirstBadBlockAll(blocks: seq<Block>, i: nat, e: SaveError)
    requires FirstBadBlock(blocks, i, e)
    decreases |blocks| - i
    ensures !e.EmptyTitle? && !e.NoQuestions? && i <= e.question < |blocks|
    ensures forall j :: i <= j < e.question ==> BlockOk(blocks[j])
    ensures BlockErrorFirst(blocks[e.question], e.question, e)
  {
    if e.question != i {
      FirstBadBlockAll(blocks, i + 1, e);
    }
  }

  /** The question loop of saveQuiz from block i on. */
  function CollectFrom(blocks: seq<Block>, i: nat, now: nat): (r: Result<seq<RawQuestion>, SaveError>)
    requires i <= |blocks|
    decreases |blocks| - i
    ensures r.Ok? <==> BlocksOkFrom(blocks, i)
    ensures r.Ok? ==> SavedFrom(blocks, i, now, r.value)
    ensures r.Err? ==> FirstBadBlock(blocks, i, r.error)
  {
    if i == |blocks| then Ok([])
    else
      match CollectQuestion(blocks[i], i, now)
      case Err(e) => Err(e)
      case Ok(rq) =>
        match CollectFrom(blocks, i + 1, now)
        case Err(e) =>
          FirstBadBlockAll(blocks, i + 1, e);
          Err(e)
        case Ok(rest) =>
          assert ([rq] + rest)[1..] == rest;
          Ok([rq] + rest)
  }

  /** saveQuiz up to the quiz it stores: the first problem found, or the
      quiz with the trimmed title, the edited quiz's id or one made from the
      clock reading now, and one question per block in page order. */
  function Collect(f: Form, now: nat): (r: Result<RawQuiz, SaveError>)
    ensures r.Ok? <==> FormOk(f)
    ensures r.Ok? ==> r.value.id == Some(OrElse(f.quizId, GeneratedQuizId(now)))
                      && r.value.title == JsTrim(f.title)
                      && |r.value.questions| == |f.blocks|
                      && forall i :: 0 <= i < |f.blocks| ==> SavedQuestion(f.blocks[i], i, now, r.value.questions[i])
    ensures r.Err? ==> ReportsFirst(f, r.error)
  {
    var title := JsTrim(f.title);
    if Blank(f.title) then Err(EmptyTitle)
    else if f.blocks == [] then Err(NoQuestions)
    else
      BlocksOkFromAll(f.blocks, 0);
      match CollectFrom(f.blocks, 0, now)
      case Err(e) =>
        FirstBadBlockAll(f.blocks, 0, e);
        Err(e)
      case Ok(qs) =>
        SavedFromAll(f.blocks, 0, now, qs);
        Ok(RawQuiz(Some(OrElse(f.quizId, GeneratedQuizId(now))), title, qs))
  }

  /** Exactly one option is marked correct. */
  predicate OneCorrect(os: seq<RawOption>) {
    exists k :: 0 <= k < |os| && os[k].isCorrect && forall j :: 0 <= j < |os| && os[j].isCorrect ==> j == k
  }

  /** A quiz the builder saves is one the server's validation accepts, and
      each of its questions has exactly one correct option. */
  lemma {:induction false} SavedQuizAccepted(f: Form, now: nat)
    requires Collect(f, now).Ok?
    ensures ValidateQuiz(Collect(f, now).value).Some?
    ensures forall i :: 0 <= i < |f.blocks| ==> OneCorrect(Collect(f, now).value.questions[i].options)
  {
    var q := Collect(f, now).value;
    forall i | 0 <= i < |q.questions|
      ensures RawQuestionAcceptable(q.questions[i]) && OneCorrect(q.questions[i].options)
    {
      var b := f.blocks[i];
      assert BlockOk(b);
      var rq := q.questions[i];
      assert SavedQuestion(b, i, now, rq);
      var k :| 0 <= k < |b.options| && b.options[k].checked;
      assert SavedOption(b.options[k], rq.id.value, k, rq.options[k]);
      forall j | 0 <= j < |rq.options| && rq.options[j].isCorrect
        ensures j == k
      {
        assert SavedOption(b.options[j], rq.id.value, j, rq.options[j]);
        assert b.options[j].checked;
      }
    }
  }

  // ----- storing -----

  datatype SaveFailure = Invalid(error: SaveError) | EditedQuizMissing

  /** Position of the first quiz with the given id. */
  function IndexOfQuiz(qs: seq<RawQuiz>, id: string): (r: Option<nat>)
    ensures r.Some? ==> r.value < |qs| && qs[r.value].id == Some(id)
                        && forall j :: 0 <= j < r.value ==> qs[j].id != Some(id)
    ensures r.None? ==> forall j :: 0 <= j < |qs| ==> qs[j].id != Some(id)
  {
    if qs == [] then None
    else if qs[0].id == Some(id) then Some(0)
    else
      match IndexOfQuiz(qs[1..], id)
      case None => None
      case Some(k) => Some(k + 1)
  }

  /** The stored list after saving quiz: an edited quiz replaces the first
      one with its id, and when none has it nothing is saved; a new quiz is
      appended. */
  function Store(qs: seq<RawQuiz>, existingId: string, quiz: RawQuiz): (r: Result<seq<RawQuiz>, SaveFailure>)
    ensures existingId == [] ==> r == Ok(qs + [quiz])
    ensures existingId != [] && (forall j :: 0 <= j < |qs| ==> qs[j].id != Some(existingId)) ==> r == Err(EditedQuizMissing)
    ensures existingId != [] && r.Ok? ==>
              exists k :: 0 <= k < |qs| && qs[k].id == Some(existingId)
                          && (forall j :: 0 <= j < k ==> qs[j].id != Some(existingId))
                          && r.value == qs[k := quiz]
  {
    if existingId == [] then Ok(qs + [quiz])
    else
      match IndexOfQuiz(qs, existingId)
      case None => Err(EditedQuizMissing)
      case Some(k) => Ok(qs[k := quiz])
  }

  /** saveQuiz with the clock reading now: validate, then store. */
  function SaveQuiz(f: Form, qs: seq<RawQuiz>, now: nat): (r: Result<seq<RawQuiz>, SaveFailure>)
    ensures !FormOk(f) ==> r.Err? && r.error.Invalid? && ReportsFirst(f, r.error.error)
    ensures FormOk(f) && f.quizId == [] ==> r == Ok(qs + [Collect(f, now).value])
    ensures r.Ok? ==> |r.value| == |qs| + (if f.quizId == [] then 1 else 0)
  {
    match Collect(f, now)
    case Err(e) => Err(Invalid(e))
    case Ok(quiz) => Store(qs, f.quizId, quiz)
  }

  /** After saving, the host's dashboard finds the saved quiz under its id:
      an edit replaced the first quiz with that id, and a new quiz whose id
      no stored quiz had is found at the end. */
  lemma {:induction false} SavedQuizIsFound(f: Form, qs: seq<RawQuiz>, now: nat)
    requires SaveQuiz(f, qs, now).Ok?
    requires f.quizId == [] ==> forall j :: 0 <= j < |qs| ==> qs[j].id != Some(GeneratedQuizId(now))
    ensures HostClient.FindQuiz(SaveQuiz(f, qs, now).value, OrElse(f.quizId, GeneratedQuizId(now)))
            == Some(Collect(f, now).value)
  {
    var quiz := Collect(f, now).value;
    var id := OrElse(f.quizId, GeneratedQuizId(now));
    var stored := SaveQuiz(f, qs, now).value;
    if f.quizId == [] {
      FindQuizAt(stored, id, |qs|);
    } else {
      var k :| 0 <= k < |qs| && qs[k].id == Some(f.quizId)
               && (forall j :: 0 <= j < k ==> qs[j].id != Some(f.quizId))
               && stored == qs[k := quiz];
      FindQuizAt(stored, id, k);
    }
  }

  /** FindQuiz returns the quiz at the first position holding the id. */
  lemma {:induction false} FindQuizAt(qs: seq<RawQuiz>, id: string, k: nat)
    requires k < |qs| && qs[k].id == Some(id)
    requires forall j :: 0 <= j < k ==> qs[j].id != Some(id)
    ensures HostClient.FindQuiz(qs, id) == Some(qs[k])
    decreases k
  {
    if k > 0 {
      FindQuizAt(qs[1..], id, k - 1);
    }
  }

  // ----- buttons -----

  /** A block's buttons as the page template leaves them before any update. */
  const TemplateButtons := Buttons(true, true, true, true, true)

  const EmptyOption := OptionField([], [], false)

  /** A question block with no data: two empty options. */
  function NewBlock(time: string): Block {
    Block([], [], time, [EmptyOption, EmptyOption], TemplateButtons)
  }

  /** The buttons of block i agree with the form: delete-question enabled
      exactly when there are two blocks or more, add-option when the block
      has fewer than four options, delete-option when it has more than two,
      and (builder.js only) move-up except on the first block and
      move-down except on the last. */
  predicate BlockButtonsAgree(d: Gift.Dialect, bs: seq<Block>, i: nat)
    requires i < |bs|
  {
    var b := bs[i].buttons;
    b.deleteQuestion == (|bs| > 1)
    && b.addOption == (|bs[i].options| < MaxOptions)
    && b.deleteOption == (|bs[i].options| > MinOptions)
    && (d == Gift.Extended ==> b.moveUp == (i > 0) && b.moveDown == (i < |bs| - 1))
  }

  predicate ButtonsAgree(d: Gift.Dialect, bs: seq<Block>) {
    forall i :: 0 <= i < |bs| ==> BlockButtonsAgree(d, bs, i)
  }

  /** Every enabled button's action is allowed: like agreement, except that
      a delete-question button may be disabled while deleting is allowed. */
  predicate BlockButtonsSafe(d: Gift.Dialect, bs: seq<Block>, i: nat)
    requires i < |bs|
  {
    var b := bs[i].buttons;
    (b.deleteQuestion ==> |bs| > 1)
    && b.addOption == (|bs[i].options| < MaxOptions)
    && b.deleteOption == (|bs[i].options| > MinOptions)
    && (d == Gift.Extended ==> b.moveUp == (i > 0) && b.moveDown == (i < |bs| - 1))
  }

  predicate ButtonsSafe(d: Gift.Dialect, bs: seq<Block>) {
    forall i :: 0 <= i < |bs| ==> BlockButtonsSafe(d, bs, i)
  }

  /** Two blocks hold the same question, whatever their buttons. */
  predicate SameContent(a: Block, b: Block) {
    a.id == b.id && a.text == b.text && a.time == b.time && a.options == b.options
  }

  /** updateBuilderUIState for one block, the form having count blocks. */
  function Refresh(b: Block, count: nat): Block {
    b.(buttons := b.buttons.(deleteQuestion := count > 1,
                             addOption := |b.options| < MaxOptions,
                             deleteOption := |b.options| > MinOptions))
  }

  /** updateMoveButtonStates. */
  function RefreshMoves(bs: seq<Block>): (r: seq<Block>)
    ensures |r| == |bs|
    ensures forall i :: 0 <= i < |bs| ==> SameContent(r[i], bs[i])
    ensures forall i :: 0 <= i < |bs| ==> r[i].buttons.moveUp == (i > 0) && r[i].buttons.moveDown == (i < |bs| - 1)
  {
    seq(|bs|, i requires 0 <= i < |bs| =>
      bs[i].(buttons := bs[i].buttons.(moveUp := i > 0, moveDown := i < |bs| - 1)))
  }

  /** updateBuilderUIState() for every block, followed in builder.js by
      updateMoveButtonStates(): the result holds the same questions and
      its buttons agree with it. */
  function Settle(d: Gift.Dialect, bs: seq<Block>): (r: seq<Block>)
    ensures |r| == |bs| && ButtonsAgree(d, r)
    ensures forall i :: 0 <= i < |bs| ==> SameContent(r[i], bs[i])
  {
    var all := seq(|bs|, i requires 0 <= i < |bs| => Refresh(bs[i], |bs|));
    if d == Gift.Extended then
      var r := RefreshMoves(all);
      assert forall i :: 0 <= i < |r| ==> BlockButtonsAgree(d, r, i);
      r
    else
      assert forall i :: 0 <= i < |all| ==> BlockButtonsAgree(d, all, i);
      all
  }

  // ----- opening the builder -----

  const DefaultTimeText := IntToString(DefaultTimeLimit)

  /** openQuizBuilder() for a new quiz: no id, an empty title, the default
      time of 20 seconds and one empty question. In js/builder.js a new
      question's time input keeps the page template's preset, which this
      model takes to be the same 20 seconds. */
  function NewForm(d: Gift.Dialect): (f: Form)
    ensures f.quizId == [] && |f.blocks| == 1 && ButtonsAgree(d, f.blocks)
    ensures SameContent(f.blocks[0], NewBlock(DefaultTimeText))
  {
    Form([], [], DefaultTimeText, Settle(d, [NewBlock(DefaultTimeText)]))
  }

  function StoredOption(o: RawOption): OptionField {
    OptionField(o.id.GetOr([]), o.text, o.isCorrect)
  }

  /** addQuestionBlock(questionData): a stored question's id, text, time
      and options; a question with fewer than two options gets two empty
      ones instead. builder.js keeps any stored time and takes the default
      time input when there is none; js/builder.js takes 20 when the time
      is missing or 0. */
  function StoredBlock(d: Gift.Dialect, q: RawQuestion, defaultTime: string): (b: Block)
    ensures |q.options| >= MinOptions ==>
              (|b.options| == |q.options| && forall k :: 0 <= k < |q.options| ==> b.options[k] == StoredOption(q.options[k]))
    ensures |q.options| < MinOptions ==> b.options == [EmptyOption, EmptyOption]
    ensures q.timeLimit.Some? && q.timeLimit.value != 0 ==> b.time == IntToString(q.timeLimit.value)
  {
    var time :=
      if d == Gift.Extended then
        (match q.timeLimit case Some(t) => IntToString(t) case None => defaultTime)
      else if q.timeLimit.Some? && q.timeLimit.value != 0 then IntToString(q.timeLimit.value)
      else DefaultTimeText;
    var options :=
      if |q.options| >= MinOptions then seq(|q.options|, k requires 0 <= k < |q.options| => StoredOption(q.options[k]))
      else [EmptyOption, EmptyOption];
    Block(q.id.GetOr([]), q.text, time, options, TemplateButtons)
  }

  /** The default time builder.js shows when editing: the first question's
      time when it has a non-zero one, else 20. */
  function OpeningDefaultTime(d: Gift.Dialect, q: RawQuiz): string {
    if d == Gift.Extended && q.questions != [] && q.questions[0].timeLimit.Some? && q.questions[0].timeLimit.value != 0
    then IntToString(q.questions[0].timeLimit.value)
    else DefaultTimeText
  }

  /** openQuizBuilder(quiz) for the stored quiz found under id: one block
      per stored question (one empty block when it has none), buttons
      agreeing with the form. */
  function Open(d: Gift.Dialect, q: RawQuiz, id: string): (f: Form)
    ensures f.quizId == id && f.title == q.title && ButtonsAgree(d, f.blocks)
    ensures q.questions != [] ==>
              (|f.blocks| == |q.questions|
               && forall i :: 0 <= i < |q.questions| ==> SameContent(f.blocks[i], StoredBlock(d, q.questions[i], f.defaultTime)))
    ensures q.questions == [] ==> |f.blocks| == 1
  {
    var dt := OpeningDefaultTime(d, q);
    var blocks :=
      if q.questions == [] then [NewBlock(dt)]
      else seq(|q.questions|, i requires 0 <= i < |q.questions| => StoredBlock(d, q.questions[i], dt));
    Form(id, q.title, dt, Settle(d, blocks))
  }

  /** loadQuizForEditing: the form for the first stored quiz with the id,
      or nothing when there is none. */
  function EditForm(d: Gift.Dialect, qs: seq<RawQuiz>, id: string): (r: Option<Form>)
    ensures r.Some? <==> exists j :: 0 <= j < |qs| && qs[j].id == Some(id)
    ensures r.Some? ==> r.value.quizId == id
  {
    match HostClient.FindQuiz(qs, id)
    case None => None
    case Some(q) => Some(Open(d, q, id))
  }

  // ----- saving what was opened -----

  /** Trimming a trimmed text changes nothing, and it is blank exactly when
      the original was. */
  lemma {:induction false} TrimmedText(s: string)
    ensures JsTrim(JsTrim(s)) == JsTrim(s)
    ensures Blank(JsTrim(s)) <==> Blank(s)
  {
    TrimIdempotent(Js, s);
    BlankIffTrimEmpty(s);
    BlankIffTrimEmpty(JsTrim(s));
  }

  /** A block determines what it is saved as. */
  lemma {:induction false} SavedQuestionUnique(b: Block, i: nat, now: nat, r1: RawQuestion, r2: RawQuestion)
    requires SavedQuestion(b, i, now, r1) && SavedQuestion(b, i, now, r2)
    ensures r1 == r2
  {
    assert r1.options == r2.options by {
      forall k | 0 <= k < |b.options| ensures r1.options[k] == r2.options[k] {
        assert SavedOption(b.options[k], r1.id.value, k, r1.options[k]);
        assert SavedOption(b.options[k], r2.id.value, k, r2.options[k]);
      }
    }
  }

  /** A saved question, shown again in a block, passes and is saved as
      itself. */
  lemma {:induction false} ReshownQuestionSavesSame(d: Gift.Dialect, b: Block, i: nat, now: nat, later: nat,
                                                    rq: RawQuestion, dt: string, shown: Block)
    requires BlockOk(b) && SavedQuestion(b, i, now, rq)
    requires SameContent(shown, StoredBlock(d, rq, dt))
    ensures BlockOk(shown) && SavedQuestion(shown, i, later, rq)
  {
    var qid := rq.id.value;
    assert qid == OrElse(b.id, GeneratedQuestionId(now, i));
    assert shown.id == qid;
    TrimmedText(b.text);
    var t := ParseIntJs(b.time).value;
    ParseIntJsOfIntToString(t);
    assert shown.time == IntToString(t);
    assert |shown.options| == |b.options|;
    forall k | 0 <= k < |b.options|
      ensures shown.options[k].checked == b.options[k].checked
      ensures Blank(shown.options[k].text) == Blank(b.options[k].text)
      ensures SavedOption(shown.options[k], qid, k, rq.options[k])
    {
      assert SavedOption(b.options[k], qid, k, rq.options[k]);
      assert shown.options[k] == StoredOption(rq.options[k]);
      TrimmedText(b.options[k].text);
    }
    assert OptionsFilled(shown.options, 0, |shown.options|);
    assert AtMostOneChecked(shown.options, |shown.options|);
    var c :| 0 <= c < |b.options| && b.options[c].checked;
    assert shown.options[c].checked;
  }

  /** Opening a saved quiz and saving it again unchanged gives the same
      quiz back, whatever the clock then reads. */
  lemma {:induction false} ReopenSavesSame(d: Gift.Dialect, f: Form, now: nat, later: nat)
    requires Collect(f, now).Ok?
    ensures var q := Collect(f, now).value;
            Collect(Open(d, q, q.id.value), later) == Ok(q)
  {
    var q := Collect(f, now).value;
    var g := Open(d, q, q.id.value);
    ReopenedBlocksSave(d, f, now, later);
    CollectsGiven(g, later, q.questions);
    TrimmedText(f.title);
    assert q.id.value != [];
  }

  /** A passing form whose blocks are saved as the given questions
      collects exactly those questions. */
  lemma {:induction false} CollectsGiven(g: Form, later: nat, qs: seq<RawQuestion>)
    requires FormOk(g) && |g.blocks| == |qs|
    requires forall i :: 0 <= i < |g.blocks| ==> SavedQuestion(g.blocks[i], i, later, qs[i])
    ensures Collect(g, later).Ok? && Collect(g, later).value.questions == qs
  {
    var q2 := Collect(g, later).value;
    forall i | 0 <= i < |g.blocks| ensures q2.questions[i] == qs[i] {
      SavedQuestionUnique(g.blocks[i], i, later, q2.questions[i], qs[i]);
    }
  }

  /** Every block of the reopened form passes and is saved as the stored
      question it shows. */
  lemma {:induction false} ReopenedBlocksSave(d: Gift.Dialect, f: Form, now: nat, later: nat)
    requires Collect(f, now).Ok?
    ensures var q := Collect(f, now).value;
            var g := Open(d, q, q.id.value);
            FormOk(g) && |g.blocks| == |q.questions|
            && forall i :: 0 <= i < |g.blocks| ==> SavedQuestion(g.blocks[i], i, later, q.questions[i])
  {
    var q := Collect(f, now).value;
    var g := Open(d, q, q.id.value);
    TrimmedText(f.title);
    assert |g.blocks| == |f.blocks|;
    forall i | 0 <= i < |g.blocks|
      ensures BlockOk(g.blocks[i]) && SavedQuestion(g.blocks[i], i, later, q.questions[i])
    {
      ReshownQuestionSavesSame(d, f.blocks[i], i, now, later, q.questions[i], g.defaultTime, g.blocks[i]);
    }
  }

  // ----- editing -----

  /** The clicks the builder's question blocks react to. A disabled button
      does not fire. */
  datatype Action =
    | AddQuestion
    | AddOption(question: nat)
    | DeleteOption(question: nat, option: nat)
    | DeleteQuestion(question: nat)
    | MoveUp(question: nat)
    | MoveDown(question: nat)

  /** The form after a click, and whether the page refused to delete the
      last question. */
  datatype Edited = Edited(form: Form, refused: bool)

  /** Every form the builder shows has a question, and every question at
      least two options and at most four. */
  predicate Shaped(f: Form) {
    |f.blocks| >= 1
    && forall i :: 0 <= i < |f.blocks| ==> MinOptions <= |f.blocks[i].options| <= MaxOptions
  }

  /** The add-question button as builder.js wires it: the new block's own
      buttons and the move buttons are updated, the other blocks'
      delete-question buttons are not. In js/builder.js the handler then
      updates every block. */
  function AddQuestionAsWritten(d: Gift.Dialect, f: Form): (g: Form)
    ensures |g.blocks| == |f.blocks| + 1 && SameContent(g.blocks[|f.blocks|], NewBlock(f.defaultTime))
    ensures forall i :: 0 <= i < |f.blocks| ==> SameContent(g.blocks[i], f.blocks[i])
  {
    var added := f.blocks + [Refresh(NewBlock(f.defaultTime), |f.blocks| + 1)];
    if d == Gift.Extended then f.(blocks := RefreshMoves(added))
    else f.(blocks := Settle(d, added))
  }

  /** The add-question button with every block's buttons updated. */
  function AddQuestionBlock(d: Gift.Dialect, f: Form): (g: Form)
    ensures |g.blocks| == |f.blocks| + 1 && SameContent(g.blocks[|f.blocks|], NewBlock(f.defaultTime))
    ensures forall i :: 0 <= i < |f.blocks| ==> SameContent(g.blocks[i], f.blocks[i])
    ensures ButtonsAgree(d, g.blocks)
  {
    f.(blocks := Settle(d, f.blocks + [NewBlock(f.defaultTime)]))
  }

  function Swap(bs: seq<Block>, i: nat): (r: seq<Block>)
    requires i + 1 < |bs|
    ensures |r| == |bs| && r[i] == bs[i + 1] && r[i + 1] == bs[i]
    ensures forall j :: 0 <= j < |bs| && j != i && j != i + 1 ==> r[j] == bs[j]
  {
    bs[i := bs[i + 1]][i + 1 := bs[i]]
  }

  /** Whether a click reaches its handler: the block and option exist and
      the button is enabled; the add-question button always fires, and the
      move buttons exist only in builder.js. */
  predicate Fires(d: Gift.Dialect, f: Form, a: Action) {
    var bs := f.blocks;
    match a
    case AddQuestion => true
    case AddOption(i) => i < |bs| && bs[i].buttons.addOption
    case DeleteOption(i, k) => i < |bs| && k < |bs[i].options| && bs[i].buttons.deleteOption
    case DeleteQuestion(i) => i < |bs| && bs[i].buttons.deleteQuestion
    case MoveUp(i) => d == Gift.Extended && 0 < i < |bs| && bs[i].buttons.moveUp
    case MoveDown(i) => d == Gift.Extended && i + 1 < |bs| && bs[i].buttons.moveDown
  }

  /** A click on the question list. The add-question button is wired on
      its own: as written it is AddQuestionAsWritten, corrected it updates
      every block. The rest is the delegated click handler: adding or
      deleting an option updates that block's buttons; deleting a
      question, refused for the last one, updates every block; moving a
      question (builder.js only) swaps it with its neighbour and updates
      the move buttons. */
  function Edit(rev: Revision, d: Gift.Dialect, f: Form, a: Action): (r: Edited)
    ensures !r.refused ==> r.form.quizId == f.quizId && r.form.title == f.title && r.form.defaultTime == f.defaultTime
    ensures !Fires(d, f, a) ==> r == Edited(f, false)
    ensures a.AddOption? && Fires(d, f, a) ==>
              var i := a.question;
              |r.form.blocks| == |f.blocks|
              && SameContent(r.form.blocks[i], f.blocks[i].(options := f.blocks[i].options + [EmptyOption]))
              && forall j :: 0 <= j < |f.blocks| && j != i ==> r.form.blocks[j] == f.blocks[j]
    ensures a.DeleteOption? && Fires(d, f, a) ==>
              var i := a.question;
              var os := f.blocks[i].options;
              |r.form.blocks| == |f.blocks|
              && SameContent(r.form.blocks[i], f.blocks[i].(options := os[..a.option] + os[a.option + 1..]))
              && forall j :: 0 <= j < |f.blocks| && j != i ==> r.form.blocks[j] == f.blocks[j]
    ensures a.AddQuestion? ==>
              |r.form.blocks| == |f.blocks| + 1 && SameContent(r.form.blocks[|f.blocks|], NewBlock(f.defaultTime))
              && forall i :: 0 <= i < |f.blocks| ==> SameContent(r.form.blocks[i], f.blocks[i])
    ensures r.refused <==> a.DeleteQuestion? && a.question < |f.blocks| && f.blocks[a.question].buttons.deleteQuestion
                           && |f.blocks| == 1
    ensures r.refused ==> r.form == f
  {
    var bs := f.blocks;
    match a
    case AddQuestion =>
      if rev == AsWritten then Edited(AddQuestionAsWritten(d, f), false)
      else Edited(AddQuestionBlock(d, f), false)
    case AddOption(i) =>
      if i < |bs| && bs[i].buttons.addOption then
        var b := bs[i].(options := bs[i].options + [EmptyOption]);
        Edited(f.(blocks := bs[i := Refresh(b, |bs|)]), false)
      else Edited(f, false)
    case DeleteOption(i, k) =>
      if i < |bs| && k < |bs[i].options| && bs[i].buttons.deleteOption then
        var os := bs[i].options;
        var b := bs[i].(options := os[..k] + os[k + 1..]);
        Edited(f.(blocks := bs[i := Refresh(b, |bs|)]), false)
      else Edited(f, false)
    case DeleteQuestion(i) =>
      if i < |bs| && bs[i].buttons.deleteQuestion then
        if |bs| > 1 then Edited(f.(blocks := Settle(d, bs[..i] + bs[i + 1..])), false)
        else Edited(f, true)
      else Edited(f, false)
    case MoveUp(i) =>
      if d == Gift.Extended && 0 < i < |bs| && bs[i].buttons.moveUp then
        Edited(f.(blocks := RefreshMoves(Swap(bs, i - 1))), false)
      else Edited(f, false)
    case MoveDown(i) =>
      if d == Gift.Extended && i + 1 < |bs| && bs[i].buttons.moveDown then
        Edited(f.(blocks := RefreshMoves(Swap(bs, i))), false)
      else Edited(f, false)
  }

  /** With buttons that agree with the form, every click keeps a question
      on the page, two to four options per question, and the buttons in
      agreement, when the add-question button updates every block: in the
      corrected builder.js and in js/builder.js. StaleDeleteButton shows
      that builder.js as written loses the agreement. */
  lemma {:induction false} EditKeepsForm(rev: Revision, d: Gift.Dialect, f: Form, a: Action)
    requires Shaped(f) && ButtonsAgree(d, f.blocks)
    requires rev == Corrected || d == Gift.Basic
    ensures Shaped(Edit(rev, d, f, a).form) && ButtonsAgree(d, Edit(rev, d, f, a).form.blocks)
  {
    var bs := f.blocks;
    var e := Edit(rev, d, f, a).form;
    match a
    case AddQuestion =>
      AddQuestionKeepsForm(d, f);
      if rev == AsWritten {
        BasicAddQuestionAgrees(f);
      }
      assert e == AddQuestionBlock(d, f);
    case AddOption(i) =>
      if i < |bs| && bs[i].buttons.addOption {
        AddOptionKeepsForm(rev, d, f, i);
      } else {
        assert e == f;
      }
    case DeleteOption(i, k) =>
      if i < |bs| && k < |bs[i].options| && bs[i].buttons.deleteOption {
        DeleteOptionKeepsForm(rev, d, f, i, k);
      } else {
        assert e == f;
      }
    case DeleteQuestion(i) =>
      if i < |bs| && bs[i].buttons.deleteQuestion && |bs| > 1 {
        DeleteQuestionKeepsForm(d, f, i);
        assert e == Form(f.quizId, f.title, f.defaultTime, Settle(d, bs[..i] + bs[i + 1..]));
      } else {
        assert e == f;
      }
    case MoveUp(i) =>
      if d == Gift.Extended && 0 < i < |bs| && bs[i].buttons.moveUp {
        MoveKeepsForm(f, i - 1);
        assert e == f.(blocks := RefreshMoves(Swap(bs, i - 1)));
      } else {
        assert e == f;
      }
    case MoveDown(i) =>
      if d == Gift.Extended && i + 1 < |bs| && bs[i].buttons.moveDown {
        MoveKeepsForm(f, i);
        assert e == f.(blocks := RefreshMoves(Swap(bs, i)));
      } else {
        assert e == f;
      }
  }

  lemma {:induction false} AddQuestionKeepsForm(d: Gift.Dialect, f: Form)
    requires Shaped(f)
    ensures Shaped(AddQuestionBlock(d, f))
  {
    var g := AddQuestionBlock(d, f);
    assert forall i :: 0 <= i < |f.blocks| ==> |g.blocks[i].options| == |f.blocks[i].options|;
  }

  lemma {:induction false} AddOptionKeepsForm(rev: Revision, d: Gift.Dialect, f: Form, i: nat)
    requires Shaped(f) && ButtonsAgree(d, f.blocks)
    requires i < |f.blocks| && f.blocks[i].buttons.addOption
    ensures var g := Edit(rev, d, f, AddOption(i)).form;
            Shaped(g) && ButtonsAgree(d, g.blocks)
  {
    var bs := f.blocks;
    assert BlockButtonsAgree(d, bs, i);
    var g := Edit(rev, d, f, AddOption(i)).form;
    AgreeAfterChange(d, bs, i, g.blocks);
  }

  lemma {:induction false} DeleteOptionKeepsForm(rev: Revision, d: Gift.Dialect, f: Form, i: nat, k: nat)
    requires Shaped(f) && ButtonsAgree(d, f.blocks)
    requires i < |f.blocks| && k < |f.blocks[i].options| && f.blocks[i].buttons.deleteOption
    ensures var g := Edit(rev, d, f, DeleteOption(i, k)).form;
            Shaped(g) && ButtonsAgree(d, g.blocks)
  {
    var bs := f.blocks;
    assert BlockButtonsAgree(d, bs, i);
    var g := Edit(rev, d, f, DeleteOption(i, k)).form;
    AgreeAfterChange(d, bs, i, g.blocks);
  }

  lemma {:induction false} DeleteQuestionKeepsForm(d: Gift.Dialect, f: Form, i: nat)
    requires Shaped(f) && i < |f.blocks| && |f.blocks| > 1
    ensures Shaped(Form(f.quizId, f.title, f.defaultTime, Settle(d, f.blocks[..i] + f.blocks[i + 1..])))
  {
    var bs := f.blocks;
    var rest := bs[..i] + bs[i + 1..];
    var r := Settle(d, rest);
    forall j | 0 <= j < |r| ensures MinOptions <= |r[j].options| <= MaxOptions {
      assert rest[j] == (if j < i then bs[j] else bs[j + 1]);
    }
  }

  lemma {:induction false} MoveKeepsForm(f: Form, i: nat)
    requires Shaped(f) && ButtonsAgree(Gift.Extended, f.blocks) && i + 1 < |f.blocks|
    ensures var g := f.(blocks := RefreshMoves(Swap(f.blocks, i)));
            Shaped(g) && ButtonsAgree(Gift.Extended, g.blocks)
  {
    var g := f.(blocks := RefreshMoves(Swap(f.blocks, i)));
    MovedAgree(Gift.Extended, f.blocks, i, g.blocks);
    forall j | 0 <= j < |g.blocks| ensures MinOptions <= |g.blocks[j].options| <= MaxOptions {
      var k := if j == i then i + 1 else if j == i + 1 then i else j;
      assert Swap(f.blocks, i)[j] == f.blocks[k];
    }
  }

  /** Changing one block's options and updating its buttons keeps the
      buttons in agreement. */
  lemma {:induction false} AgreeAfterChange(d: Gift.Dialect, bs: seq<Block>, i: nat, cs: seq<Block>)
    requires i < |bs| && ButtonsAgree(d, bs) && |cs| == |bs|
    requires forall j :: 0 <= j < |bs| && j != i ==> cs[j] == bs[j]
    requires cs[i].buttons == Refresh(cs[i], |bs|).buttons
    requires cs[i].buttons.moveUp == bs[i].buttons.moveUp && cs[i].buttons.moveDown == bs[i].buttons.moveDown
    ensures ButtonsAgree(d, cs)
  {
    assert BlockButtonsAgree(d, bs, i);
    forall j | 0 <= j < |cs| ensures BlockButtonsAgree(d, cs, j) {
      if j != i {
        assert BlockButtonsAgree(d, bs, j);
      }
    }
  }

  /** Swapping neighbours and updating the move buttons keeps the buttons
      in agreement. */
  lemma {:induction false} MovedAgree(d: Gift.Dialect, bs: seq<Block>, i: nat, cs: seq<Block>)
    requires i + 1 < |bs| && ButtonsAgree(d, bs) && cs == RefreshMoves(Swap(bs, i))
    ensures ButtonsAgree(d, cs)
    ensures forall j :: 0 <= j < |cs| ==> |cs[j].options| == |Swap(bs, i)[j].options|
  {
    var sw := Swap(bs, i);
    forall j | 0 <= j < |cs| ensures BlockButtonsAgree(d, cs, j) {
      var k := if j == i then i + 1 else if j == i + 1 then i else j;
      assert sw[j] == bs[k];
      assert BlockButtonsAgree(d, bs, k);
    }
  }

  /** Moving a question up and then back down restores the form. */
  lemma {:induction false} MoveUpThenDown(rev: Revision, f: Form, i: nat)
    requires ButtonsAgree(Gift.Extended, f.blocks) && 0 < i < |f.blocks|
    ensures var g := Edit(rev, Gift.Extended, f, MoveUp(i)).form;
            Edit(rev, Gift.Extended, g, MoveDown(i - 1)).form == f
  {
    var bs := f.blocks;
    assert BlockButtonsAgree(Gift.Extended, bs, i);
    var g := f.(blocks := RefreshMoves(Swap(bs, i - 1)));
    assert Edit(rev, Gift.Extended, f, MoveUp(i)).form == g;
    MovedAgree(Gift.Extended, bs, i - 1, g.blocks);
    assert BlockButtonsAgree(Gift.Extended, g.blocks, i - 1);
    var h := g.(blocks := RefreshMoves(Swap(g.blocks, i - 1)));
    assert Edit(rev, Gift.Extended, g, MoveDown(i - 1)).form == h;
    MoveBackRestores(bs, i - 1, g.blocks, h.blocks);
  }

  lemma {:induction false} MoveBackRestores(bs: seq<Block>, i: nat, gs: seq<Block>, hs: seq<Block>)
    requires ButtonsAgree(Gift.Extended, bs) && i + 1 < |bs|
    requires gs == RefreshMoves(Swap(bs, i)) && hs == RefreshMoves(Swap(gs, i))
    ensures hs == bs
  {
    assert |hs| == |bs|;
    forall j | 0 <= j < |bs| ensures hs[j] == bs[j] {
      assert BlockButtonsAgree(Gift.Extended, bs, j);
    }
  }

  /** With builder.js's add-question button, the buttons stay safe: every
      enabled button's action is allowed, and the shape of the form is
      kept. */
  lemma {:induction false} AddQuestionAsWrittenSafe(f: Form)
    requires Shaped(f) && ButtonsSafe(Gift.Extended, f.blocks)
    ensures Shaped(AddQuestionAsWritten(Gift.Extended, f))
    ensures ButtonsSafe(Gift.Extended, AddQuestionAsWritten(Gift.Extended, f).blocks)
  {
    var g := AddQuestionAsWritten(Gift.Extended, f);
    forall i | 0 <= i < |g.blocks| ensures BlockButtonsSafe(Gift.Extended, g.blocks, i) {
      if i < |f.blocks| {
        assert BlockButtonsSafe(Gift.Extended, f.blocks, i);
      }
    }
  }

  /** builder.js, as written: adding a second question to a new quiz leaves
      the first question's delete button disabled although two questions
      are shown. */
  lemma {:induction false} StaleDeleteButton()
    ensures var g := AddQuestionAsWritten(Gift.Extended, NewForm(Gift.Extended));
            |g.blocks| == 2 && !g.blocks[0].buttons.deleteQuestion
            && !ButtonsAgree(Gift.Extended, g.blocks)
  {
    var f := NewForm(Gift.Extended);
    assert BlockButtonsAgree(Gift.Extended, f.blocks, 0);
    var g := AddQuestionAsWritten(Gift.Extended, f);
    assert !BlockButtonsAgree(Gift.Extended, g.blocks, 0);
  }

  /** In js/builder.js the add-question handler already updates every
      block. */
  lemma {:induction false} BasicAddQuestionAgrees(f: Form)
    ensures AddQuestionAsWritten(Gift.Basic, f).blocks == AddQuestionBlock(Gift.Basic, f).blocks
  {
    var a := AddQuestionAsWritten(Gift.Basic, f).blocks;
    var b := AddQuestionBlock(Gift.Basic, f).blocks;
    forall i | 0 <= i < |a| ensures a[i] == b[i] {
      assert BlockButtonsAgree(Gift.Basic, a, i) && BlockButtonsAgree(Gift.Basic, b, i);
    }
  }

  /** With safe buttons, every click of either revision keeps a question on
      the page, two to four options per question, and the buttons safe; and
      no click is refused, since a delete button only fires with another
      question left. This is what holds for builder.js as written. */
  lemma {:induction false} EditKeepsButtonsSafe(rev: Revision, d: Gift.Dialect, f: Form, a: Action)
    requires Shaped(f) && ButtonsSafe(d, f.blocks)
    ensures Shaped(Edit(rev, d, f, a).form) && ButtonsSafe(d, Edit(rev, d, f, a).form.blocks)
    ensures !Edit(rev, d, f, a).refused
  {
    var bs := f.blocks;
    match a
    case AddQuestion => AddQuestionStaysSafe(rev, d, f);
    case AddOption(i) =>
      if i < |bs| && bs[i].buttons.addOption {
        AddOptionStaysSafe(rev, d, f, i);
      }
    case DeleteOption(i, k) =>
      if i < |bs| && k < |bs[i].options| && bs[i].buttons.deleteOption {
        DeleteOptionStaysSafe(rev, d, f, i, k);
      }
    case DeleteQuestion(i) =>
      if i < |bs| && bs[i].buttons.deleteQuestion {
        DeleteQuestionStaysSafe(rev, d, f, i);
      }
    case MoveUp(i) =>
      if d == Gift.Extended && 0 < i < |bs| && bs[i].buttons.moveUp {
        MoveStaysSafe(f, i - 1);
      }
    case MoveDown(i) =>
      if d == Gift.Extended && i + 1 < |bs| && bs[i].buttons.moveDown {
        MoveStaysSafe(f, i);
      }
  }

  lemma {:induction false} AddQuestionStaysSafe(rev: Revision, d: Gift.Dialect, f: Form)
    requires Shaped(f) && ButtonsSafe(d, f.blocks)
    ensures var g := Edit(rev, d, f, AddQuestion).form;
            Shaped(g) && ButtonsSafe(d, g.blocks)
  {
    if rev == AsWritten && d == Gift.Extended {
      AddQuestionAsWrittenSafe(f);
    } else {
      AddQuestionKeepsForm(d, f);
      if rev == AsWritten {
        BasicAddQuestionAgrees(f);
      }
      AgreeIsSafe(d, AddQuestionBlock(d, f).blocks);
    }
  }

  lemma {:induction false} AddOptionStaysSafe(rev: Revision, d: Gift.Dialect, f: Form, i: nat)
    requires Shaped(f) && ButtonsSafe(d, f.blocks)
    requires i < |f.blocks| && f.blocks[i].buttons.addOption
    ensures var g := Edit(rev, d, f, AddOption(i)).form;
            Shaped(g) && ButtonsSafe(d, g.blocks)
  {
    assert BlockButtonsSafe(d, f.blocks, i);
    var g := Edit(rev, d, f, AddOption(i)).form;
    SafeAfterChange(d, f.blocks, i, g.blocks);
    ShapedAfterChange(f, i, g);
  }

  lemma {:induction false} DeleteOptionStaysSafe(rev: Revision, d: Gift.Dialect, f: Form, i: nat, k: nat)
    requires Shaped(f) && ButtonsSafe(d, f.blocks)
    requires i < |f.blocks| && k < |f.blocks[i].options| && f.blocks[i].buttons.deleteOption
    ensures var g := Edit(rev, d, f, DeleteOption(i, k)).form;
            Shaped(g) && ButtonsSafe(d, g.blocks)
  {
    assert BlockButtonsSafe(d, f.blocks, i);
    var g := Edit(rev, d, f, DeleteOption(i, k)).form;
    SafeAfterChange(d, f.blocks, i, g.blocks);
    ShapedAfterChange(f, i, g);
  }

  lemma {:induction false} DeleteQuestionStaysSafe(rev: Revision, d: Gift.Dialect, f: Form, i: nat)
    requires Shaped(f) && ButtonsSafe(d, f.blocks)
    requires i < |f.blocks| && f.blocks[i].buttons.deleteQuestion
    ensures var r := Edit(rev, d, f, DeleteQuestion(i));
            !r.refused && Shaped(r.form) && ButtonsSafe(d, r.form.blocks)
  {
    assert BlockButtonsSafe(d, f.blocks, i);
    DeleteQuestionKeepsForm(d, f, i);
    AgreeIsSafe(d, Settle(d, f.blocks[..i] + f.blocks[i + 1..]));
  }

  /** Buttons that agree with the form are safe. */
  lemma {:induction false} AgreeIsSafe(d: Gift.Dialect, bs: seq<Block>)
    requires ButtonsAgree(d, bs)
    ensures ButtonsSafe(d, bs)
  {
    forall i | 0 <= i < |bs| ensures BlockButtonsSafe(d, bs, i) {
      assert BlockButtonsAgree(d, bs, i);
    }
  }

  /** Changing one block's options and updating its buttons keeps the
      buttons safe. */
  lemma {:induction false} SafeAfterChange(d: Gift.Dialect, bs: seq<Block>, i: nat, cs: seq<Block>)
    requires i < |bs| && ButtonsSafe(d, bs) && |cs| == |bs|
    requires forall j :: 0 <= j < |bs| && j != i ==> cs[j] == bs[j]
    requires cs[i].buttons == Refresh(cs[i], |bs|).buttons
    requires cs[i].buttons.moveUp == bs[i].buttons.moveUp && cs[i].buttons.moveDown == bs[i].buttons.moveDown
    ensures ButtonsSafe(d, cs)
  {
    assert BlockButtonsSafe(d, bs, i);
    forall j | 0 <= j < |cs| ensures BlockButtonsSafe(d, cs, j) {
      if j != i {
        assert BlockButtonsSafe(d, bs, j);
      }
    }
  }

  /** An option added below the maximum or deleted above the minimum keeps
      the form's shape. */
  lemma {:induction false} ShapedAfterChange(f: Form, i: nat, g: Form)
    requires Shaped(f) && i < |f.blocks| && |g.blocks| == |f.blocks|
    requires forall j :: 0 <= j < |f.blocks| && j != i ==> g.blocks[j] == f.blocks[j]
    requires MinOptions <= |g.blocks[i].options| <= MaxOptions
    ensures Shaped(g)
  {
    forall j | 0 <= j < |g.blocks| ensures MinOptions <= |g.blocks[j].options| <= MaxOptions {
      if j != i {
        assert g.blocks[j] == f.blocks[j];
      }
    }
  }

  /** Swapping neighbours and updating the move buttons keeps the form's
      shape and the buttons safe. */
  lemma {:induction false} MoveStaysSafe(f: Form, i: nat)
    requires Shaped(f) && ButtonsSafe(Gift.Extended, f.blocks) && i + 1 < |f.blocks|
    ensures var g := f.(blocks := RefreshMoves(Swap(f.blocks, i)));
            Shaped(g) && ButtonsSafe(Gift.Extended, g.blocks)
  {
    var sw := Swap(f.blocks, i);
    var cs := RefreshMoves(sw);
    forall j | 0 <= j < |cs| ensures BlockButtonsSafe(Gift.Extended, cs, j) && MinOptions <= |cs[j].options| <= MaxOptions {
      var k := if j == i then i + 1 else if j == i + 1 then i else j;
      assert sw[j] == f.blocks[k];
      assert BlockButtonsSafe(Gift.Extended, f.blocks, k);
    }
  }

  /** Deleting question i leaves the other questions, in their order. */
  lemma {:induction false} DeleteQuestionKeepsOthers(rev: Revision, d: Gift.Dialect, f: Form, i: nat)
    requires i < |f.blocks| && f.blocks[i].buttons.deleteQuestion && |f.blocks| > 1
    ensures var g := Edit(rev, d, f, DeleteQuestion(i)).form;
            |g.blocks| == |f.blocks| - 1
            && (forall j :: 0 <= j < i ==> SameContent(g.blocks[j], f.blocks[j]))
            && (forall j :: i <= j < |g.blocks| ==> SameContent(g.blocks[j], f.blocks[j + 1]))
  {
    var rest := f.blocks[..i] + f.blocks[i + 1..];
    assert forall j :: 0 <= j < i ==> rest[j] == f.blocks[j];
    assert forall j :: i <= j < |rest| ==> rest[j] == f.blocks[j + 1];
  }

  /** Adding an option enables that block's delete-option button, and
      deleting the new last option gives back the block's content. */
  lemma {:induction false} AddThenDeleteOption(rev: Revision, d: Gift.Dialect, f: Form, i: nat)
    requires Shaped(f) && i < |f.blocks| && f.blocks[i].buttons.addOption
    ensures var k := |f.blocks[i].options|;
            var g := Edit(rev, d, f, AddOption(i)).form;
            Fires(d, g, DeleteOption(i, k))
            && var h := Edit(rev, d, g, DeleteOption(i, k)).form;
               |h.blocks| == |f.blocks| && SameContent(h.blocks[i], f.blocks[i])
               && forall j :: 0 <= j < |f.blocks| && j != i ==> h.blocks[j] == f.blocks[j]
  {
    var os := f.blocks[i].options;
    var k := |os|;
    var g := Edit(rev, d, f, AddOption(i)).form;
    var added := os + [EmptyOption];
    assert g.blocks[i] == Refresh(f.blocks[i].(options := added), |f.blocks|);
    assert g.blocks[i].buttons.deleteOption;
    assert added[..k] + added[k + 1..] == os;
  }

  // ----- the default time -----

  /** parseInt(attribute, 10) || fallback: the attribute's number, or the
      fallback when it is not a number or is 0. */
  function AttrOr(s: string, fallback: int): (r: int)
    ensures ParseIntJs(s).Some? && ParseIntJs(s).value != 0 ==> r == ParseIntJs(s).value
    ensures ParseIntJs(s).None? || ParseIntJs(s).value == 0 ==> r == fallback
  {
    match ParseIntJs(s)
    case Some(v) => if v != 0 then v else fallback
    case None => fallback
  }

  function MinTime(f: string): int { AttrOr(f, MinTimeLimit) }
  function MaxTime(f: string): int { AttrOr(f, MaxTimeLimit) }

  /** handleDefaultTimeChange's number: 20 when the input is not a number,
      otherwise the input brought into the range of the input's min and
      max attributes (5 and 120 when they are missing); when the range is
      empty the minimum wins. */
  function DefaultTimeValue(value: string, minAttr: string, maxAttr: string): (t: int)
    ensures ParseIntJs(value).None? ==> t == DefaultTimeLimit
    ensures ParseIntJs(value).Some? && MinTime(minAttr) <= MaxTime(maxAttr) ==>
              var v := ParseIntJs(value).value;
              MinTime(minAttr) <= t <= MaxTime(maxAttr)
              && (MinTime(minAttr) <= v <= MaxTime(maxAttr) ==> t == v)
              && (v < MinTime(minAttr) ==> t == MinTime(minAttr))
              && (v > MaxTime(maxAttr) ==> t == MaxTime(maxAttr))
    ensures ParseIntJs(value).Some? && MinTime(minAttr) > MaxTime(maxAttr) ==> t == MinTime(minAttr)
  {
    match ParseIntJs(value)
    case None => DefaultTimeLimit
    case Some(v) =>
      var lo := MinTime(minAttr);
      var hi := MaxTime(maxAttr);
      var below := if v < hi then v else hi;
      if lo > below then lo else below
  }

  /** The default time input changed: the number chosen is written back
      into it and into every question's time. */
  function ApplyDefaultTime(f: Form, value: string, minAttr: string, maxAttr: string): (g: Form)
    ensures g.quizId == f.quizId && g.title == f.title && |g.blocks| == |f.blocks|
    ensures ParseIntJs(g.defaultTime) == Some(DefaultTimeValue(value, minAttr, maxAttr))
    ensures forall i :: 0 <= i < |f.blocks| ==> g.blocks[i] == f.blocks[i].(time := g.defaultTime)
  {
    var t := DefaultTimeValue(value, minAttr, maxAttr);
    ParseIntJsOfIntToString(t);
    var text := IntToString(t);
    f.(defaultTime := text, blocks := seq(|f.blocks|, i requires 0 <= i < |f.blocks| => f.blocks[i].(time := text)))
  }

  /** Changing the default time to what it shows changes nothing, unless
      the input was not a number and 20 lies outside the range. */
  lemma {:induction false} DefaultTimeIdempotent(f: Form, value: string, minAttr: string, maxAttr: string)
    requires ParseIntJs(value).Some? || MinTime(minAttr) <= DefaultTimeLimit <= MaxTime(maxAttr)
    ensures var g := ApplyDefaultTime(f, value, minAttr, maxAttr);
            ApplyDefaultTime(g, g.defaultTime, minAttr, maxAttr) == g
  {
    var g := ApplyDefaultTime(f, value, minAttr, maxAttr);
    var t := DefaultTimeValue(value, minAttr, maxAttr);
    assert DefaultTimeValue(g.defaultTime, minAttr, maxAttr) == t;
    var h := ApplyDefaultTime(g, g.defaultTime, minAttr, maxAttr);
    assert h.defaultTime == g.defaultTime;
    assert h.blocks == g.blocks;
  }

  /** With a range inside 5..120, the default time and every question's
      time pass saving's time check. */
  lemma {:induction false} DefaultTimeSavable(f: Form, value: string, minAttr: string, maxAttr: string)
    requires MinTimeLimit <= MinTime(minAttr) <= MaxTime(maxAttr) <= MaxTimeLimit
    ensures var g := ApplyDefaultTime(f, value, minAttr, maxAttr);
            TimeOk(g.defaultTime) && forall i :: 0 <= i < |g.blocks| ==> TimeOk(g.blocks[i].time)
  {
  }

  // ----- importing GIFT -----

  /** The message the import shows. */
  datatype ImportStatus =
    | Imported(count: nat)
    | NoQuestionsFound
    | EmptyContent
    | WrongExtension
    | EmptyTextBox

  datatype Import = Import(form: Form, status: ImportStatus)

  /** A new quiz whose only question is untouched: its text and option
      texts are blank and, in builder.js, its first option is not marked
      correct. Such a question is replaced by the imported ones. */
  predicate ClearsInitialBlock(d: Gift.Dialect, f: Form) {
    f.quizId == [] && |f.blocks| == 1
    && Blank(f.blocks[0].text)
    && (forall k :: 0 <= k < |f.blocks[0].options| ==> Blank(f.blocks[0].options[k].text))
    && (d == Gift.Extended && f.blocks[0].options != [] ==> !f.blocks[0].options[0].checked)
  }

  /** builder.js gives every imported question parseInt of the default
      time input (of "20" when it is empty); when that is not a number the
      time input stays empty, written here as "NaN". */
  function ImportTime(defaultTime: string): (r: string)
    ensures ParseIntJs(if defaultTime == [] then DefaultTimeText else defaultTime).None? <==> ParseIntJs(r).None?
    ensures TimeOk(if defaultTime == [] then DefaultTimeText else defaultTime) ==> TimeOk(r)
  {
    match ParseIntJs(if defaultTime == [] then DefaultTimeText else defaultTime)
    case Some(t) =>
      ParseIntJsOfIntToString(t);
      IntToString(t)
    case None =>
      ParseIntJsNaN("NaN");
      "NaN"
  }

  function ImportedOption(o: Gift.GiftOption): OptionField {
    OptionField(o.id, o.text, o.isCorrect)
  }

  /** addQuestionBlock(q) for a parsed GIFT question: its id, text and
      options, and in js/builder.js the parser's time of 20. */
  function GiftBlock(d: Gift.Dialect, g: Gift.GiftQuestion, defaultTime: string): (b: Block)
    ensures b.id == g.id && b.text == g.text
    ensures |g.options| >= MinOptions ==>
              (|b.options| == |g.options| && forall k :: 0 <= k < |g.options| ==> b.options[k] == ImportedOption(g.options[k]))
  {
    var time :=
      if d == Gift.Extended then ImportTime(defaultTime)
      else if g.timeLimit != 0 then IntToString(g.timeLimit) else DefaultTimeText;
    var options :=
      if |g.options| >= MinOptions then seq(|g.options|, k requires 0 <= k < |g.options| => ImportedOption(g.options[k]))
      else [EmptyOption, EmptyOption];
    Block(g.id, g.text, time, options, TemplateButtons)
  }

  /** The blocks an import keeps. */
  function KeptBlocks(d: Gift.Dialect, f: Form): seq<Block> {
    if ClearsInitialBlock(d, f) then [] else f.blocks
  }

  /** The questions of a successful import appended to the form: they
      replace an untouched initial question, the title is taken from the
      first question's GIFT title when it is blank, and every block's
      buttons are updated. */
  function AddImported(d: Gift.Dialect, f: Form, qs: seq<Gift.GiftQuestion>): (g: Form)
    requires qs != []
    ensures g.quizId == f.quizId && g.defaultTime == f.defaultTime
    ensures |g.blocks| == |KeptBlocks(d, f)| + |qs|
    ensures forall i :: 0 <= i < |KeptBlocks(d, f)| ==> SameContent(g.blocks[i], KeptBlocks(d, f)[i])
    ensures forall j :: 0 <= j < |qs| ==>
              SameContent(g.blocks[|KeptBlocks(d, f)| + j], GiftBlock(d, qs[j], f.defaultTime))
    ensures ButtonsAgree(d, g.blocks)
    ensures Blank(f.title) && qs[0].giftTitle != [] ==> g.title == qs[0].giftTitle
    ensures !Blank(f.title) ==> g.title == f.title
  {
    var kept := KeptBlocks(d, f);
    var added := seq(|qs|, j requires 0 <= j < |qs| => GiftBlock(d, qs[j], f.defaultTime));
    assert forall j :: 0 <= j < |qs| ==> (kept + added)[|kept| + j] == added[j];
    var title := if Blank(f.title) && qs[0].giftTitle != [] then qs[0].giftTitle else f.title;
    f.(title := title, blocks := Settle(d, kept + added))
  }

  /** processGIFTContent (builder.js) and the file reader's handler
      (js/builder.js), parsing with the given counting rule (the pages as
      written use Gift.CountMatches): when the text yields questions they
      are added to the form; otherwise the form is unchanged and the
      message says whether the content was empty. */
  function ImportGift(d: Gift.Dialect, rule: Gift.CountRule, f: Form, content: string): (r: Import)
    ensures r.status.Imported? <==> Gift.ParseGift(d, rule, content) != []
    ensures r.status.Imported? ==>
              r.status.count == |Gift.ParseGift(d, rule, content)| && r.form == AddImported(d, f, Gift.ParseGift(d, rule, content))
    ensures !r.status.Imported? ==> r.form == f
    ensures !r.status.Imported? ==> (r.status == EmptyContent <==> d == Gift.Extended && content == [])
  {
    var qs := Gift.ParseGift(d, rule, content);
    if qs == [] then
      Import(f, if d == Gift.Extended && content == [] then EmptyContent else NoQuestionsFound)
    else
      Import(AddImported(d, f, qs), Imported(|qs|))
  }

  /** An import keeps a question on the page, two to four options per
      question and the buttons in agreement. */
  lemma {:induction false} ImportKeepsForm(d: Gift.Dialect, rule: Gift.CountRule, f: Form, content: string)
    requires Shaped(f) && ButtonsAgree(d, f.blocks)
    ensures Shaped(ImportGift(d, rule, f, content).form) && ButtonsAgree(d, ImportGift(d, rule, f, content).form.blocks)
  {
    var qs := Gift.ParseGift(d, rule, content);
    if qs != [] {
      forall j | 0 <= j < |qs| ensures Gift.Shaped(qs[j]) {
        assert Gift.Fits(rule, qs[j]);
      }
      AddImportedShape(d, f, qs);
      assert ImportGift(d, rule, f, content).form == AddImported(d, f, qs);
    }
  }

  lemma {:induction false} AddImportedShape(d: Gift.Dialect, f: Form, qs: seq<Gift.GiftQuestion>)
    requires Shaped(f) && qs != [] && forall j :: 0 <= j < |qs| ==> Gift.Shaped(qs[j])
    ensures Shaped(AddImported(d, f, qs))
  {
    var g := AddImported(d, f, qs);
    var kept := KeptBlocks(d, f);
    forall i | 0 <= i < |g.blocks| ensures MinOptions <= |g.blocks[i].options| <= MaxOptions {
      if i < |kept| {
        assert SameContent(g.blocks[i], kept[i]);
        assert kept[i] == f.blocks[i];
      } else {
        var j := i - |kept|;
        assert Gift.Shaped(qs[j]);
        assert SameContent(g.blocks[|kept| + j], GiftBlock(d, qs[j], f.defaultTime));
      }
    }
  }

  /** Exactly one correct option: there is one, and no two. */
  lemma {:induction false} OneCorrectOption(os: seq<Gift.GiftOption>)
    requires Gift.CountCorrect(os) == 1
    ensures exists j :: 0 <= j < |os| && os[j].isCorrect
    ensures forall j, k :: 0 <= j < k < |os| ==> !(os[j].isCorrect && os[k].isCorrect)
  {
    if os[0].isCorrect {
      NoCorrectOption(os[1..]);
      assert forall k :: 1 <= k < |os| ==> os[k] == os[1..][k - 1];
    } else {
      OneCorrectOption(os[1..]);
      var j :| 0 <= j < |os[1..]| && os[1..][j].isCorrect;
      assert os[j + 1].isCorrect;
      assert forall k :: 1 <= k < |os| ==> os[k] == os[1..][k - 1];
    }
  }

  lemma {:induction false} NoCorrectOption(os: seq<Gift.GiftOption>)
    requires Gift.CountCorrect(os) == 0
    ensures forall j :: 0 <= j < |os| ==> !os[j].isCorrect
  {
    if os != [] {
      NoCorrectOption(os[1..]);
      assert forall k :: 1 <= k < |os| ==> os[k] == os[1..][k - 1];
    }
  }

  /** An imported question passes saving unless one of its option texts
      is blank or, in builder.js, the default time is out of range. */
  lemma {:induction false} ImportedQuestionSaves(d: Gift.Dialect, g: Gift.GiftQuestion, defaultTime: string)
    requires Gift.WellFormed(g)
    requires forall k :: 0 <= k < |g.options| ==> !Blank(g.options[k].text)
    requires d == Gift.Extended ==> TimeOk(if defaultTime == [] then DefaultTimeText else defaultTime)
    ensures BlockOk(GiftBlock(d, g, defaultTime))
  {
    var b := GiftBlock(d, g, defaultTime);
    BlankIffTrimEmpty(g.text);
    ParseIntJsOfIntToString(Gift.GiftTimeLimit);
    OneCorrectOption(g.options);
    var j :| 0 <= j < |g.options| && g.options[j].isCorrect;
    assert b.options[j].checked;
  }

  /** As written, importing "Q{=<b>~a~b}" adds one question that saving
      then refuses, as none of its options is checked; with only kept
      options counted nothing is found and the form stays as it was. */
  lemma {:induction false} ImportUncheckedQuestion(d: Gift.Dialect, f: Form, content: string)
    requires content == "Q{=<b>~a~b}"
    ensures var r := ImportGift(d, Gift.CountMatches, f, content);
            r.status == Imported(1) && |r.form.blocks| > 0 && !BlockOk(r.form.blocks[|r.form.blocks| - 1])
    ensures ImportGift(d, Gift.CountKept, f, content) == Import(f, NoQuestionsFound)
  {
    Gift.DroppedCorrectTextAccepted(d, content);
    var q := Gift.DroppedExample();
    assert !q.options[0].isCorrect && !q.options[1].isCorrect;
    UncheckedImportFails(d, f, [q], q);
  }

  /** An imported question with no correct option becomes a block that
      the save check refuses. */
  lemma {:induction false} UncheckedImportFails(d: Gift.Dialect, f: Form, qs: seq<Gift.GiftQuestion>, q: Gift.GiftQuestion)
    requires qs != [] && q == qs[|qs| - 1] && |q.options| >= MinOptions
    requires forall k :: 0 <= k < |q.options| ==> !q.options[k].isCorrect
    ensures var g := AddImported(d, f, qs);
            |g.blocks| > 0 && !BlockOk(g.blocks[|g.blocks| - 1])
  {
    var g := AddImported(d, f, qs);
    var j := |qs| - 1;
    var last := g.blocks[|KeptBlocks(d, f)| + j];
    assert SameContent(last, GiftBlock(d, q, f.defaultTime));
    forall k | 0 <= k < |last.options| ensures !last.options[k].checked {
      assert last.options[k] == ImportedOption(q.options[k]);
    }
  }

  /** The file name's ending, in any case, is ".txt" or ".gift". */
  predicate FileAccepted(name: string) {
    EndsWith(LowerStr(name), ".txt") || EndsWith(LowerStr(name), ".gift")
  }

  /** handleFileSelect: a file with another ending is refused; otherwise
      its content is imported. */
  function FileImport(d: Gift.Dialect, rule: Gift.CountRule, f: Form, name: string, content: string): (r: Import)
    ensures r.status == WrongExtension <==> !FileAccepted(name)
    ensures r.status == WrongExtension ==> r.form == f
    ensures FileAccepted(name) ==> r == ImportGift(d, rule, f, content)
  {
    if !FileAccepted(name) then Import(f, WrongExtension) else ImportGift(d, rule, f, content)
  }

  lemma {:induction false} FileNames()
    ensures FileAccepted("Quiz.GIFT") && FileAccepted("preguntas.txt")
    ensures !FileAccepted("quiz.gift.pdf") && !FileAccepted("gift")
  {
    assert LowerStr("Quiz.GIFT")[4..] == ".gift";
    assert LowerStr("preguntas.txt")[9..] == ".txt";
    assert LowerStr("quiz.gift.pdf")[10] == 'p';
    assert LowerStr("quiz.gift.pdf")[8] == 't';
    assert LowerStr("gift")[0] == 'g';
  }

  /** handleGiftTextImport (builder.js): the pasted text is trimmed; a
      blank text box is reported and changes nothing. */
  function TextImport(rule: Gift.CountRule, f: Form, content: string): (r: Import)
    ensures r.status == EmptyTextBox <==> Blank(content)
    ensures r.status == EmptyTextBox ==> r.form == f
    ensures r.status != EmptyContent && r.status != WrongExtension
    ensures !Blank(content) ==> r == ImportGift(Gift.Extended, rule, f, JsTrim(content))
  {
    BlankIffTrimEmpty(content);
    var t := JsTrim(content);
    if t == [] then Import(f, EmptyTextBox) else ImportGift(Gift.Extended, rule, f, t)
  }
}

=== FILE: game_logic.dfy ===
/** The game engine: joining, starting, questions, answers, scoring,
    advancing, game over and disconnection. Each handler takes a game and
    returns the updated game together with the effects it asks the server
    to carry out (personal messages, broadcasts by game code, closes, and
    the background tasks it schedules). Clocks are parameters. */
module GameLogic {
  import opened Wrappers
  import opened Text
  import opened Models
  import opened Scoreboard

  /** Seconds the scoreboard stays up before the game moves on by itself. */
  const AutoAdvanceDelay := 5
  /** Points for an instant correct answer. */
  const BasePoints := 1000
  /** Time limit assumed for scoring when the current question cannot be read. */
  const FallbackTimeLimit := 30
  /** Stands for the random id a question without one is given. */
  const FallbackQuestionId := "q_00000000"

  /** What the payload validator makes of a payload whose model has one
      required string field: the field's value, a validation error, or a
      payload that is not a mapping at all (a type error when it is
      unpacked as keyword arguments). */
  datatype Parsed<T> = Valid(value: T) | Invalid | NotMapping

  /** A game after a handler ran, with the effects the handler asked for. */
  datatype Outcome = Outcome(game: Game, effects: seq<Effect>)

  // ----- lookups -----

  predicate HasConn(ps: seq<Player>, c: ConnId) {
    exists i :: 0 <= i < |ps| && ps[i].conn == c
  }

  function PlayerIndex(ps: seq<Player>, c: ConnId): (r: Option<nat>)
    ensures r.Some? ==> r.value < |ps| && ps[r.value].conn == c
    ensures r.None? <==> !HasConn(ps, c)
  {
    if ps == [] then None
    else if ps[0].conn == c then Some(0)
    else
      var r := PlayerIndex(ps[1..], c);
      assert forall i :: 1 <= i < |ps| ==> ps[1..][i - 1] == ps[i];
      if r.Some? then Some(r.value + 1) else None
  }

  predicate NicknameTaken(ps: seq<Player>, nickname: string) {
    exists i :: 0 <= i < |ps| && SameIgnoringCase(ps[i].nickname, nickname)
  }

  // ----- the current question -----

  function MaxLen(used: seq<string>): (n: nat)
    ensures forall i :: 0 <= i < |used| ==> |used[i]| <= n
  {
    if used == [] then 0
    else
      var m := MaxLen(used[1..]);
      assert forall i :: 1 <= i < |used| ==> used[1..][i - 1] == used[i];
      if |used[0]| > m then |used[0]| else m
  }

  /** Stands for a random option id drawn until it differs from every id
      already given out: longer than all of them. */
  function FreshOptionId(used: seq<string>): (id: string)
    ensures id !in used && id != []
  {
    "opt_" + seq(MaxLen(used), _ => '0')
  }

  /** The id an option ends up with, given the ids already given out to
      earlier options of the same question: its own id when it has a
      non-empty one that is still free, a fresh one otherwise. */
  function ChooseId(own: Option<string>, used: seq<string>): (id: string)
    ensures id !in used && id != []
    ensures own.Some? && own.value != [] && own.value !in used ==> id == own.value
  {
    if own.Some? && own.value != [] && own.value !in used then own.value else FreshOptionId(used)
  }

  /** Ids for a question's options, in order, each chosen against the ids
      before it: non-empty, pairwise distinct and none of them in `used`. */
  function AssignIds(opts: seq<OptionData>, used: seq<string>): (ids: seq<string>)
    ensures |ids| == |opts|
    ensures forall i :: 0 <= i < |ids| ==> ids[i] != [] && ids[i] !in used
    ensures forall i, j :: 0 <= i < j < |ids| ==> ids[i] != ids[j]
  {
    if opts == [] then []
    else
      var id := ChooseId(opts[0].id, used);
      var rest := AssignIds(opts[1..], used + [id]);
      assert forall j :: 0 <= j < |rest| ==> rest[j] != id && rest[j] !in used by {
        assert id in used + [id];
        assert forall x :: x in used ==> x in used + [id];
      }
      [id] + rest
  }

  /** Each option keeps its own id when that id is non-empty and not taken
      by an earlier option; otherwise it gets a fresh one. */
  lemma {:induction false} AssignIdsKeepsFreeIds(opts: seq<OptionData>, used: seq<string>, i: nat)
    requires i < |opts|
    ensures AssignIds(opts, used)[i] == ChooseId(opts[i].id, used + AssignIds(opts, used)[..i])
  {
    var ids := AssignIds(opts, used);
    var id := ChooseId(opts[0].id, used);
    var rest := AssignIds(opts[1..], used + [id]);
    assert ids == [id] + rest;
    if i == 0 {
      assert used + ids[..0] == used;
    } else {
      AssignIdsKeepsFreeIds(opts[1..], used + [id], i - 1);
      assert opts[1..][i - 1] == opts[i];
      assert ids[..i] == [id] + rest[..i - 1];
      assert used + ids[..i] == (used + [id]) + rest[..i - 1];
    }
  }

  /** Index of the first option marked correct. */
  function FirstCorrect(opts: seq<OptionData>): (r: Option<nat>)
    ensures r.Some? ==> r.value < |opts| && opts[r.value].isCorrect
                        && forall j :: 0 <= j < r.value ==> !opts[j].isCorrect
    ensures r.None? ==> forall j :: 0 <= j < |opts| ==> !opts[j].isCorrect
  {
    if opts == [] then None
    else if opts[0].isCorrect then Some(0)
    else
      var r := FirstCorrect(opts[1..]);
      assert forall j :: 1 <= j < |opts| ==> opts[1..][j - 1] == opts[j];
      if r.Some? then Some(r.value + 1) else None
  }

  /** The current question ready to send. It exists exactly when a quiz is
      loaded, the index points into it and some option is marked correct;
      the options keep their texts and order and get distinct non-empty
      ids, and the correct id is that of the first option marked correct,
      which the game then remembers. Otherwise the game is unchanged. */
  function CurrentQuestion(g: Game): (r: (Game, Option<Question>))
    ensures r.1.Some? <==>
              g.quiz.Some? && 0 <= g.index < |g.quiz.value.questions|
              && exists j :: 0 <= j < |g.quiz.value.questions[g.index].options|
                               && g.quiz.value.questions[g.index].options[j].isCorrect
    ensures r.1.None? ==> r.0 == g
    ensures r.1.Some? ==>
              var qd := g.quiz.value.questions[g.index];
              var q := r.1.value;
              r.0 == g.(correctId := Some(q.correctAnswerId))
              && q.text == qd.text && q.timeLimit == qd.timeLimit
              && (qd.id.Some? && qd.id.value != [] ==> q.id == qd.id.value)
              && |q.options| == |qd.options|
              && (forall j :: 0 <= j < |q.options| ==> q.options[j].text == qd.options[j].text && q.options[j].id != [])
              && (forall i, j :: 0 <= i < j < |q.options| ==> q.options[i].id != q.options[j].id)
              && exists k :: 0 <= k < |qd.options| && qd.options[k].isCorrect
                             && (forall j :: 0 <= j < k ==> !qd.options[j].isCorrect)
                             && q.correctAnswerId == q.options[k].id
  {
    if g.quiz.None? || !(0 <= g.index < |g.quiz.value.questions|) then (g, None)
    else
      var qd := g.quiz.value.questions[g.index];
      var ids := AssignIds(qd.options, []);
      var k := FirstCorrect(qd.options);
      if k.None? then (g, None)
      else
        var opts := seq(|qd.options|, j requires 0 <= j < |qd.options| => WireOption(ids[j], qd.options[j].text));
        var qid := if qd.id.Some? && qd.id.value != [] then qd.id.value else FallbackQuestionId;
        var correct := ids[k.value];
        (g.(correctId := Some(correct)), Some(Question(qid, qd.text, opts, correct, qd.timeLimit)))
  }

  // ----- scoring -----

  function MaxReal(a: real, b: real): real {
    if a >= b then a else b
  }

  /** Points for a correct answer given when the question started, when
      the answer arrived and the time limit: 0 when the limit has passed or
      the answer seems to predate the question, otherwise the base points
      scaled down linearly with the time taken but never below a tenth of
      them, rounded down. */
  function CalculatePoints(start: real, answer: real, limit: int): (p: int)
    ensures 0 <= p <= BasePoints
    ensures start <= answer && answer - start < limit as real ==> BasePoints / 10 <= p
    ensures !(start <= answer && answer - start < limit as real) ==> p == 0
  {
    var taken0 := answer - start;
    var taken := if taken0 < 0.0 then limit as real else taken0;
    if taken >= limit as real then 0
    else
      var factor := MaxReal(0.1, 1.0 - taken / (limit as real));
      assert 0.1 <= factor <= 1.0;
      (BasePoints as real * factor).Floor
  }

  /** A later answer never earns more. */
  lemma {:induction false} PointsNonIncreasing(start: real, a1: real, a2: real, limit: int)
    requires start <= a1 <= a2
    ensures CalculatePoints(start, a1, limit) >= CalculatePoints(start, a2, limit)
  {
    var lim := limit as real;
    if a2 - start < lim {
      var t1 := a1 - start;
      var t2 := a2 - start;
      assert lim > 0.0;
      DivideKeepsOrder(t1, t2, lim);
      var f1 := MaxReal(0.1, 1.0 - t1 / lim);
      var f2 := MaxReal(0.1, 1.0 - t2 / lim);
      assert f1 >= f2;
      assert BasePoints as real * f1 >= BasePoints as real * f2;
    }
  }

  lemma {:induction false} DivideKeepsOrder(a: real, b: real, c: real)
    requires a <= b && c > 0.0
    ensures a / c <= b / c
  {
    assert b / c - a / c == (b - a) / c;
    assert (b - a) / c >= 0.0;
  }

  // ----- joining -----

  /** What the join checks decide. */
  datatype JoinVerdict = Rejected(effects: seq<Effect>) | Accepted(nickname: string)

  /** The join checks in the order the server makes them. */
  function JoinVerdictOf(g: Game, c: ConnId, payload: Parsed<string>): JoinVerdict {
    match payload
    case NotMapping => Rejected([Send(c, Error(ErrJoinInternal, None))])
    case Invalid => Rejected([Send(c, Error(ErrInvalidJoinData, None))])
    case Valid(raw) =>
      var nickname := PyStrip(raw);
      if nickname == [] then
        Rejected([Send(c, Error(ErrEmptyNickname, None)), Close(c, ClosePolicyViolation)])
      else if g.state != Lobby then
        Rejected([Send(c, Error(ErrAlreadyStarted, None)), Close(c, ClosePolicyViolation)])
      else if NicknameTaken(g.players, nickname) then
        Rejected([Send(c, Error(ErrNicknameTaken, None)), Close(c, ClosePolicyViolation)])
      else if HasConn(g.players, c) then
        Rejected([Send(c, Error(ErrConnAlreadyJoined, None))])
      else Accepted(nickname)
  }

  function AddPlayer(g: Game, c: ConnId, nickname: string): Game {
    g.(players := g.players + [Player(c, nickname, 0, None, false)],
       activeConns := if c in g.activeConns then g.activeConns else g.activeConns + [c])
  }

  /** The first player to join while there is no host becomes the host. */
  function AssignHost(g: Game, c: ConnId): Game {
    if g.host.None? then g.(host := Some(c)) else g
  }

  function JoinMessages(g: Game, c: ConnId, nickname: string, count: int): seq<Effect> {
    var welcome := if g.host.None? then HostWelcome(g.code) else PlayerWelcome(g.code, nickname);
    [Send(c, JoinAck(nickname, welcome, count)), Broadcast(g.code, PlayerJoined(nickname, count), Some(c))]
  }

  /** join_game exactly as the handler is written: the real-player count in
      the acknowledgement and in the broadcast is taken after the player is
      added but before the host is assigned, so the host counts itself. */
  function HandleJoinAsWritten(g: Game, c: ConnId, payload: Parsed<string>): (o: Outcome)
    ensures JoinVerdictOf(g, c, payload).Rejected? ==> o.game == g
    ensures JoinVerdictOf(g, c, payload).Accepted? ==>
              o.game.players == g.players + [Player(c, JoinVerdictOf(g, c, payload).nickname, 0, None, false)]
              && c in o.game.activeConns
              && o.game.host == (if g.host.None? then Some(c) else g.host)
  {
    match JoinVerdictOf(g, c, payload)
    case Rejected(effects) => Outcome(g, effects)
    case Accepted(nickname) =>
      var added := AddPlayer(g, c, nickname);
      var count := RealPlayerCount(added);
      Outcome(AssignHost(added, c), JoinMessages(g, c, nickname, count))
  }

  /** join_game with the count taken once the host is known, so that it is
      the number of real players the game now has. A join is accepted
      exactly when the payload carries a nickname that is not blank, the
      game is in the lobby, no player has that nickname ignoring case and
      the connection has not joined; then the stripped nickname is added
      with score 0, the connection becomes active, the joiner becomes host
      if there was none, and it is acknowledged while everyone else hears
      of it. A rejection leaves the game unchanged; the first three
      rejections close the connection with 1008. */
  function HandleJoin(g: Game, c: ConnId, payload: Parsed<string>): (o: Outcome)
    ensures JoinVerdictOf(g, c, payload).Accepted? <==>
              payload.Valid? && PyStrip(payload.value) != [] && g.state == Lobby
              && !NicknameTaken(g.players, PyStrip(payload.value)) && !HasConn(g.players, c)
    ensures JoinVerdictOf(g, c, payload).Rejected? ==> o.game == g
    ensures payload.Valid? && (PyStrip(payload.value) == [] || g.state != Lobby
                               || NicknameTaken(g.players, PyStrip(payload.value))) ==>
              |o.effects| == 2 && o.effects[1] == Close(c, ClosePolicyViolation)
    ensures JoinVerdictOf(g, c, payload).Accepted? ==>
              var nickname := PyStrip(payload.value);
              o.game.players == g.players + [Player(c, nickname, 0, None, false)]
              && c in o.game.activeConns
              && o.game.host == (if g.host.None? then Some(c) else g.host)
              && o.game.state == g.state && o.game.quiz == g.quiz
              && |o.effects| == 2
              && o.effects[0].Send? && o.effects[0].to == c && o.effects[0].msg.JoinAck?
              && o.effects[0].msg.playerCount == RealPlayerCount(o.game)
              && o.effects[1] == Broadcast(g.code, PlayerJoined(nickname, RealPlayerCount(o.game)), Some(c))
  {
    match JoinVerdictOf(g, c, payload)
    case Rejected(effects) => Outcome(g, effects)
    case Accepted(nickname) =>
      var joined := AssignHost(AddPlayer(g, c, nickname), c);
      Outcome(joined, JoinMessages(g, c, nickname, RealPlayerCount(joined)))
  }

  /** The handler as written leaves the game exactly as the corrected one
      does and differs only in the number it announces: that exceeds the
      real-player count by one exactly when the joiner becomes the host. */
  lemma {:induction false} JoinAsWrittenAgrees(g: Game, c: ConnId, payload: Parsed<string>)
    requires Inv(g)
    ensures HandleJoinAsWritten(g, c, payload).game == HandleJoin(g, c, payload).game
    ensures JoinVerdictOf(g, c, payload).Rejected? ==> HandleJoinAsWritten(g, c, payload) == HandleJoin(g, c, payload)
    ensures JoinVerdictOf(g, c, payload).Accepted? ==>
              var o := HandleJoinAsWritten(g, c, payload);
              o.effects == JoinMessages(g, c, PyStrip(payload.value),
                                        RealPlayerCount(o.game) + (if g.host.None? then 1 else 0))
  {
    if JoinVerdictOf(g, c, payload).Accepted? {
      var o := HandleJoin(g, c, payload);
      var added := AddPlayer(g, c, PyStrip(payload.value));
      JoinPreservesInv(g, c, payload);
      assert added.players == o.game.players;
      RealPlayerCountExcludesHost(o.game.players, o.game.host);
      RealPlayerCountExcludesHost(added.players, added.host);
      if g.host.None? {
        assert Conns(o.game.players)[|g.players|] == c;
      }
    }
  }

  /** The first player to join an empty lobby (the host) is told that one
      real player is present, while the game has none. */
  lemma {:induction false} JoinAckCountsHost(code: string, c: ConnId)
    ensures var o := HandleJoinAsWritten(NewGame(code), c, Valid("Host_" + code));
            o.effects[0].msg.playerCount == 1 && RealPlayerCount(o.game) == 0
  {
    var g := NewGame(code);
    var s := "Host_" + code;
    assert !IsSpace(Py, s[0]);
    TrimEmptyIffBlank(Py, s);
    var o := HandleJoinAsWritten(g, c, Valid(s));
    assert o.game.players == [Player(c, PyStrip(s), 0, None, false)];
    assert o.game.host == Some(c);
  }

  // ----- starting -----

  /** start_game: only the host, only in the lobby, only with at least one
      real player and a loaded quiz with questions; then the game shows its
      first question: everyone hears the game started and the first
      question is sent by a task scheduled right after. Any refusal is a
      personal error and leaves the game unchanged. */
  function HandleStartGame(g: Game, c: ConnId): (o: Outcome)
    ensures o.game != g <==>
              g.host == Some(c) && g.state == Lobby && RealPlayerCount(g) > 0
              && g.quiz.Some? && |g.quiz.value.questions| > 0
    ensures o.game != g ==>
              o.game == g.(state := QuestionDisplay, index := 0)
              && o.effects == [Broadcast(g.code, GameStarted, None), ScheduleFirstQuestion]
    ensures o.game == g ==> |o.effects| == 1 && o.effects[0].Send? && o.effects[0].to == c && o.effects[0].msg.Error?
  {
    if g.host != Some(c) then Outcome(g, [Send(c, Error(ErrOnlyHostStart, None))])
    else if g.state != Lobby then Outcome(g, [Send(c, Error(ErrNotWaiting, None))])
    else if RealPlayerCount(g) <= 0 then Outcome(g, [Send(c, Error(ErrNotEnoughPlayers, None))])
    else if g.quiz.None? || |g.quiz.value.questions| == 0 then Outcome(g, [Send(c, Error(ErrNoQuiz, None))])
    else Outcome(g.(state := QuestionDisplay, index := 0), [Broadcast(g.code, GameStarted, None), ScheduleFirstQuestion])
  }

  // ----- questions -----

  function ClearAnswered(ps: seq<Player>): (r: seq<Player>)
    ensures |r| == |ps|
    ensures forall i :: 0 <= i < |ps| ==> r[i] == ps[i].(hasAnswered := false)
  {
    seq(|ps|, i requires 0 <= i < |ps| => ps[i].(hasAnswered := false))
  }

  /** send_current_question: when the current question can be prepared the
      game shows it (start time now, answers cleared, nobody has answered)
      and everyone receives it numbered from 1 with the quiz's total;
      otherwise the game ends. */
  function SendCurrentQuestion(g: Game, now: real): (o: Outcome)
    ensures CurrentQuestion(g).1.None? ==> o == GameOverOutcome(g)
    ensures CurrentQuestion(g).1.Some? ==>
              var q := CurrentQuestion(g).1.value;
              o.game.state == QuestionDisplay && o.game.questionStart == Some(now)
              && o.game.answers == map[] && o.game.index == g.index
              && o.game.correctId == Some(q.correctAnswerId)
              && |o.game.players| == |g.players|
              && (forall i :: 0 <= i < |g.players| ==> o.game.players[i] == g.players[i].(hasAnswered := false))
              && o.effects == [Broadcast(g.code, NewQuestion(q.id, q.text, q.options, q.timeLimit,
                                                               g.index + 1, |g.quiz.value.questions|), None)]
  {
    var (g1, q) := CurrentQuestion(g);
    if q.None? then GameOverOutcome(g)
    else
      var total := if g1.quiz.Some? then |g1.quiz.value.questions| else 0;
      var g2 := g1.(state := QuestionDisplay, questionStart := Some(now), answers := map[],
                    players := ClearAnswered(g1.players));
      Outcome(g2, [Broadcast(g.code, NewQuestion(q.value.id, q.value.text, q.value.options, q.value.timeLimit,
                                                 g.index + 1, total), None)])
  }

  // ----- answering -----

  /** submit_answer. Ignored outside question display, from a connection
      that is not a player, and from a player who already answered. Then a
      malformed payload, a missing correct id or a missing start time is a
      personal error. Otherwise the player is marked as having answered, a
      correct answer arriving after the question started earns the points
      for its timing, the answer is recorded, and the player is told the
      verdict, the correct id, the points, the new score and its rank among
      the real players. No other player changes. */
  function HandleSubmitAnswer(g: Game, c: ConnId, payload: Parsed<string>, now: real): (o: Outcome)
    ensures g.state != QuestionDisplay || !HasConn(g.players, c) ==> o == Outcome(g, [])
    ensures |o.game.players| == |g.players|
    ensures forall i :: 0 <= i < |g.players| && g.players[i].conn != c ==> o.game.players[i] == g.players[i]
    ensures forall i :: 0 <= i < |g.players| ==>
              o.game.players[i].conn == g.players[i].conn && o.game.players[i].nickname == g.players[i].nickname
              && o.game.players[i].score >= g.players[i].score
    ensures forall i :: 0 <= i < |g.players| && g.players[i].hasAnswered ==> o.game.players[i] == g.players[i]
    ensures o.game.state == g.state && o.game.quiz == g.quiz && o.game.index == g.index
            && o.game.host == g.host && o.game.activeConns == g.activeConns
    ensures forall e :: e in o.effects ==> e.Send? && e.to == c
    ensures forall i :: 0 <= i < |o.effects| ==> o.effects[i].msg.AnswerResult? ==>
              var m := o.effects[i].msg;
              Some(m.correctAnswerId) == g.correctId
              && (m.pointsAwarded > 0 ==> m.isCorrect)
              && 0 <= m.pointsAwarded <= BasePoints
  {
    if g.state != QuestionDisplay then Outcome(g, [])
    else
      match PlayerIndex(g.players, c)
      case None => Outcome(g, [])
      case Some(k) =>
        var p := g.players[k];
        if p.hasAnswered then Outcome(g, [])
        else
          match payload
          case NotMapping => Outcome(g, [Send(c, Error(ErrAnswerInternal, None))])
          case Invalid => Outcome(g, [Send(c, Error(ErrInvalidAnswerData, None))])
          case Valid(answerId) =>
            if g.correctId.None? || g.correctId.value == [] then Outcome(g, [Send(c, Error(ErrMissingCorrectId, None))])
            else if g.questionStart.None? then Outcome(g, [Send(c, Error(ErrMissingStartTime, None))])
            else TakeAnswer(g, c, k, answerId, now)
  }

  /** Player k, on connection c, answers answerId at time now. */
  function TakeAnswer(g: Game, c: ConnId, k: nat, answerId: string, now: real): Outcome
    requires k < |g.players| && g.correctId.Some? && g.questionStart.Some?
  {
    var p := g.players[k];
    var correctId := g.correctId.value;
    var start := g.questionStart.value;
    var isCorrect := answerId == correctId;
    var points := if isCorrect && now >= start then CalculatePoints(start, now, AnswerTimeLimit(g)) else 0;
    var p' := p.(hasAnswered := true, lastAnswerTime := Some(now), score := p.score + points);
    var g' := g.(players := g.players[k := p'],
                 answers := g.answers[p.nickname := AnswerRecord(p.nickname, answerId, now, points, isCorrect)]);
    var rank := RankOf(PlayerOnlyScoreboard(g'), p.nickname);
    Outcome(g', [Send(c, AnswerResult(isCorrect, correctId, points, p'.score, rank))])
  }

  /** The time limit an answer is scored against: the current question's,
      or 30 seconds when the quiz has no question at the index. */
  function AnswerTimeLimit(g: Game): int {
    if g.quiz.Some? && 0 <= g.index < |g.quiz.value.questions| then g.quiz.value.questions[g.index].timeLimit
    else FallbackTimeLimit
  }

  /** An answer the handler takes: a player who has not answered sends a
      well-formed answer during question display, and the game knows the
      correct id and when the question started. */
  predicate AnswerTaken(g: Game, c: ConnId, payload: Parsed<string>) {
    g.state == QuestionDisplay && PlayerIndex(g.players, c).Some?
    && !g.players[PlayerIndex(g.players, c).value].hasAnswered
    && payload.Valid? && g.correctId.Some? && g.correctId.value != [] && g.questionStart.Some?
  }

  /** o is how a taken answer of player k, on connection c, is scored: one
      result goes back. A correct answer arriving after the question
      started earns CalculatePoints for its timing and any other answer
      earns 0; the player is marked as having answered at now, the score
      grows by exactly the points the result reports, the answer is
      recorded under the nickname, and the result carries the correct id,
      the new score and the player's rank among the real players after
      the answer. */
  ghost predicate ScoredAnswer(g: Game, c: ConnId, k: nat, answerId: string, now: real, o: Outcome)
    requires k < |g.players| && g.correctId.Some? && g.questionStart.Some?
  {
    var p := g.players[k];
    var isCorrect := answerId == g.correctId.value;
    var start := g.questionStart.value;
    |o.effects| == 1 && o.effects[0].Send? && o.effects[0].msg.AnswerResult?
    && var pts := o.effects[0].msg.pointsAwarded;
       (isCorrect && now >= start ==> pts == CalculatePoints(start, now, AnswerTimeLimit(g)))
       && (!isCorrect || now < start ==> pts == 0)
       && o.game.players == g.players[k := p.(hasAnswered := true, lastAnswerTime := Some(now), score := p.score + pts)]
       && o.game.answers == g.answers[p.nickname := AnswerRecord(p.nickname, answerId, now, pts, isCorrect)]
       && o.effects[0] == Send(c, AnswerResult(isCorrect, g.correctId.value, pts, p.score + pts,
                                               RankOf(PlayerOnlyScoreboard(o.game), p.nickname)))
  }

  /** A taken answer is scored as ScoredAnswer says. */
  lemma {:induction false} TakenAnswerScores(g: Game, c: ConnId, payload: Parsed<string>, now: real)
    requires AnswerTaken(g, c, payload)
    ensures ScoredAnswer(g, c, PlayerIndex(g.players, c).value, payload.value, now, HandleSubmitAnswer(g, c, payload, now))
  {
    var k := PlayerIndex(g.players, c).value;
    SubmitTakes(g, c, payload, now);
    TakeAnswerScores(g, c, k, payload.value, now);
  }

  lemma {:induction false} SubmitTakes(g: Game, c: ConnId, payload: Parsed<string>, now: real)
    requires AnswerTaken(g, c, payload)
    ensures HandleSubmitAnswer(g, c, payload, now) == TakeAnswer(g, c, PlayerIndex(g.players, c).value, payload.value, now)
  {
  }

  lemma {:induction false} TakeAnswerScores(g: Game, c: ConnId, k: nat, answerId: string, now: real)
    requires k < |g.players| && g.correctId.Some? && g.questionStart.Some?
    ensures ScoredAnswer(g, c, k, answerId, now, TakeAnswer(g, c, k, answerId, now))
  {
  }

  /** An answer that is not taken changes nothing: it is ignored when the
      player already answered, and otherwise gets one error. */
  lemma {:induction false} UntakenAnswerChangesNothing(g: Game, c: ConnId, payload: Parsed<string>, now: real)
    requires g.state == QuestionDisplay && HasConn(g.players, c) && !AnswerTaken(g, c, payload)
    ensures var o := HandleSubmitAnswer(g, c, payload, now);
            o.game == g
            && (g.players[PlayerIndex(g.players, c).value].hasAnswered ==> o.effects == [])
            && (!g.players[PlayerIndex(g.players, c).value].hasAnswered ==>
                  |o.effects| == 1 && o.effects[0].Send? && o.effects[0].msg.Error?)
  {
  }

  /** A player answers at most once per question: once an answer has been
      taken, a second one from the same connection changes nothing and
      gets no reply. */
  lemma {:induction false} AnswerAtMostOnce(g: Game, c: ConnId, a1: Parsed<string>, t1: real, a2: Parsed<string>, t2: real)
    requires DistinctConns(g.players)
    requires HandleSubmitAnswer(g, c, a1, t1).game != g
    ensures var g1 := HandleSubmitAnswer(g, c, a1, t1).game;
            HandleSubmitAnswer(g1, c, a2, t2) == Outcome(g1, [])
  {
    var g1 := HandleSubmitAnswer(g, c, a1, t1).game;
    var k := PlayerIndex(g.players, c).value;
    assert g1.players[k].hasAnswered;
    assert g1.players[k].conn == c;
    var k1 := PlayerIndex(g1.players, c).value;
    assert g.players[k1].conn == g1.players[k1].conn == c;
  }

  // ----- advancing -----

  /** advance_to_next_stage: from question display to the scoreboard (every
      connection gets the real-player scoreboard and the automatic advance
      is scheduled); from the scoreboard to the next question, or to the end
      of the game when there is none or no quiz; from any other phase,
      nothing. */
  function Advance(g: Game, now: real): (o: Outcome)
    ensures g.state == QuestionDisplay ==>
              o.game == g.(state := Leaderboard)
              && o.effects == [Broadcast(g.code, UpdateScoreboard(PlayerOnlyScoreboard(g)), None),
                               ScheduleAutoAdvance(g.code)]
    ensures g.state == Leaderboard && g.quiz.None? ==> o == GameOverOutcome(g)
    ensures g.state == Leaderboard && g.quiz.Some? && g.index + 1 >= |g.quiz.value.questions| ==>
              o == GameOverOutcome(g.(index := g.index + 1))
    ensures g.state == Leaderboard && g.quiz.Some? && g.index + 1 < |g.quiz.value.questions| ==>
              o == SendCurrentQuestion(g.(index := g.index + 1), now)
    ensures g.state in {Lobby, Finished} ==> o == Outcome(g, [])
  {
    match g.state
    case QuestionDisplay =>
      var g' := g.(state := Leaderboard);
      assert PlayerOnlyScoreboard(g') == PlayerOnlyScoreboard(g);
      Outcome(g', [Broadcast(g.code, UpdateScoreboard(PlayerOnlyScoreboard(g')), None), ScheduleAutoAdvance(g.code)])
    case Leaderboard =>
      if g.quiz.None? then GameOverOutcome(g)
      else
        var g' := g.(index := g.index + 1);
        if g'.index < |g.quiz.value.questions| then SendCurrentQuestion(g', now) else GameOverOutcome(g')
    case _ => Outcome(g, [])
  }

  /** next_question from the host: during question display it moves to the
      scoreboard; during the scoreboard it is ignored (the automatic advance
      is pending); otherwise, and from anyone but the host, it is a personal
      error and nothing changes. */
  function HandleNextQuestion(g: Game, c: ConnId, now: real): (o: Outcome)
    ensures g.host != Some(c) ==> o == Outcome(g, [Send(c, Error(ErrOnlyHostControl, None))])
    ensures g.host == Some(c) && g.state == QuestionDisplay ==> o.game.state == Leaderboard
    ensures g.host == Some(c) && g.state == Leaderboard ==> o == Outcome(g, [])
    ensures g.host == Some(c) && g.state in {Lobby, Finished} ==>
              o == Outcome(g, [Send(c, Error(ErrCannotAdvanceFrom(g.state), None))])
  {
    if g.host != Some(c) then Outcome(g, [Send(c, Error(ErrOnlyHostControl, None))])
    else if g.state == QuestionDisplay then Advance(g, now)
    else if g.state == Leaderboard then Outcome(g, [])
    else Outcome(g, [Send(c, Error(ErrCannotAdvanceFrom(g.state), None))])
  }

  // ----- game over -----

  /** The game_over message one active connection receives: a real player
      gets the podium with its own final rank and score, the host the
      podium alone, anyone else nothing. */
  function GameOverFor(g: Game, c: ConnId, podium: seq<ScoreboardEntry>, table: map<string, (int, int)>): seq<Effect> {
    match PlayerIndex(g.players, c)
    case Some(k) =>
      if g.host != Some(c) then
        var nickname := g.players[k].nickname;
        var rank := if nickname in table then Some(table[nickname].0) else None;
        var score := if nickname in table then Some(table[nickname].1) else None;
        [Send(c, GameOver(podium, rank, score))]
      else [Send(c, GameOver(podium, None, None))]
    case None =>
      if g.host == Some(c) then [Send(c, GameOver(podium, None, None))] else []
  }

  function GameOverAll(g: Game, conns: seq<ConnId>, podium: seq<ScoreboardEntry>, table: map<string, (int, int)>): (es: seq<Effect>)
    ensures forall e :: e in es ==> e.Send? && e.to in conns && e.msg.GameOver? && e.msg.podium == podium
  {
    if conns == [] then []
    else GameOverFor(g, conns[0], podium, table) + GameOverAll(g, conns[1..], podium, table)
  }

  /** handle_game_over: a finished game stays as it is and nobody hears
      anything; otherwise the game finishes and every active connection is
      sent the podium (the top three real players) with, for real players,
      their own final rank and score. */
  function GameOverOutcome(g: Game): (o: Outcome)
    ensures g.state == Finished ==> o == Outcome(g, [])
    ensures g.state != Finished ==> o.game == g.(state := Finished)
    ensures forall e :: e in o.effects ==>
              e.Send? && e.to in g.activeConns && e.msg.GameOver?
              && e.msg.podium == Podium(PlayerOnlyScoreboard(g))
  {
    if g.state == Finished then Outcome(g, [])
    else
      var g' := g.(state := Finished);
      var sb := PlayerOnlyScoreboard(g');
      assert sb == PlayerOnlyScoreboard(g);
      Outcome(g', GameOverAll(g', g'.activeConns, Podium(sb), FinalTable(sb)))
  }

  /** Ending a game twice is ending it once. */
  lemma {:induction false} GameOverIdempotent(g: Game)
    ensures GameOverOutcome(GameOverOutcome(g).game) == Outcome(GameOverOutcome(g).game, [])
  {
  }

  /** The effects of es that are messages to c, in order. */
  function SentTo(es: seq<Effect>, c: ConnId): (r: seq<Effect>)
    ensures forall e :: e in r ==> e in es && e.Send? && e.to == c
  {
    if es == [] then []
    else (if es[0].Send? && es[0].to == c then [es[0]] else []) + SentTo(es[1..], c)
  }

  lemma {:induction false} SentToAppend(a: seq<Effect>, b: seq<Effect>, c: ConnId)
    ensures SentTo(a + b, c) == SentTo(a, c) + SentTo(b, c)
  {
    if a == [] {
      assert a + b == b;
    } else {
      assert (a + b)[0] == a[0] && (a + b)[1..] == a[1..] + b;
      SentToAppend(a[1..], b, c);
    }
  }

  /** Over distinct connections, c is sent exactly its own game_over
      messages, and nothing when it is not among them. */
  lemma {:induction false} GameOverAllSentTo(g: Game, conns: seq<ConnId>, podium: seq<ScoreboardEntry>,
                                             table: map<string, (int, int)>, c: ConnId)
    requires forall i, j :: 0 <= i < j < |conns| ==> conns[i] != conns[j]
    ensures SentTo(GameOverAll(g, conns, podium, table), c)
            == if c in conns then GameOverFor(g, c, podium, table) else []
  {
    if conns != [] {
      var head := GameOverFor(g, conns[0], podium, table);
      SentToAppend(head, GameOverAll(g, conns[1..], podium, table), c);
      GameOverAllSentTo(g, conns[1..], podium, table, c);
      assert SentTo(head, c) == if c == conns[0] then head else [] by {
        if head != [] {
          assert head[1..] == [];
        }
      }
      if c == conns[0] {
        assert c !in conns[1..];
      } else {
        assert c in conns <==> c in conns[1..];
      }
    }
  }

  /** When a game ends, every active connection is sent exactly the
      game_over messages chosen for it, once. */
  lemma {:induction false} GameOverMessagesTo(g: Game, c: ConnId)
    requires Inv(g) && g.state != Finished && c in g.activeConns
    ensures var sb := PlayerOnlyScoreboard(g);
            SentTo(GameOverOutcome(g).effects, c) == GameOverFor(g, c, Podium(sb), FinalTable(sb))
  {
    var g' := g.(state := Finished);
    var sb := PlayerOnlyScoreboard(g);
    assert PlayerOnlyScoreboard(g') == sb;
    assert GameOverOutcome(g).effects == GameOverAll(g', g'.activeConns, Podium(sb), FinalTable(sb));
    GameOverAllSentTo(g', g'.activeConns, Podium(sb), FinalTable(sb), c);
    GameOverForSameRoster(g', g, c, Podium(sb), FinalTable(sb));
  }

  /** The message a connection is sent depends only on the players and
      the host. */
  lemma {:induction false} GameOverForSameRoster(g: Game, g': Game, c: ConnId, podium: seq<ScoreboardEntry>,
                                                 table: map<string, (int, int)>)
    requires g.players == g'.players && g.host == g'.host
    ensures GameOverFor(g, c, podium, table) == GameOverFor(g', c, podium, table)
  {
  }

  /** When a game with a host ends, the host is sent exactly one game_over
      message: the podium, with neither a rank nor a score. */
  lemma {:induction false} GameOverTellsHostPodium(g: Game, h: ConnId)
    requires Inv(g) && g.state != Finished && g.host == Some(h)
    ensures SentTo(GameOverOutcome(g).effects, h) == [Send(h, GameOver(Podium(PlayerOnlyScoreboard(g)), None, None))]
  {
    var k :| 0 <= k < |g.players| && g.players[k].conn == h;
    assert Conns(g.players)[k] == h;
    GameOverMessagesTo(g, h);
  }

  /** When a game ends, a real player is sent exactly one game_over
      message, with the podium, its rank i + 1 on the real-player
      scoreboard and its own score. */
  lemma {:induction false} GameOverTellsPlayer(g: Game, c: ConnId, k: nat)
    requires Inv(g) && g.state != Finished
    requires k < |g.players| && g.players[k].conn == c && g.host != Some(c)
    ensures var sb := PlayerOnlyScoreboard(g);
            exists i :: 0 <= i < |sb| && sb[i].nickname == g.players[k].nickname
              && SentTo(GameOverOutcome(g).effects, c)
                 == [Send(c, GameOver(Podium(sb), Some(i + 1), Some(g.players[k].score)))]
  {
    assert Conns(g.players)[k] == c;
    GameOverMessagesTo(g, c);
    GameOverTellsOwnResult(g, c, k);
  }

  /** In the game_over messages, a real player is told exactly its own
      score and its rank on the real-player scoreboard: the podium, the
      rank i + 1 of the one entry carrying its nickname, and its score. */
  lemma {:induction false} GameOverTellsOwnResult(g: Game, c: ConnId, k: nat)
    requires Inv(g)
    requires k < |g.players| && g.players[k].conn == c && g.host != Some(c)
    ensures var sb := PlayerOnlyScoreboard(g);
            exists i :: 0 <= i < |sb| && sb[i].nickname == g.players[k].nickname
              && GameOverFor(g, c, Podium(sb), FinalTable(sb))
                 == [Send(c, GameOver(Podium(sb), Some(i + 1), Some(g.players[k].score)))]
  {
    var sb := PlayerOnlyScoreboard(g);
    var table := FinalTable(sb);
    var p := g.players[k];
    RealPlayersHaveEntries(g, p);
    assert p.nickname in table;
    var i :| 0 <= i < |sb| && sb[i].nickname == p.nickname && table[p.nickname] == (sb[i].rank, sb[i].score);
    EntryOfNickname(g, k, i);
    PlayerIndexOf(g, k);
  }

  /** Under the invariant, an entry bearing a player's nickname carries
      that player's score. */
  lemma {:induction false} EntryOfNickname(g: Game, k: nat, i: nat)
    requires Inv(g) && k < |g.players|
    requires i < |PlayerOnlyScoreboard(g)| && PlayerOnlyScoreboard(g)[i].nickname == g.players[k].nickname
    ensures PlayerOnlyScoreboard(g)[i].score == g.players[k].score
  {
    ScoreboardEntriesAreReal(g, i);
    var q :| q in g.players && IsReal(g, q) && q.nickname == PlayerOnlyScoreboard(g)[i].nickname
             && q.score == PlayerOnlyScoreboard(g)[i].score;
    var m :| 0 <= m < |g.players| && g.players[m] == q;
    assert NicknamesDistinct(g.players);
    if m != k {
      assert SameIgnoringCase(g.players[m].nickname, g.players[k].nickname);
    }
  }

  /** With distinct connections, a player's connection leads back to it. */
  lemma {:induction false} PlayerIndexOf(g: Game, k: nat)
    requires Inv(g) && k < |g.players|
    ensures PlayerIndex(g.players, g.players[k].conn) == Some(k)
  {
    var j := PlayerIndex(g.players, g.players[k].conn).value;
    assert g.players[j].conn == g.players[k].conn;
    assert DistinctConns(g.players);
  }

  // ----- disconnection -----

  /** Python's list.remove for a value that may be absent: drops the first
      occurrence. */
  function RemoveFirst(xs: seq<ConnId>, c: ConnId): (r: seq<ConnId>)
    ensures c in xs ==> |r| == |xs| - 1
    ensures c !in xs ==> r == xs
    ensures forall x :: x in r ==> x in xs
  {
    if xs == [] then []
    else if xs[0] == c then xs[1..]
    else [xs[0]] + RemoveFirst(xs[1..], c)
  }

  function RemoveAt(ps: seq<Player>, k: nat): (r: seq<Player>)
    requires k < |ps|
    ensures |r| == |ps| - 1
  {
    ps[..k] + ps[k + 1..]
  }

  /** Removing the player at k drops that player's connection (when
      connections are distinct) and keeps every other player. */
  lemma {:induction false} RemoveAtContents(ps: seq<Player>, k: nat)
    requires k < |ps|
    ensures DistinctConns(ps) ==> !HasConn(RemoveAt(ps, k), ps[k].conn)
    ensures forall p :: p in ps && p.conn != ps[k].conn ==> p in RemoveAt(ps, k)
    ensures forall p :: p in RemoveAt(ps, k) ==> p in ps
  {
    var c := ps[k].conn;
    var rest := RemoveAt(ps, k);
    assert forall i :: 0 <= i < k ==> rest[i] == ps[i];
    assert forall i :: k <= i < |rest| ==> rest[i] == ps[i + 1];
    if DistinctConns(ps) {
      forall i | 0 <= i < |rest| ensures rest[i].conn != c {
        if i >= k {
          assert rest[i] == ps[i + 1];
        }
      }
    }
    forall p | p in ps && p.conn != c ensures p in rest {
      var i :| 0 <= i < |ps| && ps[i] == p;
      if i < k { assert rest[i] == p; } else { assert rest[i - 1] == p; }
    }
    forall p | p in rest ensures p in ps {
      var i :| 0 <= i < |rest| && rest[i] == p;
      if i < k { assert ps[i] == p; } else { assert ps[i + 1] == p; }
    }
  }

  /** handle_disconnect for the game registered under the connection's
      code: the connection stops being active and stops being a player; if
      it was a real player and the game is not over everyone left hears of
      it with the new count; if it was the host, the game loses its host
      and, unless it is over, everyone is told the host left and the end of
      the game is scheduled. */
  function HandleDisconnect(g: Game, c: ConnId): (o: Outcome)
    ensures DistinctConns(g.players) ==> !HasConn(o.game.players, c)
    ensures |o.game.players| == |g.players| - (if HasConn(g.players, c) then 1 else 0)
    ensures forall p :: p in g.players && p.conn != c ==> p in o.game.players
    ensures forall p :: p in o.game.players ==> p in g.players
    ensures c !in g.activeConns ==> o.game.activeConns == g.activeConns
    ensures o.game.host == (if g.host == Some(c) then None else g.host)
    ensures o.game.state == g.state && o.game.quiz == g.quiz && o.game.index == g.index
    ensures HasConn(g.players, c) && g.host != Some(c) && g.state != Finished ==>
              exists k :: 0 <= k < |g.players| && g.players[k].conn == c
                          && Broadcast(g.code, PlayerLeft(g.players[k].nickname, RealPlayerCount(o.game)), None) in o.effects
    ensures g.host == Some(c) && g.state != Finished ==>
              ScheduleGameOver in o.effects
              && Broadcast(g.code, Error(ErrHostDisconnected, Some(CodeHostDisconnected)), None) in o.effects
    ensures g.state == Finished ==> o.effects == []
  {
    var active := RemoveFirst(g.activeConns, c);
    var wasHost := g.host == Some(c);
    var idx := PlayerIndex(g.players, c);
    var players := if idx.Some? then RemoveAt(g.players, idx.value) else g.players;
    var g1 := g.(activeConns := active, players := players);
    var left := if idx.Some? && !wasHost && g.state != Finished
                then [Broadcast(g.code, PlayerLeft(g.players[idx.value].nickname, RealPlayerCount(g1)), None)]
                else [];
    var g2 := if wasHost then g1.(host := None) else g1;
    var hostGone := if wasHost && g.state != Finished
                    then [Broadcast(g.code, Error(ErrHostDisconnected, Some(CodeHostDisconnected)), None), ScheduleGameOver]
                    else [];
    assert (DistinctConns(g.players) ==> !HasConn(players, c))
           && (forall p :: p in g.players && p.conn != c ==> p in players)
           && (forall p :: p in players ==> p in g.players) by {
      if idx.Some? {
        RemoveAtContents(g.players, idx.value);
      }
    }
    Outcome(g2, left + hostGone)
  }

  // ----- the game invariant -----

  /** Nicknames are non-empty and pairwise different ignoring case. */
  predicate NicknamesDistinct(ps: seq<Player>) {
    (forall i :: 0 <= i < |ps| ==> ps[i].nickname != [])
    && forall i, j :: 0 <= i < j < |ps| ==> !SameIgnoringCase(ps[i].nickname, ps[j].nickname)
  }

  /** What every reachable game satisfies: one player per connection, the
      active connections are exactly the players' connections in joining
      order, nicknames are unique ignoring case, scores are not negative,
      the host is a player, a loaded quiz is valid, and while a question or
      the scoreboard is shown the quiz is loaded and the index points into
      it, and a game in the lobby has shown no question. */
  predicate Inv(g: Game) {
    DistinctConns(g.players)
    && g.activeConns == Conns(g.players)
    && NicknamesDistinct(g.players)
    && (forall i :: 0 <= i < |g.players| ==> g.players[i].score >= 0)
    && (g.host.Some? ==> HasConn(g.players, g.host.value))
    && (g.quiz.Some? ==> ValidQuiz(g.quiz.value))
    && (g.state == QuestionDisplay || g.state == Leaderboard ==>
          g.quiz.Some? && 0 <= g.index < |g.quiz.value.questions|)
    && (g.state == Lobby ==> g.questionStart.None?)
  }

  lemma {:induction false} NewGameInv(code: string)
    ensures Inv(NewGame(code))
  {
  }

  /** Same players in the same order, with scores that did not go down. */
  predicate RosterKept(a: seq<Player>, b: seq<Player>) {
    |a| == |b|
    && forall i :: 0 <= i < |a| ==>
         b[i].conn == a[i].conn && b[i].nickname == a[i].nickname && b[i].score >= a[i].score
  }

  lemma {:induction false} InvUnderRosterKept(g: Game, g': Game)
    requires Inv(g)
    requires RosterKept(g.players, g'.players)
    requires g'.activeConns == g.activeConns && g'.host == g.host && g'.quiz == g.quiz
    requires g'.state == QuestionDisplay || g'.state == Leaderboard ==>
               g'.quiz.Some? && 0 <= g'.index < |g'.quiz.value.questions|
    requires g'.state == Lobby ==> g'.questionStart.None?
    ensures Inv(g')
  {
    assert Conns(g'.players) == Conns(g.players);
    if g.host.Some? {
      var i :| 0 <= i < |g.players| && g.players[i].conn == g.host.value;
      assert g'.players[i].conn == g.host.value;
    }
  }

  lemma {:induction false} JoinPreservesInv(g: Game, c: ConnId, payload: Parsed<string>)
    requires Inv(g)
    ensures Inv(HandleJoin(g, c, payload).game)
  {
    var o := HandleJoin(g, c, payload);
    if JoinVerdictOf(g, c, payload).Accepted? {
      var nickname := PyStrip(payload.value);
      var p := Player(c, nickname, 0, None, false);
      var ps := g.players + [p];
      assert o.game.players == ps;
      ActiveConnsArePlayers(g);
      assert o.game.activeConns == g.activeConns + [c];
      assert Conns(ps) == Conns(g.players) + [c];
      assert DistinctConns(ps) by {
        forall i, j | 0 <= i < j < |ps| ensures ps[i].conn != ps[j].conn {
          if j == |g.players| {
            assert g.players[i].conn != c;
          }
        }
      }
      assert NicknamesDistinct(ps) by {
        forall i, j | 0 <= i < j < |ps| ensures !SameIgnoringCase(ps[i].nickname, ps[j].nickname) {
          if j == |g.players| {
            assert !SameIgnoringCase(g.players[i].nickname, nickname);
          }
        }
      }
      if o.game.host.Some? {
        if g.host.Some? {
          var i :| 0 <= i < |g.players| && g.players[i].conn == g.host.value;
          assert ps[i].conn == g.host.value;
        } else {
          assert ps[|g.players|].conn == c;
        }
      }
    }
  }

  lemma {:induction false} StartPreservesInv(g: Game, c: ConnId)
    requires Inv(g)
    ensures Inv(HandleStartGame(g, c).game)
  {
  }

  lemma {:induction false} GameOverPreservesInv(g: Game)
    requires Inv(g)
    ensures Inv(GameOverOutcome(g).game)
  {
  }

  lemma {:induction false} SendQuestionPreservesInv(g: Game, now: real)
    requires Inv(g)
    ensures Inv(SendCurrentQuestion(g, now).game)
  {
    if CurrentQuestion(g).1.None? {
      GameOverPreservesInv(g);
    } else {
      var o := SendCurrentQuestion(g, now);
      InvUnderRosterKept(g, o.game);
    }
  }

  lemma {:induction false} SubmitPreservesInv(g: Game, c: ConnId, payload: Parsed<string>, now: real)
    requires Inv(g)
    ensures Inv(HandleSubmitAnswer(g, c, payload, now).game)
  {
    InvUnderRosterKept(g, HandleSubmitAnswer(g, c, payload, now).game);
  }

  lemma {:induction false} MoveIndexInv(g: Game, i: int)
    requires Inv(g) && g.quiz.Some? && 0 <= i < |g.quiz.value.questions|
    ensures Inv(g.(index := i))
  {
  }

  lemma {:induction false} AdvancePreservesInv(g: Game, now: real)
    requires Inv(g)
    ensures Inv(Advance(g, now).game)
  {
    if g.state == QuestionDisplay {
      InvUnderRosterKept(g, g.(state := Leaderboard));
    } else if g.state == Leaderboard {
      LeaderboardAdvanceInv(g, now);
    }
  }

  lemma {:induction false} LeaderboardAdvanceInv(g: Game, now: real)
    requires Inv(g) && g.state == Leaderboard
    ensures Inv(Advance(g, now).game)
  {
    var o := Advance(g, now);
    if g.index + 1 < |g.quiz.value.questions| {
      assert o == SendCurrentQuestion(g.(index := g.index + 1), now);
      NextQuestionInv(g, now);
    } else {
      assert o == GameOverOutcome(g.(index := g.index + 1));
      LastQuestionEndsInv(g);
    }
  }

  lemma {:induction false} NextQuestionInv(g: Game, now: real)
    requires Inv(g) && g.state == Leaderboard && g.quiz.Some? && g.index + 1 < |g.quiz.value.questions|
    ensures Inv(SendCurrentQuestion(g.(index := g.index + 1), now).game)
  {
    MoveIndexInv(g, g.index + 1);
    SendQuestionPreservesInv(g.(index := g.index + 1), now);
  }

  /** Leaving the leaderboard after the last question keeps the invariant. */
  lemma {:induction false} LastQuestionEndsInv(g: Game)
    requires Inv(g) && g.state == Leaderboard && g.quiz.Some? && g.index + 1 >= |g.quiz.value.questions|
    ensures Inv(GameOverOutcome(g.(index := g.index + 1)).game)
  {
    var h := g.(index := g.index + 1);
    FinishedInv(g, h.index);
    assert GameOverOutcome(h).game == h.(state := Finished);
  }

  /** A finished game only needs the roster part of the invariant. */
  lemma {:induction false} FinishedInv(g: Game, i: int)
    requires Inv(g)
    ensures Inv(g.(index := i, state := Finished))
  {
  }

  lemma {:induction false} NextPreservesInv(g: Game, c: ConnId, now: real)
    requires Inv(g)
    ensures Inv(HandleNextQuestion(g, c, now).game)
  {
    if g.host == Some(c) && g.state == QuestionDisplay {
      AdvancePreservesInv(g, now);
    }
  }

  /** Dropping the player at k drops its connection at the same place. */
  lemma {:induction false} RemoveFirstOfConns(ps: seq<Player>, k: nat)
    requires DistinctConns(ps) && k < |ps|
    ensures RemoveFirst(Conns(ps), ps[k].conn) == Conns(RemoveAt(ps, k))
  {
    var cs := Conns(ps);
    assert forall j :: 0 <= j < k ==> cs[j] != cs[k];
    RemoveFirstAt(cs, k);
    var rest := RemoveAt(ps, k);
    var cut := cs[..k] + cs[k + 1..];
    forall i | 0 <= i < |rest| ensures Conns(rest)[i] == cut[i] {
      if i < k {
        assert rest[i] == ps[i];
      } else {
        assert rest[i] == ps[i + 1];
      }
    }
    assert Conns(rest) == cut;
  }

  /** Removing the first occurrence of the element at k, when it does not
      occur before k, cuts out position k. */
  lemma {:induction false} RemoveFirstAt(xs: seq<ConnId>, k: nat)
    requires k < |xs| && forall j :: 0 <= j < k ==> xs[j] != xs[k]
    ensures RemoveFirst(xs, xs[k]) == xs[..k] + xs[k + 1..]
  {
    if k > 0 {
      var tail := xs[1..];
      assert tail[k - 1] == xs[k];
      RemoveFirstAt(tail, k - 1);
      assert [xs[0]] + (tail[..k - 1] + tail[k..]) == xs[..k] + xs[k + 1..];
    }
  }

  /** A connection is active exactly when it is a player's. */
  lemma {:induction false} ActiveConnsArePlayers(g: Game)
    requires g.activeConns == Conns(g.players)
    ensures forall x :: x in g.activeConns <==> HasConn(g.players, x)
  {
    forall x | x in g.activeConns ensures HasConn(g.players, x) {
      var i :| 0 <= i < |g.activeConns| && g.activeConns[i] == x;
      assert g.players[i].conn == x;
    }
    forall x | HasConn(g.players, x) ensures x in g.activeConns {
      var i :| 0 <= i < |g.players| && g.players[i].conn == x;
      assert g.activeConns[i] == x;
    }
  }

  /** Dropping a player keeps connections and nicknames distinct and scores
      non-negative. */
  lemma {:induction false} RemoveAtKeepsRoster(ps: seq<Player>, k: nat)
    requires k < |ps| && DistinctConns(ps) && NicknamesDistinct(ps)
    requires forall i :: 0 <= i < |ps| ==> ps[i].score >= 0
    ensures var r := RemoveAt(ps, k);
            DistinctConns(r) && NicknamesDistinct(r) && forall i :: 0 <= i < |r| ==> r[i].score >= 0
  {
    var r := RemoveAt(ps, k);
    assert forall i :: 0 <= i < |r| ==> r[i] == (if i < k then ps[i] else ps[i + 1]);
  }

  lemma {:induction false} DisconnectPreservesInv(g: Game, c: ConnId)
    requires Inv(g)
    ensures Inv(HandleDisconnect(g, c).game)
  {
    var o := HandleDisconnect(g, c);
    var idx := PlayerIndex(g.players, c);
    if idx.Some? {
      var k := idx.value;
      var ps := RemoveAt(g.players, k);
      assert o.game.players == ps;
      RemoveFirstOfConns(g.players, k);
      assert o.game.activeConns == Conns(ps);
      RemoveAtKeepsRoster(g.players, k);
      if o.game.host.Some? {
        var h := o.game.host.value;
        var i :| 0 <= i < |g.players| && g.players[i].conn == h;
        assert g.players[i] in ps;
      }
    } else {
      ActiveConnsArePlayers(g);
      assert o.game.players == g.players;
    }
  }
}

=== FILE: gift.dfy ===
/** Import of multiple-choice questions written in Moodle's GIFT format.
    Two revisions of the parser exist (builder.js and js/builder.js); they
    differ in how the text is cut into blocks and in which format markers
    are stripped from question texts, and are modelled as two dialects of
    one parser. The option regular expression is modelled by a scanner
    whose steps follow the expression's backtracking order. */
module Gift {
  import opened Wrappers
  import opened Text

  /** Extended: builder.js, which cuts blocks at blank lines (lines holding
      only white space count as blank) and strips the markers [html],
      [moodle], [markdown], [plain] and [tex]. Basic: js/builder.js, which
      cuts only at two or more consecutive line feeds and strips [html],
      [moodle] and [markdown]. */
  datatype Dialect = Extended | Basic

  const GiftTimeLimit := 20

  // ----- line breaks and blocks -----

  /** Every CR LF pair replaced by LF, scanning left to right. */
  function NormalizeNewlines(s: string): (r: string)
    ensures |r| <= |s|
    ensures (forall i :: 0 <= i < |s| ==> s[i] != '\r') ==> r == s
  {
    if s == [] then []
    else if |s| >= 2 && s[0] == '\r' && s[1] == '\n' then "\n" + NormalizeNewlines(s[2..])
    else [s[0]] + NormalizeNewlines(s[1..])
  }

  /** Where a block separator starts: in the Extended dialect a line feed
      followed by white space that contains another line feed, in the Basic
      dialect two consecutive line feeds. */
  predicate SeparatorAt(d: Dialect, s: string, i: nat) {
    match d
    case Extended =>
      i < |s| && s[i] == '\n'
      && exists k :: i < k < |s| && s[k] == '\n' && IsBlank(Js, s[i + 1..k])
    case Basic =>
      i + 1 < |s| && s[i] == '\n' && s[i + 1] == '\n'
  }

  /** Largest j in [lo, hi) with s[j] a line feed. */
  function LastNewline(s: string, lo: nat, hi: nat): (r: Option<nat>)
    requires lo <= hi <= |s|
    ensures r.Some? ==> lo <= r.value < hi && s[r.value] == '\n'
                        && forall j :: r.value < j < hi ==> s[j] != '\n'
    ensures r.None? ==> forall j :: lo <= j < hi ==> s[j] != '\n'
    decreases hi - lo
  {
    if lo == hi then None
    else if s[hi - 1] == '\n' then Some(hi - 1)
    else LastNewline(s, lo, hi - 1)
  }

  /** Number of consecutive line feeds at the start of s. */
  function NewlineRun(s: string): (n: nat)
    ensures n <= |s|
    ensures forall i :: 0 <= i < n ==> s[i] == '\n'
    ensures n == |s| || s[n] != '\n'
  {
    if s == [] || s[0] != '\n' then 0 else 1 + NewlineRun(s[1..])
  }

  /** End of the separator match starting at i. In the Extended dialect the
      pattern is a line feed, greedy white space, then line feeds: it ends
      just after the last line feed of the white-space run. In the Basic
      dialect it takes every consecutive line feed. */
  function SeparatorEnd(d: Dialect, s: string, i: nat): (r: Option<nat>)
    ensures r.Some? <==> SeparatorAt(d, s, i)
    ensures r.Some? ==> i < r.value <= |s|
  {
    match d
    case Extended =>
      if i < |s| && s[i] == '\n' then
        var run := LeadingSpaces(Js, s[i + 1..]);
        LeadingSpacesShape(Js, s[i + 1..]);
        var last := LastNewline(s, i + 1, i + 1 + run);
        if last.Some? then
          assert IsBlank(Js, s[i + 1..last.value]) by {
            forall j | i + 1 <= j < last.value ensures IsSpace(Js, s[j]) {
              assert s[j] == s[i + 1..][j - (i + 1)];
            }
          }
          Some(last.value + 1)
        else
          assert !SeparatorAt(d, s, i) by {
            forall k | i < k < |s| && s[k] == '\n' ensures !IsBlank(Js, s[i + 1..k]) {
              assert k >= i + 1 + run;
              assert s[i + 1..k][run] == s[i + 1..][run];
              if i + 1 + run < |s| {
                assert !IsSpace(Js, s[i + 1..][run]);
              }
            }
          }
          None
      else None
    case Basic =>
      if i + 1 < |s| && s[i] == '\n' && s[i + 1] == '\n' then Some(i + 1 + NewlineRun(s[i + 1..])) else None
  }

  /** String.prototype.split with the dialect's separator: scanning from q,
      the first position where a separator matches ends the current block,
      which started at p. */
  function SplitFrom(d: Dialect, s: string, p: nat, q: nat): (r: seq<string>)
    requires p <= q <= |s|
    ensures |r| >= 1
    decreases |s| - q
  {
    if q == |s| then [s[p..]]
    else match SeparatorEnd(d, s, q)
      case None => SplitFrom(d, s, p, q + 1)
      case Some(e) => [s[p..q]] + SplitFrom(d, s, e, e)
  }

  function Blocks(d: Dialect, s: string): (r: seq<string>)
    ensures |r| >= 1
  {
    SplitFrom(d, s, 0, 0)
  }

  /** A separator inside a piece of s is a separator in s. */
  lemma {:induction false} SeparatorInSlice(d: Dialect, s: string, p: nat, q: nat, i: nat)
    requires p <= q <= |s| && i < q - p
    requires SeparatorAt(d, s[p..q], i)
    ensures SeparatorAt(d, s, p + i)
  {
    var b := s[p..q];
    match d
    case Extended =>
      var k :| i < k < |b| && b[k] == '\n' && IsBlank(Js, b[i + 1..k]);
      assert s[p + k] == b[k];
      forall j | p + i + 1 <= j < p + k ensures IsSpace(Js, s[j]) {
        assert s[j] == b[i + 1..k][j - p - i - 1];
      }
      assert IsBlank(Js, s[p + i + 1..p + k]);
    case Basic =>
  }

  /** No block holds a separator: each is a maximal piece between them. */
  lemma {:induction false} SplitFromBlocksHaveNoSeparator(d: Dialect, s: string, p: nat, q: nat)
    requires p <= q <= |s|
    requires forall i :: p <= i < q ==> !SeparatorAt(d, s, i)
    ensures forall b, i :: b in SplitFrom(d, s, p, q) && 0 <= i < |b| ==> !SeparatorAt(d, b, i)
    decreases |s| - q
  {
    if q == |s| {
      forall i | 0 <= i < |s[p..]| ensures !SeparatorAt(d, s[p..], i) {
        if SeparatorAt(d, s[p..], i) {
          assert s[p..] == s[p..|s|];
          SeparatorInSlice(d, s, p, |s|, i);
        }
      }
    } else {
      match SeparatorEnd(d, s, q)
      case None =>
        SplitFromBlocksHaveNoSeparator(d, s, p, q + 1);
      case Some(e) =>
        SplitFromBlocksHaveNoSeparator(d, s, e, e);
        forall i | 0 <= i < |s[p..q]| ensures !SeparatorAt(d, s[p..q], i) {
          if SeparatorAt(d, s[p..q], i) {
            SeparatorInSlice(d, s, p, q, i);
          }
        }
    }
  }

  lemma {:induction false} BlocksHaveNoSeparator(d: Dialect, s: string)
    ensures forall b, i :: b in Blocks(d, s) && 0 <= i < |b| ==> !SeparatorAt(d, b, i)
  {
    SplitFromBlocksHaveNoSeparator(d, s, 0, 0);
  }

  // ----- cleaning texts -----

  /** The characters GIFT lets a backslash escape. */
  predicate Escapable(c: char) {
    c == ':' || c == '=' || c == '{' || c == '}' || c == '[' || c == ']' || c == '#' || c == '~'
  }

  /** Replace each escape \c of an escapable c by c, left to right. */
  function Unescape(s: string): (r: string)
    ensures |r| <= |s|
    ensures (forall j :: 0 <= j < |s| ==> s[j] != '\\') ==> r == s
  {
    if s == [] then []
    else if |s| >= 2 && s[0] == '\\' && Escapable(s[1]) then [s[1]] + Unescape(s[2..])
    else [s[0]] + Unescape(s[1..])
  }

  /** GIFT's escaping of a literal text: a backslash before every
      escapable character. */
  function Escape(t: string): (r: string)
    ensures |r| >= |t|
  {
    if t == [] then []
    else (if Escapable(t[0]) then ['\\', t[0]] else [t[0]]) + Escape(t[1..])
  }

  /** Unescaping undoes escaping, also for texts holding backslashes. */
  lemma {:induction false} UnescapeEscape(t: string)
    ensures Unescape(Escape(t)) == t
  {
    if t != [] {
      var rest := Escape(t[1..]);
      UnescapeEscape(t[1..]);
      var e := Escape(t);
      if Escapable(t[0]) {
        assert e == ['\\', t[0]] + rest;
        assert e[2..] == rest;
        assert Unescape(e) == [t[0]] + Unescape(rest);
      } else {
        assert e == [t[0]] + rest;
        if t[0] == '\\' && rest != [] {
          assert !Escapable(rest[0]) by { EscapeStart(t[1..]); }
        }
        assert e[1..] == rest;
        assert Unescape(e) == [t[0]] + Unescape(rest);
      }
      assert t == [t[0]] + t[1..];
    }
  }

  /** An escaped text never starts with a bare escapable character. */
  lemma {:induction false} EscapeStart(t: string)
    requires Escape(t) != []
    ensures !Escapable(Escape(t)[0])
  {
  }

  /** An HTML tag `<...>` starts at i: a '<', at least one character that
      is not '>', then a '>'. */
  predicate TagAt(s: string, i: nat) {
    i + 2 < |s| && s[i] == '<' && s[i + 1] != '>' && exists j :: i + 2 <= j < |s| && s[j] == '>'
  }

  /** Remove every tag, left to right; a tag runs to the first '>' after it. */
  function StripTags(s: string): (r: string)
    ensures |r| <= |s|
    ensures (forall j :: 0 <= j < |s| ==> s[j] != '>') ==> r == s
    ensures forall j :: 0 <= j < |r| && r[j] == '>' ==> exists k :: 0 <= k < |s| && s[k] == '>'
    decreases |s|
  {
    if s == [] then []
    else if TagAt(s, 0) then
      var e := IndexOf(s, ">", 2);
      assert e.Some? by {
        var j :| 2 <= j < |s| && s[j] == '>';
        assert OccursAt(s, ">", j);
      }
      assert s[e.value..e.value + 1] == ">";
      var r := StripTags(s[e.value + 1..]);
      assert forall j :: 0 <= j < |r| && r[j] == '>' ==> exists k :: 0 <= k < |s| && s[k] == '>' by {
        forall j | 0 <= j < |r| && r[j] == '>' ensures exists k :: 0 <= k < |s| && s[k] == '>' {
          var k :| 0 <= k < |s[e.value + 1..]| && s[e.value + 1..][k] == '>';
          assert s[e.value + 1 + k] == '>';
        }
      }
      r
    else
      var r := StripTags(s[1..]);
      assert forall j :: 0 <= j < |r| && r[j] == '>' ==> exists k :: 0 <= k < |s| && s[k] == '>' by {
        forall j | 0 <= j < |r| && r[j] == '>' ensures exists k :: 0 <= k < |s| && s[k] == '>' {
          var k :| 0 <= k < |s[1..]| && s[1..][k] == '>';
          assert s[1 + k] == '>';
        }
      }
      [s[0]] + r
  }

  /** The format markers the dialect strips, in the order the expression
      tries them. */
  function MarkerWords(d: Dialect): seq<string> {
    match d
    case Extended => ["html", "moodle", "markdown", "plain", "tex"]
    case Basic => ["html", "moodle", "markdown"]
  }

  /** s starts with w, ASCII letters compared without case. */
  predicate StartsWithIgnoringCase(s: string, w: string) {
    |w| <= |s| && LowerStr(s[..|w|]) == LowerStr(w)
  }

  /** Length of the marker `[word]` at the start of s, if any. */
  function MarkerLen(d: Dialect, s: string): (r: Option<nat>)
    ensures r.Some? ==> 3 <= r.value <= |s| && s[0] == '[' && s[r.value - 1] == ']'
  {
    if s == [] || s[0] != '[' then None
    else MarkerLenAmong(MarkerWords(d), s)
  }

  function MarkerLenAmong(words: seq<string>, s: string): (r: Option<nat>)
    requires s != [] && s[0] == '['
    ensures r.Some? ==> 3 <= r.value <= |s| && s[r.value - 1] == ']'
  {
    if words == [] then None
    else
      var w := words[0];
      if w != [] && StartsWithIgnoringCase(s[1..], w) && 1 + |w| < |s| && s[1 + |w|] == ']'
      then Some(|w| + 2)
      else MarkerLenAmong(words[1..], s)
  }

  /** Remove every format marker, left to right. */
  function StripMarkers(d: Dialect, s: string): (r: string)
    ensures |r| <= |s|
    ensures (forall j :: 0 <= j < |s| ==> s[j] != '[') ==> r == s
    decreases |s|
  {
    if s == [] then []
    else match MarkerLen(d, s)
      case Some(n) => StripMarkers(d, s[n..])
      case None => [s[0]] + StripMarkers(d, s[1..])
  }

  function CleanQuestionText(d: Dialect, s: string): string {
    Unescape(StripTags(StripMarkers(d, s)))
  }

  function CleanOptionText(s: string): string {
    Unescape(StripTags(JsTrim(s)))
  }

  // ----- the option scanner -----

  predicate IsMarker(c: char) {
    c == '=' || c == '~'
  }

  /** Characters the expression's `.` does not match. */
  predicate LineTerminator(c: char) {
    c == '\n' || c == '\r' || c == '\U{2028}' || c == '\U{2029}'
  }

  /** Length of a weight `%-?digits(.digits)?%` at position p, if any. */
  function WeightLen(s: string, p: nat): (r: Option<nat>)
    requires p <= |s|
    ensures r.Some? ==> p + r.value <= |s| && r.value >= 3
  {
    if p < |s| && s[p] == '%' then
      var q := p + 1 + (if p + 1 < |s| && s[p + 1] == '-' then 1 else 0);
      var n := DigitRun(s[q..]);
      if n == 0 then None
      else
        var q2 := q + n;
        var q3 := if q2 + 1 < |s| && s[q2] == '.' && IsDigit(s[q2 + 1]) then q2 + 1 + DigitRun(s[q2 + 1..]) else q2;
        if q3 < |s| && s[q3] == '%' then Some(q3 + 1 - p) else None
    else None
  }

  /** Where a run of text units starting at p ends: a unit is any character
      but '\', '#', '=' and '~', or a backslash with the character after it
      unless that is a line terminator. When hash is true, '#' is a unit too
      (feedback text). */
  function UnitsEnd(s: string, p: nat, hash: bool): (t: nat)
    requires p <= |s|
    ensures p <= t <= |s|
    ensures t < |s| ==> IsMarker(s[t]) || (!hash && s[t] == '#')
                        || (s[t] == '\\' && (t + 1 == |s| || LineTerminator(s[t + 1])))
    decreases |s| - p
  {
    if p == |s| then p
    else if IsMarker(s[p]) || (!hash && s[p] == '#') then p
    else if s[p] == '\\' then
      if p + 1 < |s| && !LineTerminator(s[p + 1]) then UnitsEnd(s, p + 2, hash) else p
    else UnitsEnd(s, p + 1, hash)
  }

  /** The end of an option's match once its text stopped at t: the
      lookahead needs a marker or the end of input, possibly after a
      `#feedback` that itself runs to a marker or the end. */
  function MatchEnd(s: string, t: nat): (r: Option<nat>)
    requires t <= |s|
    ensures r.Some? ==> t <= r.value <= |s|
  {
    if t == |s| || IsMarker(s[t]) then Some(t)
    else if s[t] == '#' then
      var z := UnitsEnd(s, t + 1, true);
      if z == |s| || IsMarker(s[z]) then Some(z) else None
    else None
  }

  /** One option whose text starts at p: its trimmed text and the end of
      the match. The lazy text, the greedy white space around it and the
      optional feedback can only succeed when the text units run to a stop
      after which the match can end, and the captured text is then the
      run with white space only around it. */
  function OptionFrom(s: string, p: nat): (r: Option<(string, nat)>)
    requires p <= |s|
    ensures r.Some? ==> p < r.value.1 <= |s|
  {
    var t := UnitsEnd(s, p, false);
    if p < t then
      match MatchEnd(s, t)
      case Some(e) => Some((JsTrim(s[p..t]), e))
      case None => None
    else None
  }

  /** The match at a marker: first with a weight, if one is there, then
      without. */
  function OptionAt(s: string, m: nat): (r: Option<(string, nat)>)
    requires m < |s| && IsMarker(s[m])
    ensures r.Some? ==> m < r.value.1 <= |s|
  {
    var w := WeightLen(s, m + 1);
    if w.Some? && OptionFrom(s, m + 1 + w.value).Some? then OptionFrom(s, m + 1 + w.value)
    else OptionFrom(s, m + 1)
  }

  /** An option as matched: whether its marker is '=', and its text trimmed. */
  datatype RawMatch = RawMatch(correct: bool, text: string)

  /** The global exec loop: the leftmost match at or after `from`, then
      the next one after its end. */
  function Matches(s: string, from: nat): (r: seq<RawMatch>)
    requires from <= |s|
    decreases |s| - from
  {
    if from == |s| then []
    else if IsMarker(s[from]) && OptionAt(s, from).Some? then
      var (text, e) := OptionAt(s, from).value;
      [RawMatch(s[from] == '=', text)] + Matches(s, e)
    else Matches(s, from + 1)
  }

  /** A plain option text: not blank at either end, and free of the
      characters the scanner treats specially. */
  predicate PlainText(t: string) {
    t != [] && !IsSpace(Js, t[0]) && !IsSpace(Js, t[|t| - 1]) && PlainChars(t)
  }

  predicate PlainChars(t: string) {
    forall i :: 0 <= i < |t| ==> t[i] != '#' && !IsMarker(t[i]) && t[i] != '\\' && t[i] != '%'
  }

  /** Writing options in GIFT: each text after its marker. */
  function Render(opts: seq<RawMatch>): string {
    if opts == [] then [] else [if opts[0].correct then '=' else '~'] + opts[0].text + Render(opts[1..])
  }

  lemma {:induction false} UnitsEndOverPlain(s: string, p: nat, n: nat)
    requires p + n <= |s| && PlainChars(s[p..p + n])
    requires p + n == |s| || IsMarker(s[p + n])
    ensures UnitsEnd(s, p, false) == p + n
    decreases n
  {
    if n > 0 {
      assert s[p] == s[p..p + n][0];
      assert s[p + 1..p + n] == s[p..p + n][1..];
      UnitsEndOverPlain(s, p + 1, n - 1);
    }
  }

  /** A text with no white space at either end is its own trim. */
  lemma {:induction false} TrimOfTrimmed(t: string)
    requires t != [] && !IsSpace(Js, t[0]) && !IsSpace(Js, t[|t| - 1])
    ensures JsTrim(t) == t
  {
  }

  /** Scanning from m where s continues with the rendered options gives
      back the options, for plain texts. */
  lemma {:induction false} MatchesRenderAt(s: string, m: nat, opts: seq<RawMatch>)
    requires m <= |s| && s[m..] == Render(opts)
    requires forall i :: 0 <= i < |opts| ==> PlainText(opts[i].text)
    ensures Matches(s, m) == opts
    decreases |opts|
  {
    if opts == [] {
      assert |s[m..]| == 0;
    } else {
      var t := opts[0].text;
      var e := m + 1 + |t|;
      var rest := Render(opts[1..]);
      var c := if opts[0].correct then '=' else '~';
      assert s[m..] == [c] + t + rest;
      assert rest == [] || IsMarker(rest[0]);
      assert PlainText(t);
      OptionAtRendered(s, m, c, t, rest);
      MatchesStep(s, m, t, e);
      assert (s[m] == '=') == opts[0].correct;
      assert forall i :: 0 <= i < |opts[1..]| ==> PlainText(opts[1..][i].text);
      MatchesRenderAt(s, e, opts[1..]);
      assert opts == [RawMatch(opts[0].correct, t)] + opts[1..];
    }
  }

  /** One step of the exec loop at a marker where an option matches. */
  lemma {:induction false} MatchesStep(s: string, m: nat, t: string, e: nat)
    requires m < |s| && IsMarker(s[m]) && OptionAt(s, m) == Some((t, e))
    ensures e <= |s|
    ensures Matches(s, m) == [RawMatch(s[m] == '=', t)] + Matches(s, e)
  {
  }

  /** An option written as a marker and a plain text, followed by the
      end or another marker, is matched with its text, and the match ends
      where it does. */
  lemma {:induction false} OptionAtRendered(s: string, m: nat, c: char, t: string, rest: string)
    requires m <= |s| && s[m..] == [c] + t + rest
    requires IsMarker(c) && PlainText(t) && (rest == [] || IsMarker(rest[0]))
    ensures m < |s| && s[m] == c
    ensures OptionAt(s, m) == Some((t, m + 1 + |t|))
    ensures s[m + 1 + |t|..] == rest
  {
    RenderedPieces(s, m, c, t, rest);
    OptionFromPlain(s, m + 1, t);
    assert WeightLen(s, m + 1) == None;
  }

  lemma {:induction false} OptionFromPlain(s: string, p: nat, t: string)
    requires p + |t| <= |s| && s[p..p + |t|] == t && PlainText(t)
    requires p + |t| == |s| || IsMarker(s[p + |t|])
    ensures OptionFrom(s, p) == Some((t, p + |t|))
  {
    UnitsEndOverPlain(s, p, |t|);
    TrimOfTrimmed(t);
  }

  lemma {:induction false} RenderedPieces(s: string, m: nat, c: char, t: string, rest: string)
    requires m <= |s| && s[m..] == [c] + t + rest && t != []
    ensures m + 1 + |t| <= |s| && s[m] == c && s[m + 1] == t[0]
    ensures s[m + 1..m + 1 + |t|] == t && s[m + 1 + |t|..] == rest
    ensures rest != [] ==> s[m + 1 + |t|] == rest[0]
  {
    assert s[m] == s[m..][0];
    assert s[m + 1..m + 1 + |t|] == s[m..][1..1 + |t|];
    assert s[m + 1 + |t|..] == s[m..][1 + |t|..];
  }

  /** Scanning rendered options gives back the options, for plain texts. */
  lemma {:induction false} MatchesRender(opts: seq<RawMatch>)
    requires forall i :: 0 <= i < |opts| ==> PlainText(opts[i].text)
    ensures Matches(Render(opts), 0) == opts
  {
    MatchesRenderAt(Render(opts), 0, opts);
  }

  // ----- questions -----

  datatype GiftOption = GiftOption(id: string, text: string, isCorrect: bool)

  /** A parsed question. giftTitle is "" when no title applies. */
  datatype GiftQuestion = GiftQuestion(id: string, text: string, timeLimit: int, options: seq<GiftOption>, giftTitle: string)

  function OptionId(block: nat, k: nat): string {
    "opt_gift_" + NatToString(block) + "_" + NatToString(k)
  }

  function QuestionId(block: nat): string {
    "q_gift_" + NatToString(block)
  }

  lemma {:induction false} OptionIdInjective(block: nat, j: nat, k: nat)
    requires OptionId(block, j) == OptionId(block, k)
    ensures j == k
  {
    var pre := "opt_gift_" + NatToString(block) + "_";
    assert OptionId(block, j) == pre + NatToString(j);
    assert OptionId(block, k) == pre + NatToString(k);
    assert NatToString(j) == OptionId(block, j)[|pre|..];
    NatToStringInjective(j, k);
  }

  /** The matches with their texts cleaned. */
  function Cleaned(ms: seq<RawMatch>): (r: seq<RawMatch>)
    ensures |r| == |ms|
  {
    if ms == [] then [] else [RawMatch(ms[0].correct, CleanOptionText(ms[0].text))] + Cleaned(ms[1..])
  }

  /** Options whose (cleaned) text is not empty, numbered in order from k. */
  function KeptOptions(ms: seq<RawMatch>, block: nat, k: nat): (r: seq<GiftOption>)
    ensures |r| <= |ms|
    ensures forall i :: 0 <= i < |r| ==> r[i].text != [] && r[i].id == OptionId(block, k + i)
  {
    if ms == [] then []
    else
      var text := ms[0].text;
      if text != [] then
        var rest := KeptOptions(ms[1..], block, k + 1);
        assert forall i :: 1 <= i <= |rest| ==> ([GiftOption(OptionId(block, k), text, ms[0].correct)] + rest)[i] == rest[i - 1];
        [GiftOption(OptionId(block, k), text, ms[0].correct)] + rest
      else KeptOptions(ms[1..], block, k)
  }

  function CountCorrectMatches(ms: seq<RawMatch>): nat {
    if ms == [] then 0 else (if ms[0].correct then 1 else 0) + CountCorrectMatches(ms[1..])
  }

  function CountCorrect(os: seq<GiftOption>): nat {
    if os == [] then 0 else (if os[0].isCorrect then 1 else 0) + CountCorrect(os[1..])
  }

  /** How the correct options are counted: as written, every '=' match
      counts, also one whose text was emptied by cleaning and dropped; as
      intended, only kept options count. */
  datatype CountRule = CountMatches | CountKept

  /** The parts of a block: its title if `::title::` opens it, its question
      text before '{' and the answer text between '{' and the final '}'. */
  datatype Parts = Parts(title: Option<string>, question: string, answers: string)

  function SplitBlock(block: string): (r: Option<Parts>)
    ensures r.Some? ==> (r.value.title.Some? <==> TitleEnd(block).Some?)
  {
    var e := TitleEnd(block);
    var title := if e.Some? then Some(JsTrim(block[2..e.value])) else None;
    var text := if e.Some? then JsTrim(block[e.value + 2..]) else block;
    match IndexOf(text, "{", 0)
    case None => None
    case Some(a) =>
      if !EndsWith(text, "}") then None
      else
        assert text[a] == '{' by { assert text[a..a + 1][0] == text[a]; }
        assert text[|text| - 1] == '}' by { assert text[|text| - 1..][0] == text[|text| - 1]; }
        Some(Parts(title, JsTrim(text[..a]), JsTrim(text[a + 1..|text| - 1])))
  }

  /** Where the `::` closing a leading title starts, if the block opens
      with one. */
  function TitleEnd(block: string): (r: Option<nat>)
    ensures r.Some? ==> 2 <= r.value && r.value + 2 <= |block|
  {
    if StartsWith(block, "::") then
      var e := IndexOf(block, "::", 2);
      if e.Some? then
        assert OccursAt(block, "::", e.value);
        e
      else None
    else None
  }

  /** The title the block sets for itself and later blocks: a block with a
      title delimiter replaces the current title (an empty title counts as
      none); the question carries its own title if not empty, else the
      current one. */
  function NextTitle(block: string, current: string): string {
    match TitleEnd(block)
    case Some(e) => JsTrim(block[2..e])
    case None => current
  }

  /** The question a trimmed, non-comment block yields, given the current
      title: it needs a title-free part ending in an answer group, and
      then its parts must make a question (FromParts). */
  function ParseBlock(d: Dialect, rule: CountRule, block: string, index: nat, current: string): (r: Option<GiftQuestion>)
    ensures r.Some? ==>
              var q := r.value;
              q.text != [] && q.id == QuestionId(index) && q.timeLimit == GiftTimeLimit
              && MinKept <= |q.options| <= MaxKept
              && (forall i :: 0 <= i < |q.options| ==> q.options[i].text != [] && q.options[i].id == OptionId(index, i))
              && q.giftTitle == NextTitle(block, current)
    ensures r.Some? && rule == CountKept ==> CountCorrect(r.value.options) == 1
  {
    match SplitBlock(block)
    case None => None
    case Some(parts) =>
      var r := FromParts(d, rule, parts, index, NextTitle(block, current));
      assert r.Some? ==> r.value.giftTitle == NextTitle(block, current) by {
        if r.Some? && parts.title.Some? && parts.title.value != [] {
          assert NextTitle(block, current) == parts.title.value;
        }
      }
      r
  }

  /** The question a block's parts make: the cleaned question text must
      not be empty, two to four options must be kept and exactly one
      option must be correct under the counting rule. The question keeps
      its own title if not empty, else takes the given one. */
  function FromParts(d: Dialect, rule: CountRule, parts: Parts, index: nat, title: string): (r: Option<GiftQuestion>)
    ensures r.Some? ==>
              var q := r.value;
              q.text != [] && q.id == QuestionId(index) && q.timeLimit == GiftTimeLimit
              && MinKept <= |q.options| <= MaxKept
              && (forall i :: 0 <= i < |q.options| ==> q.options[i].text != [] && q.options[i].id == OptionId(index, i))
              && q.giftTitle == (if parts.title.Some? && parts.title.value != [] then parts.title.value else title)
    ensures r.Some? && rule == CountKept ==> CountCorrect(r.value.options) == 1
  {
    var text := CleanQuestionText(d, parts.question);
    var ms := Matches(parts.answers, 0);
    var options := KeptOptions(Cleaned(ms), index, 0);
    var correct := if rule == CountMatches then CountCorrectMatches(ms) else CountCorrect(options);
    if JsTrim(text) != [] && MinKept <= |options| <= MaxKept && correct == 1 then
      var own := if parts.title.Some? then parts.title.value else "";
      Some(GiftQuestion(QuestionId(index), JsTrim(text), GiftTimeLimit, options, if own != [] then own else title))
    else None
  }

  const MinKept := 2
  const MaxKept := 4

  /** Skipped blocks: empty once trimmed, or a comment line. */
  predicate Skipped(block: string) {
    JsTrim(block) == [] || StartsWith(JsTrim(block), "//")
  }

  /** The title in effect when block i is reached: each earlier block
      that is not skipped may replace it. */
  function TitleBefore(blocks: seq<string>, i: nat): string
    requires i <= |blocks|
  {
    if i == 0 then ""
    else
      var prev := TitleBefore(blocks, i - 1);
      if Skipped(blocks[i - 1]) then prev else NextTitle(JsTrim(blocks[i - 1]), prev)
  }

  /** What each block yields, in order. */
  function BlockResults(d: Dialect, rule: CountRule, blocks: seq<string>): (r: seq<Option<GiftQuestion>>)
    ensures |r| == |blocks|
  {
    seq(|blocks|, i requires 0 <= i < |blocks| =>
      if Skipped(blocks[i]) then None else ParseBlock(d, rule, JsTrim(blocks[i]), i, TitleBefore(blocks, i)))
  }

  /** The questions among the results, in order. */
  function Questions(os: seq<Option<GiftQuestion>>): (r: seq<GiftQuestion>)
    ensures |r| <= |os|
  {
    if os == [] then []
    else (if os[0].Some? then [os[0].value] else []) + Questions(os[1..])
  }

  /** What every parsed question has under either counting rule: a
      trimmed, non-empty text, the default time limit, and two to four
      options with texts and distinct ids. */
  predicate Shaped(q: GiftQuestion) {
    q.text != [] && JsTrim(q.text) == q.text && q.timeLimit == GiftTimeLimit && MinKept <= |q.options| <= MaxKept
    && (forall i :: 0 <= i < |q.options| ==> q.options[i].text != [])
    && (forall i, j :: 0 <= i < j < |q.options| ==> q.options[i].id != q.options[j].id)
  }

  /** What the builder needs of an imported question: its shape, and
      exactly one of its options correct. */
  predicate WellFormed(q: GiftQuestion) {
    Shaped(q) && CountCorrect(q.options) == 1
  }

  /** What a question parsed under the rule is sure to be: shaped, and
      well formed when only kept options are counted. */
  predicate Fits(rule: CountRule, q: GiftQuestion) {
    Shaped(q) && (rule == CountKept ==> CountCorrect(q.options) == 1)
  }

  predicate AllFit(rule: CountRule, qs: seq<GiftQuestion>) {
    forall i :: 0 <= i < |qs| ==> Fits(rule, qs[i])
  }

  predicate DistinctIds(qs: seq<GiftQuestion>) {
    forall i, j :: 0 <= i < j < |qs| ==> qs[i].id != qs[j].id
  }

  /** parseGIFT, counting correct options by the rule (CountMatches is the
      source as written): the questions of the text's blocks, in order.
      Each fits the rule and no two share an id. */
  function ParseGift(d: Dialect, rule: CountRule, text: string): (r: seq<GiftQuestion>)
    ensures AllFit(rule, r)
    ensures DistinctIds(r)
  {
    if text == [] then []
    else
      var blocks := Blocks(d, NormalizeNewlines(text));
      BlockResultsFit(d, rule, blocks);
      QuestionsFit(rule, BlockResults(d, rule, blocks), 0);
      Questions(BlockResults(d, rule, blocks))
  }

  lemma {:induction false} BlockQuestionFits(d: Dialect, rule: CountRule, block: string, index: nat, current: string)
    requires ParseBlock(d, rule, block, index, current).Some?
    ensures Fits(rule, ParseBlock(d, rule, block, index, current).value)
  {
    var q := ParseBlock(d, rule, block, index, current).value;
    var parts := SplitBlock(block).value;
    TrimIdempotent(Js, CleanQuestionText(d, parts.question));
    forall i, j | 0 <= i < j < |q.options| ensures q.options[i].id != q.options[j].id {
      if q.options[i].id == q.options[j].id {
        OptionIdInjective(index, i, j);
      }
    }
  }

  lemma {:induction false} QuestionIdInjective(j: nat, k: nat)
    requires QuestionId(j) == QuestionId(k)
    ensures j == k
  {
    var pre := "q_gift_";
    assert NatToString(j) == QuestionId(j)[|pre|..];
    assert NatToString(k) == QuestionId(k)[|pre|..];
    NatToStringInjective(j, k);
  }

  /** Result i, when a question, fits the rule and has block lo + i's id. */
  predicate ResultsFrom(rule: CountRule, os: seq<Option<GiftQuestion>>, lo: nat) {
    forall i :: 0 <= i < |os| && os[i].Some? ==> Fits(rule, os[i].value) && os[i].value.id == QuestionId(lo + i)
  }

  lemma {:induction false} BlockResultsFit(d: Dialect, rule: CountRule, blocks: seq<string>)
    ensures ResultsFrom(rule, BlockResults(d, rule, blocks), 0)
  {
    var os := BlockResults(d, rule, blocks);
    forall i | 0 <= i < |os| && os[i].Some? ensures Fits(rule, os[i].value) && os[i].value.id == QuestionId(i) {
      BlockQuestionFits(d, rule, JsTrim(blocks[i]), i, TitleBefore(blocks, i));
    }
  }

  /** Every question's id is that of a result at or after lo. */
  ghost predicate IdsFrom(qs: seq<GiftQuestion>, lo: nat) {
    forall i :: 0 <= i < |qs| ==> IdAtLeast(qs[i].id, lo)
  }

  ghost predicate IdAtLeast(id: string, lo: nat) {
    exists k: nat :: lo <= k && id == QuestionId(k)
  }

  lemma {:induction false} QuestionsFit(rule: CountRule, os: seq<Option<GiftQuestion>>, lo: nat)
    requires ResultsFrom(rule, os, lo)
    ensures AllFit(rule, Questions(os))
    ensures IdsFrom(Questions(os), lo)
    ensures DistinctIds(Questions(os))
    decreases |os|
  {
    if os != [] {
      var tail := os[1..];
      assert ResultsFrom(rule, tail, lo + 1) by {
        forall i | 0 <= i < |tail| && tail[i].Some?
          ensures Fits(rule, tail[i].value) && tail[i].value.id == QuestionId(lo + 1 + i) {
          assert tail[i] == os[i + 1];
        }
      }
      QuestionsFit(rule, tail, lo + 1);
      var rest := Questions(tail);
      assert IdsFrom(rest, lo + 1);
      var all := Questions(os);
      if os[0].Some? {
        assert all == [os[0].value] + rest;
        PrependQuestion(rule, os[0].value, rest, lo);
      } else {
        assert all == rest;
        IdsFromEarlier(rest, lo);
      }
    }
  }

  lemma {:induction false} IdsFromEarlier(qs: seq<GiftQuestion>, lo: nat)
    requires IdsFrom(qs, lo + 1)
    ensures IdsFrom(qs, lo)
  {
    forall i | 0 <= i < |qs| ensures IdAtLeast(qs[i].id, lo) {
      var k: nat :| lo + 1 <= k && qs[i].id == QuestionId(k);
      assert lo <= k && qs[i].id == QuestionId(k);
    }
  }

  lemma {:induction false} PrependQuestion(rule: CountRule, q: GiftQuestion, rest: seq<GiftQuestion>, lo: nat)
    requires Fits(rule, q) && q.id == QuestionId(lo)
    requires AllFit(rule, rest) && IdsFrom(rest, lo + 1) && DistinctIds(rest)
    ensures AllFit(rule, [q] + rest) && IdsFrom([q] + rest, lo) && DistinctIds([q] + rest)
  {
    PrependDistinct(q, rest, lo);
    PrependFits(rule, q, rest);
    PrependIds(q, rest, lo);
  }

  lemma {:induction false} PrependDistinct(q: GiftQuestion, rest: seq<GiftQuestion>, lo: nat)
    requires q.id == QuestionId(lo) && IdsFrom(rest, lo + 1) && DistinctIds(rest)
    ensures DistinctIds([q] + rest)
  {
    var all := [q] + rest;
    forall j | 0 <= j < |rest| ensures q.id != rest[j].id {
      var k: nat :| lo + 1 <= k && rest[j].id == QuestionId(k);
      if q.id == rest[j].id {
        QuestionIdInjective(lo, k);
      }
    }
    forall i, j | 0 <= i < j < |all| ensures all[i].id != all[j].id {
      if i == 0 {
        assert all[j] == rest[j - 1];
      } else {
        assert all[i] == rest[i - 1] && all[j] == rest[j - 1];
      }
    }
  }

  lemma {:induction false} PrependFits(rule: CountRule, q: GiftQuestion, rest: seq<GiftQuestion>)
    requires Fits(rule, q) && AllFit(rule, rest)
    ensures AllFit(rule, [q] + rest)
  {
    var all := [q] + rest;
    forall i | 0 <= i < |all| ensures Fits(rule, all[i]) {
      if i > 0 { assert all[i] == rest[i - 1]; }
    }
  }

  lemma {:induction false} PrependIds(q: GiftQuestion, rest: seq<GiftQuestion>, lo: nat)
    requires q.id == QuestionId(lo) && IdsFrom(rest, lo + 1)
    ensures IdsFrom([q] + rest, lo)
  {
    var all := [q] + rest;
    forall i | 0 <= i < |all| ensures IdAtLeast(all[i].id, lo) {
      if i > 0 {
        assert all[i] == rest[i - 1];
        var k: nat :| lo + 1 <= k && rest[i - 1].id == QuestionId(k);
        assert lo <= k && all[i].id == QuestionId(k);
      } else {
        assert lo <= lo && all[0].id == QuestionId(lo);
      }
    }
  }

  /** The two rules agree except when a correct option was dropped: with
      every match kept, they accept the same questions. */
  lemma {:induction false} RulesAgreeWhenNothingDropped(ms: seq<RawMatch>, block: nat, k: nat)
    requires forall i :: 0 <= i < |ms| ==> ms[i].text != []
    ensures CountCorrect(KeptOptions(ms, block, k)) == CountCorrectMatches(ms)
  {
    if ms != [] {
      RulesAgreeWhenNothingDropped(ms[1..], block, k + 1);
    }
  }

  /** An option text that is a single tag, `<x...>` with no other '>',
      cleans to nothing. */
  lemma {:induction false} LoneTagCleansAway(t: string)
    requires |t| >= 3 && t[0] == '<' && t[1] != '>' && t[|t| - 1] == '>'
    requires forall j :: 1 <= j < |t| - 1 ==> t[j] != '>'
    ensures CleanOptionText(t) == []
  {
    var last := |t| - 1;
    TrimOfTrimmed(t);
    assert TagAt(t, 0);
    assert OccursAt(t, ">", last) by { assert t[last..last + 1] == [t[last]]; }
    var e := IndexOf(t, ">", 2);
    assert e.Some?;
    assert t[e.value..e.value + 1][0] == '>';
    assert e.value == last;
    assert t[last + 1..] == [];
  }

  /** Cleaning keeps a single letter. */
  lemma {:induction false} CleanLetter(c: char)
    requires 'a' <= c <= 'z'
    ensures CleanOptionText([c]) == [c]
  {
    TrimOfTrimmed([c]);
  }

  lemma {:induction false} CleanedExample()
    ensures Cleaned([RawMatch(true, "<b>"), RawMatch(false, "a"), RawMatch(false, "b")])
            == [RawMatch(true, ""), RawMatch(false, "a"), RawMatch(false, "b")]
  {
    var raw := [RawMatch(true, "<b>"), RawMatch(false, "a"), RawMatch(false, "b")];
    var ra := raw[1..];
    var rb := ra[1..];
    assert rb[1..] == [];
    assert Cleaned(rb) == [RawMatch(false, "b")] by { CleanLetter('b'); }
    assert Cleaned(ra) == [RawMatch(false, "a"), RawMatch(false, "b")] by { CleanLetter('a'); }
    assert Cleaned(raw) == [RawMatch(true, "")] + Cleaned(ra) by { LoneTagCleansAway(raw[0].text); }
  }

  /** As written, a block whose only '=' option is emptied by cleaning is
      still accepted, with no correct option left among those kept. */
  lemma {:induction false} DroppedCorrectOptionAccepted()
    ensures var ms := Cleaned([RawMatch(true, "<b>"), RawMatch(false, "a"), RawMatch(false, "b")]);
            var kept := KeptOptions(ms, 0, 0);
            CountCorrectMatches(ms) == 1 && |kept| == 2 && CountCorrect(kept) == 0
  {
    CleanedExample();
    var ms := [RawMatch(true, ""), RawMatch(false, "a"), RawMatch(false, "b")];
    var ma := ms[1..];
    var mb := ma[1..];
    assert mb[1..] == [];
    var kb := KeptOptions(mb, 0, 1);
    assert kb == [GiftOption(OptionId(0, 1), "b", false)];
    var ka := KeptOptions(ma, 0, 0);
    assert ka == [GiftOption(OptionId(0, 0), "a", false)] + kb;
    assert KeptOptions(ms, 0, 0) == ka;
    assert CountCorrect(ka) == 0 by {
      assert CountCorrect(kb) == 0;
    }
    assert CountCorrectMatches(ms) == 1 by {
      assert CountCorrectMatches(mb) == 0;
      assert CountCorrectMatches(ma) == 0;
    }
  }

  /** The scanner really produces those matches from the answer text
      "=<b>~a~b", so the block "Q{=<b>~a~b}" is accepted as written. */
  lemma {:induction false} DroppedCorrectOptionScanned()
    ensures Matches("=<b>~a~b", 0) == [RawMatch(true, "<b>"), RawMatch(false, "a"), RawMatch(false, "b")]
  {
    var opts := [RawMatch(true, "<b>"), RawMatch(false, "a"), RawMatch(false, "b")];
    assert opts[1..][1..][1..] == [];
    assert Render(opts[1..][1..]) == "~b";
    assert Render(opts[1..]) == "~a~b";
    assert Render(opts) == "=<b>~a~b";
    MatchesRender(opts);
  }

  // ----- writing questions in GIFT, and reading them back -----

  /** A question text that can be written as it is before its answer
      group: not blank at either end, not opening a title (':') or a
      comment ('/'), on one line, and free of the characters that the
      answer group or cleaning act on. */
  predicate PlainQuestion(t: string) {
    t != [] && !IsSpace(Js, t[0]) && !IsSpace(Js, t[|t| - 1]) && t[0] != ':' && t[0] != '/'
    && forall i :: 0 <= i < |t| ==> QuestionChar(t[i])
  }

  predicate QuestionChar(c: char) {
    c != '{' && c != '}' && c != '[' && c != '>' && c != '\\' && c != '\n' && c != '\r'
  }

  /** An option text that scanning and cleaning give back unchanged and
      that stays on one line. */
  predicate PlainOption(t: string) {
    PlainText(t) && forall i :: 0 <= i < |t| ==> t[i] != '>' && t[i] != '\n' && t[i] != '\r'
  }

  /** A multiple-choice question as an author means it: its text and its
      options, each marked correct or not. */
  datatype Item = Item(text: string, options: seq<RawMatch>)

  /** An item GIFT expresses plainly: two to four options, exactly one
      of them correct. */
  predicate Writable(it: Item) {
    PlainQuestion(it.text) && MinKept <= |it.options| <= MaxKept && CountCorrectMatches(it.options) == 1
    && forall k :: 0 <= k < |it.options| ==> PlainOption(it.options[k].text)
  }

  function RenderItem(it: Item): string {
    it.text + "{" + Render(it.options) + "}"
  }

  /** Blocks written one after another with a blank line between two. */
  function JoinBlocks(bs: seq<string>): string {
    if bs == [] then [] else if |bs| == 1 then bs[0] else bs[0] + "\n\n" + JoinBlocks(bs[1..])
  }

  function RenderGift(items: seq<Item>): string {
    JoinBlocks(seq(|items|, i requires 0 <= i < |items| => RenderItem(items[i])))
  }

  /** The options the question of block `block` is meant to carry: every
      option, numbered in order from k. */
  function Numbered(opts: seq<RawMatch>, block: nat, k: nat): seq<GiftOption> {
    seq(|opts|, j requires 0 <= j < |opts| => GiftOption(OptionId(block, k + j), opts[j].text, opts[j].correct))
  }

  /** The question an item written as block `block` is meant to become. */
  function Expected(it: Item, block: nat, title: string): GiftQuestion {
    GiftQuestion(QuestionId(block), it.text, GiftTimeLimit, Numbered(it.options, block, 0), title)
  }

  /** With no option emptied, every option is kept. */
  lemma {:induction false} KeptAll(ms: seq<RawMatch>, block: nat, k: nat)
    requires forall j :: 0 <= j < |ms| ==> ms[j].text != []
    ensures KeptOptions(ms, block, k) == Numbered(ms, block, k)
    decreases |ms|
  {
    if ms != [] {
      var tail := ms[1..];
      assert forall j :: 0 <= j < |tail| ==> tail[j].text != [];
      KeptAll(tail, block, k + 1);
      NumberedCons(ms, block, k);
    }
  }

  /** Numbering the first option, then the rest from the next number. */
  lemma {:induction false} NumberedCons(ms: seq<RawMatch>, block: nat, k: nat)
    requires ms != []
    ensures Numbered(ms, block, k)
            == [GiftOption(OptionId(block, k), ms[0].text, ms[0].correct)] + Numbered(ms[1..], block, k + 1)
  {
    var first := GiftOption(OptionId(block, k), ms[0].text, ms[0].correct);
    var rest := Numbered(ms[1..], block, k + 1);
    var all := Numbered(ms, block, k);
    forall j | 0 <= j < |all| ensures all[j] == ([first] + rest)[j] {
      if j > 0 {
        assert ms[1..][j - 1] == ms[j];
        assert k + 1 + (j - 1) == k + j;
      }
    }
  }

  lemma {:induction false} CleanPlainOption(t: string)
    requires PlainOption(t)
    ensures CleanOptionText(t) == t
  {
    TrimOfTrimmed(t);
  }

  /** Cleaning leaves plain options as they are. */
  lemma {:induction false} CleanedPlain(ms: seq<RawMatch>)
    requires forall j :: 0 <= j < |ms| ==> PlainOption(ms[j].text)
    ensures Cleaned(ms) == ms
    decreases |ms|
  {
    if ms != [] {
      CleanPlainOption(ms[0].text);
      CleanedPlain(ms[1..]);
    }
  }

  /** Rendered plain options start with a marker, end in a character
      that is not white space and hold no line break. */
  lemma {:induction false} RenderShape(opts: seq<RawMatch>)
    requires forall j :: 0 <= j < |opts| ==> PlainOption(opts[j].text)
    ensures var r := Render(opts);
            (opts != [] ==> r != [] && IsMarker(r[0]) && !IsSpace(Js, r[|r| - 1]))
            && forall j :: 0 <= j < |r| ==> r[j] != '\n' && r[j] != '\r'
    decreases |opts|
  {
    if opts != [] {
      var t := opts[0].text;
      var c := if opts[0].correct then '=' else '~';
      var rest := Render(opts[1..]);
      RenderShape(opts[1..]);
      var r := Render(opts);
      assert r == [c] + t + rest;
      forall j | 0 <= j < |r| ensures r[j] != '\n' && r[j] != '\r' {
        if 1 <= j < 1 + |t| {
          assert r[j] == t[j - 1];
        } else if j >= 1 + |t| {
          assert r[j] == rest[j - 1 - |t|];
        }
      }
      if rest == [] {
        assert r[|r| - 1] == t[|t| - 1];
      } else {
        assert r[|r| - 1] == rest[|rest| - 1];
      }
    }
  }

  /** A plain question before an answer group that is its own trim
      splits into exactly those parts, with no title. */
  lemma {:induction false} SplitRendered(qt: string, ans: string)
    requires PlainQuestion(qt) && JsTrim(ans) == ans
    ensures SplitBlock(qt + "{" + ans + "}") == Some(Parts(None, qt, ans))
    ensures TitleEnd(qt + "{" + ans + "}") == None
  {
    var b := qt + "{" + ans + "}";
    assert b[0] == qt[0];
    assert TitleEnd(b) == None;
    assert OccursAt(b, "{", |qt|) by { assert b[|qt|..|qt| + 1] == "{"; }
    forall j | 0 <= j < |qt| ensures !OccursAt(b, "{", j) {
      assert b[j] == qt[j] && QuestionChar(qt[j]);
      assert b[j..j + 1][0] == b[j];
    }
    assert IndexOf(b, "{", 0) == Some(|qt|);
    assert EndsWith(b, "}") by { assert b[|b| - 1..] == "}"; }
    assert b[..|qt|] == qt;
    assert b[|qt| + 1..|b| - 1] == ans;
    TrimOfTrimmed(qt);
  }

  /** Cleaning leaves a plain question text as it is. */
  lemma {:induction false} CleanPlainQuestion(d: Dialect, qt: string)
    requires PlainQuestion(qt)
    ensures CleanQuestionText(d, qt) == qt && JsTrim(qt) == qt
  {
    TrimOfTrimmed(qt);
  }

  /** The parts of a written item make exactly the question it
      describes, under either counting rule. */
  lemma {:induction false} FromPartsPlain(d: Dialect, rule: CountRule, it: Item, index: nat, title: string)
    requires Writable(it)
    ensures FromParts(d, rule, Parts(None, it.text, Render(it.options)), index, title) == Some(Expected(it, index, title))
  {
    CleanPlainQuestion(d, it.text);
    PlainOptionsKept(it.options, index);
  }

  /** Plain options, written and read back, are kept as they are, numbered
      in order, and both rules count the same correct options. */
  lemma {:induction false} PlainOptionsKept(opts: seq<RawMatch>, index: nat)
    requires forall j :: 0 <= j < |opts| ==> PlainOption(opts[j].text)
    ensures Matches(Render(opts), 0) == opts && Cleaned(opts) == opts
    ensures KeptOptions(opts, index, 0) == Numbered(opts, index, 0)
    ensures CountCorrect(KeptOptions(opts, index, 0)) == CountCorrectMatches(opts)
  {
    assert forall j :: 0 <= j < |opts| ==> PlainText(opts[j].text);
    MatchesRender(opts);
    CleanedPlain(opts);
    assert forall j :: 0 <= j < |opts| ==> opts[j].text != [];
    KeptAll(opts, index, 0);
    RulesAgreeWhenNothingDropped(opts, index, 0);
  }

  /** Completeness for one block: a writable item, written as a block,
      becomes exactly the question it describes, under either counting
      rule and whatever title is current. */
  lemma {:induction false} ParseRenderedBlock(d: Dialect, rule: CountRule, it: Item, index: nat, current: string)
    requires Writable(it)
    ensures ParseBlock(d, rule, RenderItem(it), index, current) == Some(Expected(it, index, current))
  {
    var ans := Render(it.options);
    RenderShape(it.options);
    TrimOfTrimmed(ans);
    SplitRendered(it.text, ans);
    assert TitleEnd(RenderItem(it)) == None by { assert RenderItem(it)[0] == it.text[0]; }
    FromPartsPlain(d, rule, it, index, current);
  }

  /** A block that stays on one line and starts with a character that is
      not white space. */
  predicate OneLine(b: string) {
    b != [] && !IsSpace(Js, b[0]) && forall j :: 0 <= j < |b| ==> b[j] != '\n' && b[j] != '\r'
  }

  /** Scanning over a stretch without line feeds finds no separator. */
  lemma {:induction false} SplitSkipsLine(d: Dialect, s: string, p: nat, q: nat, n: nat)
    requires p <= q <= n <= |s|
    requires forall j :: q <= j < n ==> s[j] != '\n'
    ensures SplitFrom(d, s, p, q) == SplitFrom(d, s, p, n)
    decreases n - q
  {
    if q < n {
      SplitStep(d, s, p, q);
      SplitSkipsLine(d, s, p, q + 1, n);
    }
  }

  /** One scanning step of split where no separator starts. */
  lemma {:induction false} SplitStep(d: Dialect, s: string, p: nat, q: nat)
    requires p <= q < |s| && s[q] != '\n'
    ensures SplitFrom(d, s, p, q) == SplitFrom(d, s, p, q + 1)
  {
    assert !SeparatorAt(d, s, q);
  }

  /** One scanning step of split where a separator starts: the block ends. */
  lemma {:induction false} SplitCut(d: Dialect, s: string, p: nat, q: nat, e: nat)
    requires p <= q < |s| && SeparatorEnd(d, s, q) == Some(e)
    ensures SplitFrom(d, s, p, q) == [s[p..q]] + SplitFrom(d, s, e, e)
  {
  }

  /** A blank line before a character that is not white space is a
      separator in both dialects, ending at that character. */
  lemma {:induction false} BlankLineSeparates(d: Dialect, s: string, q: nat)
    requires q + 2 < |s| && s[q] == '\n' && s[q + 1] == '\n' && !IsSpace(Js, s[q + 2])
    ensures SeparatorEnd(d, s, q) == Some(q + 2)
  {
    assert s[q + 1..][1..] == s[q + 2..];
    match d
    case Extended =>
      assert LeadingSpaces(Js, s[q + 1..]) == 1;
      assert LastNewline(s, q + 1, q + 2) == Some(q + 1);
    case Basic =>
      assert NewlineRun(s[q + 1..]) == 1;
  }

  /** Joined blocks start with the first block, followed by a blank line
      and the rest when there is more than one. */
  lemma {:induction false} JoinShape(bs: seq<string>)
    requires bs != []
    ensures var s := JoinBlocks(bs);
            |bs[0]| <= |s| && s[..|bs[0]|] == bs[0]
            && (|bs| == 1 ==> s == bs[0])
            && (|bs| > 1 ==> s[|bs[0]|..] == "\n\n" + JoinBlocks(bs[1..]))
  {
  }

  /** Where the first of the joined blocks ends in s, and what follows. */
  lemma {:induction false} JoinedAt(s: string, p: nat, bs: seq<string>)
    requires p <= |s| && s[p..] == JoinBlocks(bs) && bs != []
    ensures var n := p + |bs[0]|;
            n <= |s| && s[p..n] == bs[0]
            && (|bs| == 1 ==> n == |s|)
            && (|bs| > 1 ==> n + 2 <= |s| && s[n] == '\n' && s[n + 1] == '\n' && s[n + 2..] == JoinBlocks(bs[1..]))
  {
    JoinShape(bs);
    var n := p + |bs[0]|;
    assert s[p..n] == s[p..][..|bs[0]|];
    if |bs| > 1 {
      assert s[n..] == s[p..][|bs[0]|..];
      assert s[n] == s[n..][0] && s[n + 1] == s[n..][1];
      assert s[n + 2..] == s[n..][2..];
    }
  }

  /** Splitting the joined blocks, from where they start in s, gives them
      back. */
  lemma {:induction false} SplitJoined(d: Dialect, s: string, p: nat, bs: seq<string>)
    requires p <= |s| && s[p..] == JoinBlocks(bs) && bs != []
    requires forall i :: 0 <= i < |bs| ==> OneLine(bs[i])
    ensures SplitFrom(d, s, p, p) == bs
    decreases |bs|
  {
    if |bs| > 1 {
      var n := p + |bs[0]|;
      SplitJoinedStep(d, s, p, bs);
      OneLineTail(bs);
      SplitJoined(d, s, n + 2, bs[1..]);
      assert bs == [bs[0]] + bs[1..];
    } else {
      JoinedFirst(d, s, p, bs);
    }
  }

  /** The first of several joined blocks splits off whole, and splitting
      continues where the next block starts. */
  lemma {:induction false} SplitJoinedStep(d: Dialect, s: string, p: nat, bs: seq<string>)
    requires p <= |s| && s[p..] == JoinBlocks(bs) && |bs| > 1
    requires OneLine(bs[0]) && OneLine(bs[1])
    ensures var n := p + |bs[0]|;
            n + 2 <= |s| && s[n + 2..] == JoinBlocks(bs[1..])
            && SplitFrom(d, s, p, p) == [bs[0]] + SplitFrom(d, s, n + 2, n + 2)
  {
    JoinedAt(s, p, bs);
    var n := p + |bs[0]|;
    forall j | p <= j < n ensures s[j] != '\n' {
      assert s[j] == s[p..n][j - p];
    }
    JoinShape(bs[1..]);
    assert s[n + 2] == bs[1][0] by { assert s[n + 2] == s[n + 2..][0]; }
    SplitStepAt(d, s, p, n);
  }

  /** A line without line feeds followed by a blank line and a character
      that is not white space splits off as one block. */
  lemma {:induction false} SplitStepAt(d: Dialect, s: string, p: nat, n: nat)
    requires p <= n && n + 2 < |s| && (forall j :: p <= j < n ==> s[j] != '\n')
    requires s[n] == '\n' && s[n + 1] == '\n' && !IsSpace(Js, s[n + 2])
    ensures SplitFrom(d, s, p, p) == [s[p..n]] + SplitFrom(d, s, n + 2, n + 2)
  {
    SplitSkipsLine(d, s, p, p, n);
    BlankLineSeparates(d, s, n);
    SplitCut(d, s, p, n, n + 2);
  }

  lemma {:induction false} OneLineTail(bs: seq<string>)
    requires bs != [] && forall i :: 0 <= i < |bs| ==> OneLine(bs[i])
    ensures forall i :: 0 <= i < |bs[1..]| ==> OneLine(bs[1..][i])
  {
    forall i | 0 <= i < |bs[1..]| ensures OneLine(bs[1..][i]) { assert bs[1..][i] == bs[i + 1]; }
  }

  /** Scanning the first of the joined blocks finds no separator inside
      it. */
  lemma {:induction false} JoinedFirst(d: Dialect, s: string, p: nat, bs: seq<string>)
    requires p <= |s| && s[p..] == JoinBlocks(bs) && bs != [] && OneLine(bs[0])
    ensures var n := p + |bs[0]|;
            n <= |s| && s[p..n] == bs[0] && SplitFrom(d, s, p, p) == SplitFrom(d, s, p, n)
            && (|bs| == 1 ==> n == |s|)
            && (|bs| > 1 ==> n + 2 <= |s| && s[n] == '\n' && s[n + 1] == '\n' && s[n + 2..] == JoinBlocks(bs[1..]))
  {
    JoinedAt(s, p, bs);
    var n := p + |bs[0]|;
    forall j | p <= j < n ensures s[j] != '\n' {
      assert s[j] == s[p..n][j - p];
    }
    SplitSkipsLine(d, s, p, p, n);
  }

  /** Joined one-line blocks hold no carriage return. */
  lemma {:induction false} JoinNoReturn(bs: seq<string>)
    requires forall i :: 0 <= i < |bs| ==> OneLine(bs[i])
    ensures forall j :: 0 <= j < |JoinBlocks(bs)| ==> JoinBlocks(bs)[j] != '\r'
    decreases |bs|
  {
    if |bs| > 1 {
      var rest := bs[1..];
      assert forall i :: 0 <= i < |rest| ==> OneLine(rest[i]) by {
        forall i | 0 <= i < |rest| ensures OneLine(rest[i]) { assert rest[i] == bs[i + 1]; }
      }
      JoinNoReturn(rest);
      var s := JoinBlocks(bs);
      assert s == bs[0] + "\n\n" + JoinBlocks(rest);
      forall j | 0 <= j < |s| ensures s[j] != '\r' {
        if j < |bs[0]| {
          assert s[j] == bs[0][j];
        } else if j >= |bs[0]| + 2 {
          assert s[j] == JoinBlocks(rest)[j - |bs[0]| - 2];
        }
      }
    } else if |bs| == 1 {
      assert OneLine(bs[0]);
    }
  }

  /** Writing blocks with blank lines between them and cutting the text
      into blocks again gives them back, in both dialects. */
  lemma {:induction false} BlocksOfJoined(d: Dialect, bs: seq<string>)
    requires bs != [] && forall i :: 0 <= i < |bs| ==> OneLine(bs[i])
    ensures Blocks(d, NormalizeNewlines(JoinBlocks(bs))) == bs
  {
    var s := JoinBlocks(bs);
    JoinNoReturn(bs);
    assert NormalizeNewlines(s) == s;
    assert s[0..] == s;
    SplitJoined(d, s, 0, bs);
  }

  /** Blocks that open no title leave the current title empty. */
  lemma {:induction false} NoTitleBefore(bs: seq<string>, i: nat)
    requires i <= |bs|
    requires forall j :: 0 <= j < |bs| ==> OneLine(bs[j]) && bs[j][0] != ':'
    ensures TitleBefore(bs, i) == ""
  {
    if i > 0 {
      NoTitleBefore(bs, i - 1);
      var b := bs[i - 1];
      assert OneLine(b) && b[0] != ':';
      if !Skipped(b) {
        TrimShape(Js, b);
        var t := JsTrim(b);
        assert LeadingSpaces(Js, b) == 0;
        assert t[0] == b[0];
        assert TitleEnd(t) == None;
      }
    }
  }

  /** The questions of results that are all questions: their values. */
  lemma {:induction false} QuestionsOfAll(os: seq<Option<GiftQuestion>>, qs: seq<GiftQuestion>)
    requires |os| == |qs| && forall i :: 0 <= i < |os| ==> os[i] == Some(qs[i])
    ensures Questions(os) == qs
    decreases |os|
  {
    if os != [] {
      assert forall i :: 0 <= i < |os[1..]| ==> os[1..][i] == Some(qs[1..][i]);
      QuestionsOfAll(os[1..], qs[1..]);
      assert qs == [qs[0]] + qs[1..];
    }
  }

  /** A one-line block that is its own trim, opens neither a title nor a
      comment. */
  predicate Bare(b: string) {
    OneLine(b) && b[0] != ':' && b[0] != '/' && !IsSpace(Js, b[|b| - 1])
  }

  /** A bare block is not skipped and, after bare blocks, is parsed with
      no title in effect. */
  lemma {:induction false} BareResult(d: Dialect, rule: CountRule, bs: seq<string>, i: nat)
    requires i < |bs| && forall j :: 0 <= j < |bs| ==> Bare(bs[j])
    ensures BlockResults(d, rule, bs)[i] == ParseBlock(d, rule, bs[i], i, "")
  {
    var b := bs[i];
    assert Bare(b);
    TrimOfTrimmed(b);
    assert !StartsWith(b, "//") by {
      if |b| >= 2 { assert b[..2][0] == b[0]; }
    }
    assert forall j :: 0 <= j < |bs| ==> OneLine(bs[j]) && bs[j][0] != ':' by {
      forall j | 0 <= j < |bs| ensures OneLine(bs[j]) && bs[j][0] != ':' { assert Bare(bs[j]); }
    }
    NoTitleBefore(bs, i);
  }

  /** Parsing blocks joined by blank lines parses each block in turn, with
      no title in effect. */
  lemma {:induction false} ParseJoined(d: Dialect, rule: CountRule, bs: seq<string>)
    requires bs != [] && forall i :: 0 <= i < |bs| ==> Bare(bs[i])
    ensures ParseGift(d, rule, JoinBlocks(bs))
            == Questions(seq(|bs|, i requires 0 <= i < |bs| => ParseBlock(d, rule, bs[i], i, "")))
  {
    JoinShape(bs);
    forall i | 0 <= i < |bs| ensures OneLine(bs[i]) {
      assert Bare(bs[i]);
    }
    BlocksOfJoined(d, bs);
    var os := BlockResults(d, rule, bs);
    forall i | 0 <= i < |bs| ensures os[i] == ParseBlock(d, rule, bs[i], i, "") {
      BareResult(d, rule, bs, i);
    }
    assert os == seq(|bs|, i requires 0 <= i < |bs| => ParseBlock(d, rule, bs[i], i, ""));
  }

  /** A written item is a bare block. */
  lemma {:induction false} RenderedBare(it: Item)
    requires Writable(it)
    ensures Bare(RenderItem(it))
  {
    var r := Render(it.options);
    RenderShape(it.options);
    var b := RenderItem(it);
    assert b[0] == it.text[0];
    forall j | 0 <= j < |b| ensures b[j] != '\n' && b[j] != '\r' {
      if j < |it.text| {
        assert b[j] == it.text[j];
        assert QuestionChar(it.text[j]);
      } else if |it.text| < j < |b| - 1 {
        assert b[j] == r[j - |it.text| - 1];
      }
    }
  }

  /** Completeness: writable items written in GIFT, a blank line between
      two, parse back to exactly the questions they describe, numbered by
      position and without a title, in both dialects and under both
      counting rules. */
  lemma {:induction false} ParseRenderedGift(d: Dialect, rule: CountRule, items: seq<Item>)
    requires forall i :: 0 <= i < |items| ==> Writable(items[i])
    ensures ParseGift(d, rule, RenderGift(items))
            == seq(|items|, i requires 0 <= i < |items| => Expected(items[i], i, ""))
  {
    if items != [] {
      var bs := seq(|items|, i requires 0 <= i < |items| => RenderItem(items[i]));
      var qs := seq(|items|, i requires 0 <= i < |items| => Expected(items[i], i, ""));
      ParseWrittenBlocks(d, rule, items, bs, qs);
    }
  }

  /** The blocks written for the items, joined, parse to the questions the
      items describe. */
  lemma {:induction false} ParseWrittenBlocks(d: Dialect, rule: CountRule, items: seq<Item>, bs: seq<string>, qs: seq<GiftQuestion>)
    requires items != [] && forall i :: 0 <= i < |items| ==> Writable(items[i])
    requires |bs| == |items| && forall i :: 0 <= i < |items| ==> bs[i] == RenderItem(items[i])
    requires |qs| == |items| && forall i :: 0 <= i < |items| ==> qs[i] == Expected(items[i], i, "")
    ensures ParseGift(d, rule, JoinBlocks(bs)) == qs
  {
    RenderedBlocks(d, rule, items, bs);
    ParseJoined(d, rule, bs);
    var os := seq(|bs|, i requires 0 <= i < |bs| => ParseBlock(d, rule, bs[i], i, ""));
    QuestionsOfAll(os, qs);
  }

  /** Each written item is a bare block that parses, at its position, to
      the question it describes. */
  lemma {:induction false} RenderedBlocks(d: Dialect, rule: CountRule, items: seq<Item>, bs: seq<string>)
    requires forall i :: 0 <= i < |items| ==> Writable(items[i])
    requires |bs| == |items| && forall i :: 0 <= i < |items| ==> bs[i] == RenderItem(items[i])
    ensures forall i :: 0 <= i < |bs| ==> Bare(bs[i])
    ensures forall i :: 0 <= i < |bs| ==> ParseBlock(d, rule, bs[i], i, "") == Some(Expected(items[i], i, ""))
  {
    forall i | 0 <= i < |items|
      ensures Bare(bs[i]) && ParseBlock(d, rule, bs[i], i, "") == Some(Expected(items[i], i, ""))
    {
      RenderedBare(items[i]);
      ParseRenderedBlock(d, rule, items[i], i, "");
    }
  }

  /** As written, the parts of "Q{=<b>~a~b}" make a question with the
      options a and b, neither correct; with only kept options counted
      they make none. */
  lemma {:induction false} DroppedCorrectParts(d: Dialect)
    ensures var parts := Parts(None, "Q", "=<b>~a~b");
            && FromParts(d, CountMatches, parts, 0, "") == Some(DroppedExample())
            && FromParts(d, CountKept, parts, 0, "") == None
  {
    assert PlainQuestion("Q");
    CleanPlainQuestion(d, "Q");
    DroppedOptions("=<b>~a~b");
    var options := KeptOptions(Cleaned(Matches("=<b>~a~b", 0)), 0, 0);
    assert options == DroppedExample().options;
  }

  /** The answers "=<b>~a~b": one correct match, and kept the options a
      and b, neither correct. */
  lemma {:induction false} DroppedOptions(ans: string)
    requires ans == "=<b>~a~b"
    ensures var ms := Matches(ans, 0);
            CountCorrectMatches(ms) == 1
            && KeptOptions(Cleaned(ms), 0, 0) == DroppedExample().options
            && CountCorrect(DroppedExample().options) == 0
  {
    DroppedCorrectOptionScanned();
    var raw := [RawMatch(true, "<b>"), RawMatch(false, "a"), RawMatch(false, "b")];
    CleanedExample();
    DroppedKept(Cleaned(raw));
    assert CountCorrectMatches(raw) == 1 by {
      assert raw[1..][1..][1..] == [];
    }
  }

  lemma {:induction false} DroppedKept(ms: seq<RawMatch>)
    requires ms == [RawMatch(true, ""), RawMatch(false, "a"), RawMatch(false, "b")]
    ensures KeptOptions(ms, 0, 0) == DroppedExample().options
    ensures CountCorrect(DroppedExample().options) == 0
  {
    var ma := ms[1..];
    var mb := ma[1..];
    assert mb[1..] == [];
    var o0 := GiftOption(OptionId(0, 0), "a", false);
    var o1 := GiftOption(OptionId(0, 1), "b", false);
    assert KeptOptions(mb, 0, 1) == [o1];
    assert KeptOptions(ma, 0, 0) == [o0, o1];
    assert KeptOptions(ms, 0, 0) == KeptOptions(ma, 0, 0);
    assert DroppedExample().options == [o0, o1];
    assert CountCorrect([o1]) == 0;
  }

  /** The question "Q{=<b>~a~b}" yields as written. */
  function DroppedExample(): GiftQuestion {
    GiftQuestion(QuestionId(0), "Q", GiftTimeLimit,
                 [GiftOption(OptionId(0, 0), "a", false), GiftOption(OptionId(0, 1), "b", false)], "")
  }

  /** As written, the block "Q{=<b>~a~b}" becomes a question with no
      correct option; with only kept options counted it is refused. */
  lemma {:induction false} DroppedCorrectBlockAccepted(d: Dialect, b: string)
    requires b == "Q{=<b>~a~b}"
    ensures ParseBlock(d, CountMatches, b, 0, "") == Some(DroppedExample())
    ensures ParseBlock(d, CountKept, b, 0, "") == None
  {
    DroppedSplit(b);
    assert NextTitle(b, "") == "";
    DroppedCorrectParts(d);
  }

  lemma {:induction false} DroppedSplit(b: string)
    requires b == "Q{=<b>~a~b}"
    ensures SplitBlock(b) == Some(Parts(None, "Q", "=<b>~a~b")) && TitleEnd(b) == None
  {
    var ans := "=<b>~a~b";
    assert b == "Q" + "{" + ans + "}";
    TrimOfTrimmed(ans);
    assert PlainQuestion("Q");
    SplitRendered("Q", ans);
  }

  /** The same for a whole text made of that block: as written it imports
      one question with no correct option, corrected it imports none. */
  lemma {:induction false} DroppedCorrectTextAccepted(d: Dialect, text: string)
    requires text == "Q{=<b>~a~b}"
    ensures ParseGift(d, CountMatches, text) == [DroppedExample()]
    ensures ParseGift(d, CountKept, text) == []
  {
    DroppedBlockBare(text);
    DroppedCorrectBlockAccepted(d, text);
    OneBlockText(d, CountMatches, text);
    OneBlockText(d, CountKept, text);
    assert Questions([Some(DroppedExample())]) == [DroppedExample()];
  }

  lemma {:induction false} DroppedBlockBare(b: string)
    requires b == "Q{=<b>~a~b}"
    ensures Bare(b)
  {
  }

  /** A text that is one bare block yields what that block yields. */
  lemma {:induction false} OneBlockText(d: Dialect, rule: CountRule, b: string)
    requires Bare(b)
    ensures ParseGift(d, rule, b) == Questions([ParseBlock(d, rule, b, 0, "")])
  {
    assert JoinBlocks([b]) == b;
    ParseJoined(d, rule, [b]);
    assert seq(1, i requires 0 <= i < 1 => ParseBlock(d, rule, [b][i], i, "")) == [ParseBlock(d, rule, b, 0, "")];
  }
}

=== FILE: host_client.dfy ===
/** The host's browser screen: creating a game, its WebSocket connection,
    the lobby roster, the question preview with its countdown bar, the
    scoreboard and podium, and the teardown that returns to the
    dashboard. Each handler is a function from the screen state and one
    event to the next state and what the page does outside itself (send a
    command, close a socket, raise an alert). */
module HostClient {
  import opened Wrappers
  import opened Text
  import opened Models

  // ----- views -----

  const AuthView := "auth-view"
  const DashboardView := "dashboard-view"
  const LobbyView := "host-lobby-view"
  const GameView := "host-game-view"
  const EndView := "host-end-view"

  /** The page chrome after showing one view: which sections are visible,
      and whether the logout button and the host's e-mail are shown. */
  datatype Page = Page(visible: seq<bool>, logoutShown: bool, emailShown: bool)

  /** showView: a section is visible exactly when its id is the view's;
      logout is offered outside the login view, and the e-mail is shown
      there too when one is stored. */
  function ShowView(sections: seq<string>, viewId: string, hostEmail: string): (p: Page)
    ensures |p.visible| == |sections|
    ensures forall i :: 0 <= i < |sections| ==> (p.visible[i] <==> sections[i] == viewId)
    ensures p.logoutShown <==> viewId != AuthView
    ensures p.emailShown <==> viewId != AuthView && hostEmail != []
  {
    Page(seq(|sections|, i requires 0 <= i < |sections| => sections[i] == viewId),
         viewId != AuthView, viewId != AuthView && hostEmail != [])
  }

  /** With distinct section ids, showing one of them makes exactly that
      section visible. */
  lemma {:induction false} ShowViewShowsOne(sections: seq<string>, viewId: string, hostEmail: string, k: nat)
    requires forall i, j :: 0 <= i < j < |sections| ==> sections[i] != sections[j]
    requires k < |sections| && sections[k] == viewId
    ensures var p := ShowView(sections, viewId, hostEmail);
            p.visible[k] && forall i :: 0 <= i < |sections| && p.visible[i] ==> i == k
  {
    var p := ShowView(sections, viewId, hostEmail);
    forall i | 0 <= i < |sections| && p.visible[i] ensures i == k {
      assert sections[i] == sections[k];
    }
  }

  // ----- lobby roster -----

  /** The host's own joins are recognised by `^(Host_|admin)`, ignoring
      ASCII case. */
  predicate IsHostNickname(n: string) {
    |n| >= 5 && (LowerStr(n[..5]) == "host_" || LowerStr(n[..5]) == "admin")
  }

  /** The nickname the host joins with: its e-mail, or `Host_<code>`
      when none is stored. */
  function HostNickname(hostEmail: string, code: string): string {
    if hostEmail != [] then hostEmail else "Host_" + code
  }

  /** Without a stored e-mail, or with the built-in "admin" login, the
      host's join is recognised as the host's. */
  lemma {:induction false} HostNicknameRecognised(hostEmail: string, code: string)
    requires hostEmail == [] || hostEmail == "admin"
    ensures IsHostNickname(HostNickname(hostEmail, code))
  {
    var n := HostNickname(hostEmail, code);
    if hostEmail == [] {
      assert n[..5] == "Host_";
      assert LowerStr("Host_") == "host_";
    } else {
      assert n[..5] == "admin";
      assert LowerStr("admin") == "admin";
    }
  }

  predicate IsWordChar(c: char) {
    'a' <= c <= 'z' || 'A' <= c <= 'Z' || '0' <= c <= '9' || c == '_'
  }

  /** The list item id: `player-lobby-` and the nickname with every
      character outside [A-Za-z0-9_] replaced by '_'. */
  function DomId(n: string): (r: string)
    ensures |r| == 13 + |n| && r[..13] == "player-lobby-"
    ensures forall i :: 0 <= i < |n| ==> r[13 + i] == (if IsWordChar(n[i]) then n[i] else '_')
  {
    "player-lobby-" + seq(|n|, i requires 0 <= i < |n| => if IsWordChar(n[i]) then n[i] else '_')
  }

  /** Nicknames made of word characters keep distinct ids. */
  lemma {:induction false} DomIdInjectiveOnWords(m: string, n: string)
    requires forall i :: 0 <= i < |m| ==> IsWordChar(m[i])
    requires forall i :: 0 <= i < |n| ==> IsWordChar(n[i])
    requires m != n
    ensures DomId(m) != DomId(n)
  {
    if |m| == |n| {
      var i :| 0 <= i < |m| && m[i] != n[i];
      assert DomId(m)[13 + i] != DomId(n)[13 + i];
    }
  }

  /** What the lobby list shows: the waiting indicator, the plain
      placeholder left by a reset, or one item per player. */
  datatype Item = WaitingIndicator | ResetPlaceholder | PlayerItem(domId: string, nickname: string)

  /** The nicknames the list shows, in order. */
  function LobbyNames(items: seq<Item>): (r: seq<string>)
    ensures |r| <= |items|
  {
    if items == [] then []
    else (if items[0].PlayerItem? then [items[0].nickname] else []) + LobbyNames(items[1..])
  }

  lemma {:induction false} LobbyNamesAppend(a: seq<Item>, b: seq<Item>)
    ensures LobbyNames(a + b) == LobbyNames(a) + LobbyNames(b)
    decreases |a|
  {
    if a != [] {
      LobbyNamesAppend(a[1..], b);
      assert (a + b)[1..] == a[1..] + b;
    } else {
      assert a + b == b;
    }
  }

  /** Remove the first waiting indicator, if any (querySelector finds the
      first). */
  function DropIndicator(items: seq<Item>): (r: seq<Item>)
    ensures LobbyNames(r) == LobbyNames(items)
  {
    if items == [] then []
    else if items[0].WaitingIndicator? then items[1..]
    else [items[0]] + DropIndicator(items[1..])
  }

  /** Remove the first item the revision's match selects: as written, the
      first whose element id equals the nickname's id (getElementById
      returns the first in document order); corrected, the item showing
      that nickname. */
  function RemoveItem(rev: Revision, items: seq<Item>, n: string): (r: seq<Item>)
    ensures |r| <= |items|
  {
    if items == [] then []
    else if items[0].PlayerItem? && (if rev == AsWritten then items[0].domId == DomId(n) else items[0].nickname == n) then items[1..]
    else [items[0]] + RemoveItem(rev, items[1..], n)
  }

  predicate Distinct(s: seq<string>) {
    forall i, j :: 0 <= i < j < |s| ==> s[i] != s[j]
  }

  /** Delete a key from the roster, keeping the order of the others. */
  function Delete(s: seq<string>, n: string): (r: seq<string>)
    ensures forall x :: x in r <==> x in s && x != n
    ensures Distinct(s) ==> Distinct(r)
    ensures n !in s ==> r == s
    ensures n in s && Distinct(s) ==> |r| == |s| - 1
  {
    if s == [] then []
    else
      var t := Delete(s[1..], n);
      assert forall x :: x in s <==> x == s[0] || x in s[1..];
      assert Distinct(s) ==> Distinct(s[1..]) && s[0] !in s[1..] by {
        if Distinct(s) {
          forall i | 0 <= i < |s[1..]| ensures s[1..][i] != s[0] {
            assert s[1..][i] == s[i + 1];
          }
        }
      }
      if s[0] == n then t
      else
        assert Distinct(s) ==> Distinct([s[0]] + t) by {
          if Distinct(s) {
            assert s[0] !in t;
          }
        }
        [s[0]] + t
  }

  /** With the list showing exactly the roster, removing a player's item
      by nickname leaves it showing exactly the roster without them. */
  lemma {:induction false} RemoveByNameKeepsLobby(items: seq<Item>, roster: seq<string>, n: string)
    requires LobbyNames(items) == roster && Distinct(roster)
    ensures LobbyNames(RemoveItem(Corrected, items, n)) == Delete(roster, n)
    decreases |items|
  {
    if items != [] {
      var tail := items[1..];
      if items[0].PlayerItem? {
        assert roster == [items[0].nickname] + LobbyNames(tail);
        assert roster[1..] == LobbyNames(tail);
        assert Distinct(LobbyNames(tail)) by {
          forall i, j | 0 <= i < j < |LobbyNames(tail)| ensures LobbyNames(tail)[i] != LobbyNames(tail)[j] {
            assert roster[i + 1] != roster[j + 1];
          }
        }
        if items[0].nickname == n {
          assert n !in LobbyNames(tail) by {
            forall i | 0 <= i < |LobbyNames(tail)| ensures LobbyNames(tail)[i] != n {
              assert roster[0] != roster[i + 1];
            }
          }
        } else {
          RemoveByNameKeepsLobby(tail, LobbyNames(tail), n);
          assert RemoveItem(Corrected, items, n) == [items[0]] + RemoveItem(Corrected, tail, n);
        }
      } else {
        RemoveByNameKeepsLobby(tail, roster, n);
        assert RemoveItem(Corrected, items, n) == [items[0]] + RemoveItem(Corrected, tail, n);
      }
    }
  }

  /** The lobby: the players the page has recorded, whether the server
      acknowledged the quiz, the list items, the counter text and the
      start button. */
  datatype Lobby = LobbyOf(roster: seq<string>, loaded: bool, items: seq<Item>, countText: string, startDisabled: bool)

  /** The roster holds distinct real players, the counter shows its size,
      and the start button is enabled only with the quiz loaded and at
      least one player. */
  predicate LobbyOk(l: Lobby) {
    Distinct(l.roster)
    && (forall i :: 0 <= i < |l.roster| ==> !IsHostNickname(l.roster[i]))
    && l.countText == NatToString(|l.roster|)
    && (!l.startDisabled ==> l.loaded && |l.roster| > 0)
  }

  /** The list shows exactly the roster, in order. */
  predicate Shows(l: Lobby) {
    LobbyNames(l.items) == l.roster
  }

  /** The lobby a reset leaves: nobody, nothing loaded, a plain
      placeholder. */
  function ResetLobby(): (l: Lobby)
    ensures LobbyOk(l) && Shows(l) && l.roster == [] && !l.loaded && l.startDisabled
  {
    LobbyOf([], false, [ResetPlaceholder], "0", true)
  }

  /** The lobby a new connection starts with: the same, behind the waiting
      indicator. */
  function WaitingLobby(): (l: Lobby)
    ensures LobbyOk(l) && Shows(l) && l.roster == [] && !l.loaded && l.startDisabled
  {
    LobbyOf([], false, [WaitingIndicator], "0", true)
  }

  /** The property names a plain object inherits from Object.prototype
      (section 20.1.3 of ECMA-262, with the legacy accessors of its annex
      B.2.2). Looking one of them up in window.currentPlayers, which is
      `{}`, yields a function or an object, so such a nickname counts as
      present although nobody added it. */
  const InheritedKeys: set<string> := {
    "constructor", "hasOwnProperty", "isPrototypeOf", "propertyIsEnumerable",
    "toLocaleString", "toString", "valueOf", "__proto__",
    "__defineGetter__", "__defineSetter__", "__lookupGetter__", "__lookupSetter__"
  }

  /** `window.currentPlayers[n]` is truthy: n was recorded, or is
      inherited. */
  predicate Present(l: Lobby, n: string) {
    n in l.roster || n in InheritedKeys
  }

  /** addPlayerToLobby: the host's own nickname and nicknames already
      present (recorded or inherited) are ignored; otherwise the player is
      recorded, the waiting indicator removed and an item appended. */
  function AddPlayer(l: Lobby, n: string): (r: Lobby)
    ensures IsHostNickname(n) || Present(l, n) ==> r == l
    ensures !IsHostNickname(n) && !Present(l, n) ==> r.roster == l.roster + [n]
    ensures Shows(l) ==> Shows(r)
    ensures r.startDisabled == l.startDisabled && r.loaded == l.loaded && r.countText == l.countText
    ensures Distinct(l.roster) && (forall i :: 0 <= i < |l.roster| ==> !IsHostNickname(l.roster[i])) ==>
              Distinct(r.roster) && (forall i :: 0 <= i < |r.roster| ==> !IsHostNickname(r.roster[i]))
  {
    if IsHostNickname(n) || Present(l, n) then l
    else
      var items := DropIndicator(l.items) + [PlayerItem(DomId(n), n)];
      LobbyNamesAppend(DropIndicator(l.items), [PlayerItem(DomId(n), n)]);
      var roster := l.roster + [n];
      assert forall i :: 0 <= i < |l.roster| ==> roster[i] == l.roster[i];
      l.(roster := roster, items := items)
  }

  /** removePlayerFromLobby: the host's own nickname is ignored; otherwise
      the player is deleted from the roster, its item removed, and the
      waiting indicator shown again when nobody is left. */
  function RemovePlayer(rev: Revision, l: Lobby, n: string): (r: Lobby)
    ensures IsHostNickname(n) ==> r == l
    ensures !IsHostNickname(n) ==> r.roster == Delete(l.roster, n)
    ensures rev == Corrected && Shows(l) && Distinct(l.roster) ==> Shows(r)
    ensures r.startDisabled == l.startDisabled && r.loaded == l.loaded && r.countText == l.countText
    ensures Distinct(l.roster) && (forall i :: 0 <= i < |l.roster| ==> !IsHostNickname(l.roster[i])) ==>
              Distinct(r.roster) && (forall i :: 0 <= i < |r.roster| ==> !IsHostNickname(r.roster[i]))
  {
    if IsHostNickname(n) then l
    else
      var roster := Delete(l.roster, n);
      var items := RemoveItem(rev, l.items, n);
      LobbyAfterRemove(rev, l, n);
      assert forall i :: 0 <= i < |roster| ==> roster[i] in l.roster;
      l.(roster := roster, items := if roster == [] then [WaitingIndicator] else items)
  }

  lemma {:induction false} LobbyAfterRemove(rev: Revision, l: Lobby, n: string)
    ensures rev == Corrected && Shows(l) && Distinct(l.roster) ==>
              LobbyNames(RemoveItem(rev, l.items, n)) == Delete(l.roster, n)
  {
    if rev == Corrected && Shows(l) && Distinct(l.roster) {
      RemoveByNameKeepsLobby(l.items, l.roster, n);
    }
  }

  /** updatePlayerCount: the counter shows the number of players the page
      recorded (the server's count is not used), and the start button is
      enabled exactly when the quiz is loaded and that number is
      positive. */
  function Recount(l: Lobby): (r: Lobby)
    ensures r.countText == NatToString(|l.roster|)
    ensures !r.startDisabled <==> l.loaded && |l.roster| > 0
    ensures r.roster == l.roster && r.loaded == l.loaded && r.items == l.items
  {
    l.(countText := NatToString(|l.roster|), startDisabled := !(l.loaded && |l.roster| > 0))
  }

  /** The lobby keeps its invariant through arrivals and departures that
      are followed by a recount. */
  lemma {:induction false} ArrivalsAndDeparturesKeepLobby(rev: Revision, l: Lobby, n: string)
    requires LobbyOk(l)
    ensures LobbyOk(Recount(AddPlayer(l, n))) && LobbyOk(Recount(RemovePlayer(rev, l, n)))
  {
  }

  /** As written, two nicknames that differ only in non-word characters
      share an element id, and removing the second removes the first one's
      item: the list then shows the player who left and hides the one who
      stayed (CollidingNames gives such a pair). */
  lemma {:induction false} LobbyIdCollision(a: string, b: string)
    requires a != b && DomId(a) == DomId(b)
    requires !IsHostNickname(a) && !IsHostNickname(b) && a !in InheritedKeys && b !in InheritedKeys
    ensures var l1 := AddPlayer(AddPlayer(WaitingLobby(), a), b);
            var l2 := RemovePlayer(AsWritten, l1, b);
            l2.roster == [a] && LobbyNames(l2.items) == [b]
  {
    var l0 := AddPlayer(WaitingLobby(), a);
    assert DropIndicator([WaitingIndicator]) == [];
    assert l0.items == [PlayerItem(DomId(a), a)];
    assert l0.roster == [a];
    var l1 := AddPlayer(l0, b);
    assert !Present(l0, b);
    assert DropIndicator(l0.items) == l0.items by {
      assert DropIndicator(l0.items) == [l0.items[0]] + DropIndicator([]);
    }
    assert l1.roster == [a, b];
    assert l1.items == [PlayerItem(DomId(a), a), PlayerItem(DomId(b), b)];
    assert Delete([a, b], b) == [a] by {
      assert Delete([b], b) == [];
      assert [a, b][1..] == [b];
    }
    var items := RemoveItem(AsWritten, l1.items, b);
    assert items == [PlayerItem(DomId(b), b)];
    assert LobbyNames(items) == [b] by {
      assert LobbyNames(items) == [b] + LobbyNames([]);
    }
  }

  /** "a b" and "a_b" are distinct ordinary nicknames with one element id. */
  lemma {:induction false} CollidingNames(a: string, b: string)
    requires a == "a b" && b == "a_b"
    ensures a != b && DomId(a) == DomId(b)
    ensures !IsHostNickname(a) && !IsHostNickname(b) && a !in InheritedKeys && b !in InheritedKeys
  {
    assert a[1] != b[1];
    assert DomId(a) == "player-lobby-a_b";
    assert DomId(b) == "player-lobby-a_b";
  }

  // ----- connection -----

  datatype ReadyState = Connecting | Open | Closing | Closed

  /** A socket the page created, with the game code its handlers were
      set up for. Sockets are numbered in creation order. */
  datatype Socket = Socket(code: string, state: ReadyState)

  /** The game in progress: the copy of the quiz sent to the server, the
      game code, and the current socket among all the page created. */
  datatype Conn = Conn(gameQuiz: Option<RawQuiz>, gameCode: Option<string>, socket: Option<nat>, sockets: seq<Socket>)

  predicate ConnOk(c: Conn) {
    c.socket.Some? ==> c.socket.value < |c.sockets|
  }

  /** The current socket is neither closing nor closed. */
  predicate Live(c: Conn) {
    c.socket.Some? && c.socket.value < |c.sockets| && c.sockets[c.socket.value].state in {Connecting, Open}
  }

  predicate IsOpen(c: Conn) {
    c.socket.Some? && c.socket.value < |c.sockets| && c.sockets[c.socket.value].state == Open
  }

  /** Start closing the current socket; nothing else changes. */
  function StartClosing(c: Conn): (r: Conn)
    requires Live(c)
    ensures r.socket == c.socket && |r.sockets| == |c.sockets| && !Live(r) && !IsOpen(r)
    ensures forall i :: 0 <= i < |c.sockets| && i != c.socket.value ==> r.sockets[i] == c.sockets[i]
    ensures r.gameQuiz == c.gameQuiz && r.gameCode == c.gameCode
  {
    c.(sockets := c.sockets[c.socket.value := c.sockets[c.socket.value].(state := Closing)])
  }

  /** The connection part of resetHostState: forget the quiz and the code,
      close the current socket with 1000 unless it is already closing or
      closed, and forget it. */
  function DropConn(c: Conn): (r: (Conn, seq<Out>))
    ensures ConnOk(r.0) && r.0.socket.None? && r.0.gameQuiz.None? && r.0.gameCode.None?
    ensures |r.0.sockets| == |c.sockets|
    ensures r.1 == if Live(c) then [CloseSocket(c.socket.value, Some(CloseNormal))] else []
  {
    var sockets := if Live(c) then StartClosing(c).sockets else c.sockets;
    (Conn(None, None, None, sockets), if Live(c) then [CloseSocket(c.socket.value, Some(CloseNormal))] else [])
  }

  // ----- the stage: question, countdown and results -----

  /** The countdown bar: seconds left, the starting value, whether it
      turned red, and whether its interval is running. */
  datatype Timer = Timer(left: int, max: int, danger: bool, running: bool)

  /** A list showing a placeholder text or score rows. */
  datatype Board = BoardText(text: string) | BoardRows(rows: seq<ScoreboardEntry>)

  /** One option in the host's preview: its colour and symbol slot, its
      text, and whether it is marked as the correct answer. */
  datatype PreviewItem = PreviewItem(slot: nat, text: string, marked: bool)

  /** known is false when the quiz copy has no question at this index, so
      nothing is marked. */
  datatype Preview = Preview(known: bool, items: seq<PreviewItem>)

  datatype Stage = Stage(
    timer: Timer,
    questionIndex: int,
    totalQuestions: int,
    questionData: Option<ServerMsg>,
    preview: Preview,
    leaderboard: Board,
    podium: Board,
    resultsShown: bool)

  const WaitingResults := "Esperando resultados..."
  const WaitingAnswers := "Esperando respuestas..."
  const NoPodium := "No se pudo cargar el podio."

  /** The stage part of resetHostState: stop the countdown, forget the
      question, clear the boards and hide the results. */
  function ResetStage(s: Stage): (r: Stage)
    ensures !r.timer.running && r.questionData.None? && r.questionIndex == 0 && r.totalQuestions == 0
    ensures r.leaderboard == BoardText(WaitingAnswers) && r.podium == BoardRows([]) && !r.resultsShown
  {
    s.(timer := s.timer.(running := false), questionIndex := 0, totalQuestions := 0, questionData := None,
       leaderboard := BoardText(WaitingAnswers), podium := BoardRows([]), resultsShown := false)
  }

  /** The id of the first option marked correct, if that option has an
      id. */
  function FirstCorrectId(os: seq<RawOption>): (r: Option<string>)
    ensures r.Some? ==> exists i :: 0 <= i < |os| && os[i].isCorrect && os[i].id == r
    ensures forall i :: (0 <= i < |os| && os[i].isCorrect && os[i].id.Some?
              && (forall j :: 0 <= j < i ==> !os[j].isCorrect)) ==> r == os[i].id
    ensures (forall i :: 0 <= i < |os| ==> !os[i].isCorrect) ==> r.None?
  {
    if os == [] then None
    else if os[0].isCorrect then os[0].id
    else
      var r := FirstCorrectId(os[1..]);
      assert forall i :: 1 <= i < |os| ==> os[i] == os[1..][i - 1];
      r
  }

  /** The preview of a question's options: slot i % 4 for the colour and
      symbol, and a mark on each option whose id is the copy's correct
      option id. */
  function PreviewOf(options: seq<WireOption>, correct: Option<string>, known: bool): (p: Preview)
    ensures |p.items| == |options| && p.known == known
    ensures forall i :: 0 <= i < |options| ==>
              p.items[i].slot == i % 4 && p.items[i].text == options[i].text
              && (p.items[i].marked <==> known && correct == Some(options[i].id))
  {
    Preview(known, seq(|options|, i requires 0 <= i < |options| =>
      PreviewItem(i % 4, options[i].text, known && correct == Some(options[i].id))))
  }

  /** When the options sent carry distinct ids and the copy's correct
      option id is among them, exactly that option is marked. */
  lemma {:induction false} PreviewMarksOne(options: seq<WireOption>, correct: string, k: nat)
    requires forall i, j :: 0 <= i < j < |options| ==> options[i].id != options[j].id
    requires k < |options| && options[k].id == correct
    ensures var p := PreviewOf(options, Some(correct), true);
            p.items[k].marked && forall i :: 0 <= i < |options| && p.items[i].marked ==> i == k
  {
    var p := PreviewOf(options, Some(correct), true);
    forall i | 0 <= i < |options| && p.items[i].marked ensures i == k {
      assert options[i].id == options[k].id;
    }
  }

  /** startHostTimer: restart the bar at the question's duration. */
  function StartTimer(d: int): (t: Timer)
    ensures t.left == d && t.max == d && !t.danger && t.running
  {
    Timer(d, d, false, true)
  }

  /** One second of the interval: count down, turn red at five seconds or
      fewer, stop at zero. A stopped timer does not change. */
  function Tick(t: Timer): (r: Timer)
    ensures !t.running ==> r == t
    ensures t.running ==> r.left == t.left - 1 && r.max == t.max
                          && (r.danger <==> t.danger || r.left <= 5)
                          && (r.running <==> r.left > 0)
  {
    if !t.running then t
    else
      var left := t.left - 1;
      Timer(left, t.max, t.danger || left <= 5, left > 0)
  }

  function Ticks(t: Timer, k: nat): Timer {
    if k == 0 then t else Tick(Ticks(t, k - 1))
  }

  /** After k seconds of a d-second countdown (k at most d), the bar shows
      d - k, keeps running while that is positive, and is red exactly when
      at least one second passed and five or fewer are left. */
  lemma {:induction false} CountdownAfter(d: int, k: nat)
    requires d >= 1 && k <= d
    ensures var t := Ticks(StartTimer(d), k);
            t.left == d - k && t.max == d && (t.running <==> d - k > 0)
            && (t.danger <==> k >= 1 && d - k <= 5)
  {
    if k > 0 {
      CountdownAfter(d, k - 1);
    }
  }

  /** The countdown stops at zero: once stopped, further seconds change
      nothing. */
  lemma {:induction false} CountdownStops(d: int, k: nat)
    requires d >= 1 && k >= d
    ensures Ticks(StartTimer(d), k) == Ticks(StartTimer(d), d)
  {
    if k > d {
      CountdownStops(d, k - 1);
      CountdownAfter(d, d);
    }
  }

  /** updateLeaderboard: the first five entries, or a placeholder when
      there are none. */
  function LeaderboardOf(sb: seq<ScoreboardEntry>): (b: Board)
    ensures sb == [] <==> b == BoardText(WaitingResults)
    ensures sb != [] ==> b.BoardRows? && |b.rows| == (if |sb| < 5 then |sb| else 5) && b.rows == sb[..|b.rows|]
  {
    if sb == [] then BoardText(WaitingResults) else BoardRows(if |sb| < 5 then sb else sb[..5])
  }

  /** displayHostFinalPodium: every podium entry, or a placeholder when
      there is none. */
  function PodiumOf(podium: seq<ScoreboardEntry>): (b: Board)
    ensures podium == [] <==> b == BoardText(NoPodium)
    ensures podium != [] ==> b == BoardRows(podium)
  {
    if podium == [] then BoardText(NoPodium) else BoardRows(podium)
  }

  /** The label before a podium entry's nickname: a medal for the first
      three ranks, the rank and a dot after that. */
  function MedalLabel(rank: int): (r: string)
    ensures 1 <= rank <= 3 <==> r in {"🥇 ", "🥈 ", "🥉 "}
    ensures rank == 1 ==> r == "🥇 "
    ensures rank == 2 ==> r == "🥈 "
    ensures rank == 3 ==> r == "🥉 "
    ensures !(1 <= rank <= 3) ==> r == IntToString(rank) + ". "
  {
    if rank == 1 then "🥇 " else if rank == 2 then "🥈 " else if rank == 3 then "🥉 "
    else
      var t := IntToString(rank);
      assert t + ". " != "🥇 " && t + ". " != "🥈 " && t + ". " != "🥉 " by {
        assert (t + ". ")[|t| + 1] == ' ';
        assert (t + ". ")[|t|] == '.';
      }
      t + ". "
  }

  /** Past the medals, a label shows its rank: parseInt reads the rank
      back from it. */
  lemma {:induction false} MedalLabelShowsRank(rank: int)
    requires !(1 <= rank <= 3)
    ensures ParseIntJs(MedalLabel(rank)) == Some(rank)
  {
    ParseIntJsOfIntToStringDot(rank);
  }

  /** displayHostQuestion: record the question number and count, build
      the preview against the quiz copy and restart the timer. */
  function DisplayQuestion(s: Stage, quiz: Option<RawQuiz>, m: ServerMsg): (r: Stage)
    requires m.NewQuestion?
    ensures r.questionIndex == m.questionNumber - 1 && r.totalQuestions == m.totalQuestions
    ensures r.timer == StartTimer(m.timeLimit)
    ensures var idx := m.questionNumber - 1;
            var known := quiz.Some? && 0 <= idx < |quiz.value.questions|;
            r.preview == PreviewOf(m.options, if known then FirstCorrectId(quiz.value.questions[idx].options) else None, known)
  {
    var idx := m.questionNumber - 1;
    var known := quiz.Some? && 0 <= idx < |quiz.value.questions|;
    var correct := if known then FirstCorrectId(quiz.value.questions[idx].options) else None;
    s.(questionIndex := idx, totalQuestions := m.totalQuestions,
       preview := PreviewOf(m.options, correct, known), timer := StartTimer(m.timeLimit))
  }

  // ----- the whole screen -----

  /** The alerts the page raises. */
  datatype Notice =
    | NoQuizFound
    | QuizWithoutQuestions
    | CreateFailedNotice(detail: string)
    | SocketNotCreated
    | SocketError
    | ConnectionLost(shown: string)
    | CommandLost
    | NoQuizToSend
    | ServerError(message: string)
    | HostGone

  function NoticeText(n: Notice): string {
    match n
    case NoQuizFound => "Error: No se encontró el cuestionario seleccionado."
    case QuizWithoutQuestions => "Error: Este cuestionario no tiene preguntas."
    case CreateFailedNotice(detail) => "Error al crear la partida: " + detail
    case SocketNotCreated => "Error al intentar conectar con el servidor de juego. Asegúrate de que el servidor esté corriendo."
    case SocketError => "Error de conexión WebSocket como anfitrión. La partida no puede continuar."
    case ConnectionLost(shown) => "Conexión perdida inesperadamente (Host): " + shown + ". Volviendo al dashboard."
    case CommandLost => "Error: No se pudo enviar el comando. Conexión perdida."
    case NoQuizToSend => "Error crítico: No se pudieron cargar los datos del cuestionario para enviar."
    case ServerError(message) => "Error del Servidor (Host): " + message
    case HostGone => "El servidor detectó una desconexión del host."
  }

  /** The lobby's status line. */
  datatype Status =
    | NoStatus
    | LoadingQuiz(title: string)
    | SendingQuiz(title: string)
    | QuizReady(title: string, count: int)
    | QuizLoadFailed(message: string)
    | NoQuizData
    | ConnectionFailed

  function StatusText(s: Status): string {
    match s
    case NoStatus => ""
    case LoadingQuiz(title) => "Cargando quiz: " + title + "..."
    case SendingQuiz(title) => "Enviando datos de '" + title + "'..."
    case QuizReady(title, count) => "Quiz '" + title + "' (" + IntToString(count) + " preg.) cargado. ¡Listo para empezar!"
    case QuizLoadFailed(message) => "Error cargando quiz: " + message
    case NoQuizData => "Error: No hay datos de quiz para enviar."
    case ConnectionFailed => "Error de conexión."
  }

  /** The remaining controls: the shown view, the code display, the start
      button's label, the cancel, next and end buttons, and the status
      line. */
  datatype Ui = Ui(
    view: string,
    codeText: string,
    starting: bool,
    cancelDisabled: bool,
    nextDisabled: bool,
    endDisabled: bool,
    status: Status)

  datatype Host = Host(hostEmail: string, quizzes: seq<RawQuiz>, conn: Conn, lobby: Lobby, stage: Stage, ui: Ui)

  /** Commands the host sends, as `{type, payload}` messages. */
  datatype Command = JoinGame(nickname: string) | LoadQuizData(quiz: RawQuiz) | StartGame | NextQuestion | EndGame

  /** What the page does outside its own state. */
  datatype Out =
    | Alert(notice: Notice)
    | Transmit(socket: nat, cmd: Command)
    | CloseSocket(socket: nat, closeCode: Option<int>)
    | OpenSocket(socket: nat, code: string)
    | RequestCreate
    | CopyToClipboard(text: string)
    | ReloadQuizzes

  datatype Reaction = Reaction(host: Host, out: seq<Out>)

  predicate Valid(h: Host) {
    ConnOk(h.conn) && LobbyOk(h.lobby)
  }

  const ResetCodeText := "------"
  const CreatingCodeText := "CREANDO..."
  const QuizLoadErrorCode := "QUIZ_LOAD_ERROR"

  /** resetHostState: forget the game, its socket and its players, stop
      the countdown and clear the game's controls. The view is left as it
      is. As written the end-game button keeps its state; the correction
      re-enables it. */
  function Reset(rev: Revision, h: Host): (r: Reaction)
    ensures Valid(r.host) && Shows(r.host.lobby) && r.host.lobby == ResetLobby()
    ensures r.host.conn.socket.None? && r.host.conn.gameQuiz.None? && r.host.conn.gameCode.None?
    ensures |r.host.conn.sockets| == |h.conn.sockets| && !r.host.stage.timer.running
    ensures r.host.ui.view == h.ui.view && r.host.ui.nextDisabled && r.host.ui.codeText == ResetCodeText
    ensures r.host.ui.endDisabled == (if rev == AsWritten then h.ui.endDisabled else false)
    ensures r.host.hostEmail == h.hostEmail && r.host.quizzes == h.quizzes
    ensures r.out == if Live(h.conn) then [CloseSocket(h.conn.socket.value, Some(CloseNormal))] else []
  {
    var (conn, out) := DropConn(h.conn);
    var ui := h.ui.(codeText := ResetCodeText, starting := false, nextDisabled := true, status := NoStatus,
                    endDisabled := if rev == AsWritten then h.ui.endDisabled else false);
    Reaction(h.(conn := conn, lobby := ResetLobby(), stage := ResetStage(h.stage), ui := ui), out)
  }

  /** Resetting twice is resetting once, and the second reset closes
      nothing. */
  lemma {:induction false} ResetIdempotent(rev: Revision, h: Host)
    ensures Reset(rev, Reset(rev, h).host).host == Reset(rev, h).host
    ensures Reset(rev, Reset(rev, h).host).out == []
  {
  }

  function ShowIn(r: Reaction, view: string): (s: Reaction)
    ensures s.host.ui.view == view && s.out == r.out
    ensures s.host.conn == r.host.conn && s.host.lobby == r.host.lobby && s.host.stage == r.host.stage
    ensures s.host.ui.endDisabled == r.host.ui.endDisabled
    ensures s.host.hostEmail == r.host.hostEmail && s.host.quizzes == r.host.quizzes
  {
    r.(host := r.host.(ui := r.host.ui.(view := view)))
  }

  /** cancelGame after confirmation: close the socket with 1000 if open,
      reset, and show the dashboard. Without confirmation nothing
      happens. */
  function Cancel(rev: Revision, h: Host, confirmed: bool): (r: Reaction)
    ensures Valid(h) ==> Valid(r.host)
    ensures Shows(h.lobby) ==> Shows(r.host.lobby)
    ensures rev == AsWritten && h.ui.endDisabled ==> r.host.ui.endDisabled
    ensures r.host.hostEmail == h.hostEmail && r.host.quizzes == h.quizzes
    ensures !confirmed ==> r == Reaction(h, [])
    ensures confirmed ==> r.host.ui.view == DashboardView && r.host.conn.socket.None? && r.host.conn.gameCode.None?
                          && r.host.conn.gameQuiz.None? && r.host.lobby == ResetLobby()
    ensures confirmed && IsOpen(h.conn) ==> r.out == [CloseSocket(h.conn.socket.value, Some(CloseNormal))]
  {
    if !confirmed then Reaction(h, [])
    else
      var h1 := if IsOpen(h.conn) then h.(conn := StartClosing(h.conn)) else h;
      var r := Reset(rev, h1);
      ShowIn(Reaction(r.host, (if IsOpen(h.conn) then [CloseSocket(h.conn.socket.value, Some(CloseNormal))] else []) + r.out), DashboardView)
  }

  predicate IsGameCommand(c: Command) {
    c.StartGame? || c.NextQuestion? || c.EndGame?
  }

  /** sendHostCommand: send over the current socket when it is open. When
      it is not, a game command alerts, resets and returns to the
      dashboard; other commands are dropped. The flag says whether the
      command was sent. */
  function SendCommand(rev: Revision, h: Host, c: Command): (r: (Reaction, bool))
    ensures Valid(h) ==> Valid(r.0.host)
    ensures Shows(h.lobby) ==> Shows(r.0.host.lobby)
    ensures rev == AsWritten && h.ui.endDisabled ==> r.0.host.ui.endDisabled
    ensures r.0.host.hostEmail == h.hostEmail && r.0.host.quizzes == h.quizzes
    ensures r.1 <==> IsOpen(h.conn)
    ensures r.1 ==> r.0 == Reaction(h, [Transmit(h.conn.socket.value, c)])
    ensures !r.1 && !IsGameCommand(c) ==> r.0 == Reaction(h, [])
    ensures !r.1 && IsGameCommand(c) ==> r.0.host.ui.view == DashboardView && r.0.host.conn.socket.None?
  {
    if IsOpen(h.conn) then (Reaction(h, [Transmit(h.conn.socket.value, c)]), true)
    else if IsGameCommand(c) then
      var r := Reset(rev, h);
      (ShowIn(Reaction(r.host, [Alert(CommandLost)] + r.out), DashboardView), false)
    else (Reaction(h, []), false)
  }

  // ----- server messages -----

  /** The common guarantees of every handler: the invariant and the list
      are kept, as written a disabled end button stays disabled, and the login data are untouched. */
  predicate Keeps(rev: Revision, h: Host, r: Reaction) {
    (Valid(h) ==> Valid(r.host))
    && (rev == Corrected && Valid(h) && Shows(h.lobby) ==> Shows(r.host.lobby))
    && (rev == AsWritten && h.ui.endDisabled ==> r.host.ui.endDisabled)
    && r.host.hostEmail == h.hostEmail && r.host.quizzes == h.quizzes
  }

  /** join_ack, player_joined and player_left: update the roster, then
      recount. join_ack is ignored altogether, the recount included, for a
      nickname already recorded. */
  function OnRoster(rev: Revision, h: Host, m: ServerMsg): (r: Reaction)
    requires m.JoinAck? || m.PlayerJoined? || m.PlayerLeft?
    ensures Keeps(rev, h, r) && r.out == []
    ensures m.PlayerLeft? ==> r.host.lobby.roster == RemovePlayer(rev, h.lobby, m.nickname).roster
    ensures !m.PlayerLeft? ==> r.host.lobby.roster == AddPlayer(h.lobby, m.nickname).roster
    ensures m.JoinAck? && Present(h.lobby, m.nickname) ==> r.host == h
    ensures !(m.JoinAck? && Present(h.lobby, m.nickname)) ==>
              (!r.host.lobby.startDisabled <==> r.host.lobby.loaded && |r.host.lobby.roster| > 0)
  {
    if m.JoinAck? && Present(h.lobby, m.nickname) then Reaction(h, [])
    else
      var l := if m.PlayerLeft? then RemovePlayer(rev, h.lobby, m.nickname) else AddPlayer(h.lobby, m.nickname);
      Reaction(h.(lobby := Recount(l)), [])
  }

  /** quiz_loaded_ack: mark the quiz loaded and report it; start is
      enabled exactly when players are present. */
  function OnQuizLoaded(rev: Revision, h: Host, title: string, count: int): (r: Reaction)
    ensures Keeps(rev, h, r) && r.out == []
    ensures r.host.lobby.loaded && (r.host.lobby.startDisabled <==> h.lobby.roster == [])
    ensures r.host.ui.status == QuizReady(title, count)
  {
    var l := h.lobby.(loaded := true, startDisabled := |h.lobby.roster| == 0);
    Reaction(h.(lobby := l, ui := h.ui.(status := QuizReady(title, count))), [])
  }

  /** new_question, update_scoreboard and game_over: the stage and the
      view; game_over also closes an open socket with 1000. */
  function OnStage(rev: Revision, h: Host, m: ServerMsg): (r: Reaction)
    requires m.NewQuestion? || m.UpdateScoreboard? || m.GameOver?
    ensures Keeps(rev, h, r)
    ensures m.NewQuestion? ==> r.host.stage.questionData == Some(m) && !r.host.stage.resultsShown && !r.host.ui.nextDisabled
                               && r.host.stage.leaderboard == BoardText(WaitingResults) && r.out == []
    ensures m.UpdateScoreboard? ==> r.host.stage.leaderboard == LeaderboardOf(m.scoreboard) && r.host.stage.resultsShown
                                    && !r.host.stage.timer.running && !r.host.ui.nextDisabled && r.out == []
    ensures m.GameOver? ==> r.host.ui.view == EndView && r.host.stage.podium == PodiumOf(m.podium) && !r.host.stage.timer.running
                            && r.out == (if IsOpen(h.conn) then [CloseSocket(h.conn.socket.value, Some(CloseNormal))] else [])
  {
    match m
    case NewQuestion(_, _, _, _, _, _) =>
      var s := DisplayQuestion(h.stage.(questionData := Some(m)), h.conn.gameQuiz, m);
      Reaction(h.(stage := s.(leaderboard := LeaderboardOf([]), resultsShown := false), ui := h.ui.(nextDisabled := false)), [])
    case UpdateScoreboard(sb) =>
      var s := h.stage.(timer := h.stage.timer.(running := false, danger := false), leaderboard := LeaderboardOf(sb), resultsShown := true);
      Reaction(h.(stage := s, ui := h.ui.(nextDisabled := false)), [])
    case GameOver(podium, _, _) =>
      var s := h.stage.(timer := h.stage.timer.(running := false), podium := PodiumOf(podium));
      var conn := if IsOpen(h.conn) then StartClosing(h.conn) else h.conn;
      Reaction(h.(conn := conn, stage := s, ui := h.ui.(view := EndView)),
               if IsOpen(h.conn) then [CloseSocket(h.conn.socket.value, Some(CloseNormal))] else [])
  }

  /** The text js/game.js looks for in an error message to recognise a
      rejected quiz; the server's own message adds a period. */
  const InvalidQuizMarker := "Formato de cuestionario inválido"

  /** error: alert the message; a quiz-load error (by code, or by a
      message containing the invalid-quiz text) and the host-disconnected
      code cancel the game without asking. */
  function OnError(rev: Revision, h: Host, message: string, code: Option<string>): (r: Reaction)
    ensures Keeps(rev, h, r)
    ensures |r.out| >= 1 && r.out[0] == Alert(ServerError(message))
    ensures code == Some(QuizLoadErrorCode) || ContainsText(message, InvalidQuizMarker) || code == Some(CodeHostDisconnected)
            ==> r.host.ui.view == DashboardView && r.host.conn.socket.None? && r.host.conn.gameCode.None?
                && r.host.conn.gameQuiz.None?
    ensures !(code == Some(QuizLoadErrorCode) || ContainsText(message, InvalidQuizMarker) || code == Some(CodeHostDisconnected))
            ==> r.host == h && |r.out| == 1
  {
    var alert := Alert(ServerError(message));
    if code == Some(QuizLoadErrorCode) || ContainsText(message, InvalidQuizMarker) then
      var c := Cancel(rev, h.(ui := h.ui.(status := QuizLoadFailed(message))), true);
      Reaction(c.host, [alert] + c.out)
    else if code == Some(CodeHostDisconnected) then
      var c := Cancel(rev, h, true);
      Reaction(c.host, [alert, Alert(HostGone)] + c.out)
    else Reaction(h, [alert])
  }

  /** handleHostWebSocketMessage: dispatch on the message type. */
  function HandleMessage(rev: Revision, h: Host, m: ServerMsg): (r: Reaction)
    ensures Keeps(rev, h, r)
  {
    match m
    case JoinAck(_, _, _) => OnRoster(rev, h, m)
    case PlayerJoined(_, _) => OnRoster(rev, h, m)
    case PlayerLeft(_, _) => OnRoster(rev, h, m)
    case QuizLoadedAck(title, count) => OnQuizLoaded(rev, h, title, count)
    case GameStarted => Reaction(h.(ui := h.ui.(view := GameView)), [])
    case NewQuestion(_, _, _, _, _, _) => OnStage(rev, h, m)
    case UpdateScoreboard(_) => OnStage(rev, h, m)
    case GameOver(_, _, _) => OnStage(rev, h, m)
    case Error(message, code) => OnError(rev, h, message, code)
    case AnswerResult(_, _, _, _, _) => Reaction(h, [])
  }

  /** The server's reply to malformed quiz data makes the host abandon the
      game and return to the dashboard. */
  lemma {:induction false} InvalidQuizCancels(rev: Revision, h: Host)
    ensures var r := HandleMessage(rev, h, Error(ErrInvalidQuiz, None));
            r.host.ui.view == DashboardView && r.host.conn.socket.None? && r.host.conn.gameCode.None?
            && r.host.conn.gameQuiz.None?
  {
    assert ContainsText(ErrInvalidQuiz, InvalidQuizMarker) by {
      assert ErrInvalidQuiz[..|InvalidQuizMarker|] == InvalidQuizMarker;
      assert OccursAt(ErrInvalidQuiz, InvalidQuizMarker, 0);
    }
  }

  /** The host's own join acknowledgement never enters the roster. */
  lemma {:induction false} HostJoinNotListed(rev: Revision, h: Host, code: string, welcome: Welcome, count: int)
    requires h.hostEmail == [] || h.hostEmail == "admin"
    ensures HandleMessage(rev, h, JoinAck(HostNickname(h.hostEmail, code), welcome, count)).host.lobby.roster == h.lobby.roster
  {
    HostNicknameRecognised(h.hostEmail, code);
  }

  /** A player whose nickname an object inherits, such as "constructor",
      is never listed or counted: alone in the lobby, it leaves the start
      button disabled. */
  lemma {:induction false} InheritedNameNotListed(rev: Revision, h: Host, n: string, count: int)
    requires n in InheritedKeys && h.lobby.roster == []
    ensures var r := HandleMessage(rev, h, PlayerJoined(n, count)).host.lobby;
            r.roster == [] && r.startDisabled && r.countText == "0"
  {
  }

  // ----- events -----

  /** What the server replied to the game-creation request: a code ("" when
      the reply had none) or a failure with its detail text. */
  datatype CreateReply = CreatedCode(code: string) | CreateFailed(detail: string)

  /** A socket message: one the handler knows, an `info` message, one of
      another type, or text that is not JSON. */
  datatype Inbound = Known(msg: ServerMsg) | InfoMsg | OtherType | NotJson

  datatype Event =
    | Initiate(quizId: string)
    | CreateDone(reply: CreateReply, socketCreated: bool)
    | Opened(socket: nat)
    | Received(socket: nat, inbound: Inbound)
    | Errored(socket: nat)
    | SocketClosed(socket: nat, closeCode: int, reason: string, wasClean: bool)
    | TimerTick
    | StartClicked
    | CancelClicked(confirmed: bool)
    | CodeClicked
    | NextClicked
    | EndConfirmed
    | BackClicked

  /** The first quiz with the given id. */
  function FindQuiz(qs: seq<RawQuiz>, id: string): (r: Option<RawQuiz>)
    ensures r.Some? ==> r.value in qs && r.value.id == Some(id)
    ensures r.None? ==> forall i :: 0 <= i < |qs| ==> qs[i].id != Some(id)
  {
    if qs == [] then None
    else if qs[0].id == Some(id) then Some(qs[0])
    else
      var r := FindQuiz(qs[1..], id);
      assert forall i :: 1 <= i < |qs| ==> qs[i] == qs[1..][i - 1];
      r
  }

  /** initiateGame up to the creation request: refuse an unknown quiz or
      one without questions; otherwise reset, keep a copy of the quiz,
      show the lobby with start and cancel disabled and ask the server for
      a game. */
  function HandleInitiate(rev: Revision, h: Host, quizId: string): (r: Reaction)
    ensures Keeps(rev, h, r)
    ensures FindQuiz(h.quizzes, quizId).None? ==> r == Reaction(h, [Alert(NoQuizFound)])
    ensures FindQuiz(h.quizzes, quizId).Some? && FindQuiz(h.quizzes, quizId).value.questions == []
            ==> r == Reaction(h, [Alert(QuizWithoutQuestions)])
    ensures FindQuiz(h.quizzes, quizId).Some? && FindQuiz(h.quizzes, quizId).value.questions != [] ==>
              r.host.conn.gameQuiz == FindQuiz(h.quizzes, quizId) && r.host.ui.view == LobbyView
              && r.host.ui.codeText == CreatingCodeText && r.host.lobby.startDisabled && r.host.ui.cancelDisabled
              && |r.out| >= 1 && r.out[|r.out| - 1] == RequestCreate
              && r.host.ui.endDisabled == (if rev == AsWritten then h.ui.endDisabled else false)
  {
    match FindQuiz(h.quizzes, quizId)
    case None => Reaction(h, [Alert(NoQuizFound)])
    case Some(q) =>
      if q.questions == [] then Reaction(h, [Alert(QuizWithoutQuestions)])
      else
        var r := Reset(rev, h);
        var ui := r.host.ui.(view := LobbyView, codeText := CreatingCodeText,
                             status := LoadingQuiz(q.title), cancelDisabled := true);
        Reaction(r.host.(conn := r.host.conn.(gameQuiz := Some(q)), ui := ui), r.out + [RequestCreate])
  }

  /** connectHostWebSocket: show the code, empty the lobby behind the
      waiting indicator, close a previous socket that is still open or
      connecting, and open a new one; if the socket cannot be created,
      alert, reset and return to the dashboard. */
  function Connect(rev: Revision, h: Host, code: string, created: bool): (r: Reaction)
    ensures Keeps(rev, h, r) && Valid(r.host) && Shows(r.host.lobby)
    ensures created ==> r.host.conn.socket == Some(|h.conn.sockets|) && |r.host.conn.sockets| == |h.conn.sockets| + 1
                        && r.host.conn.sockets[|h.conn.sockets|] == Socket(code, Connecting)
                        && |r.out| >= 1 && r.out[|r.out| - 1] == OpenSocket(|h.conn.sockets|, code)
                        && r.host.lobby == WaitingLobby() && r.host.conn.gameCode == h.conn.gameCode
    ensures !created ==> r.host.ui.view == DashboardView && r.host.conn.socket.None?
  {
    var c := if Live(h.conn) then StartClosing(h.conn) else h.conn;
    var out := if Live(h.conn) then [CloseSocket(h.conn.socket.value, None)] else [];
    var h1 := h.(conn := c, lobby := WaitingLobby(), ui := h.ui.(codeText := code));
    if !created then
      var r := Reset(rev, h1.(ui := h1.ui.(status := ConnectionFailed)));
      ShowIn(Reaction(r.host, out + [Alert(SocketNotCreated)] + r.out), DashboardView)
    else
      var id := |c.sockets|;
      Reaction(h1.(conn := c.(sockets := c.sockets + [Socket(code, Connecting)], socket := Some(id))), out + [OpenSocket(id, code)])
  }

  /** The rest of initiateGame once the creation request settles: a
      failure or a reply without a code alerts, resets and returns to the
      dashboard; a code is recorded, the socket opened and the cancel
      button enabled (also when opening failed). */
  function HandleCreateDone(rev: Revision, h: Host, reply: CreateReply, created: bool): (r: Reaction)
    ensures Keeps(rev, h, r) && Shows(r.host.lobby)
    ensures reply.CreatedCode? && reply.code != [] && created ==>
              r.host.conn.gameCode == Some(reply.code) && !r.host.ui.cancelDisabled
              && |r.out| >= 1 && r.out[|r.out| - 1] == OpenSocket(|h.conn.sockets|, reply.code)
    ensures !(reply.CreatedCode? && reply.code != []) ==> r.host.ui.view == DashboardView && r.host.conn.gameCode.None?
  {
    if reply.CreatedCode? && reply.code != [] then
      var c := Connect(rev, h.(conn := h.conn.(gameCode := Some(reply.code))), reply.code, created);
      Reaction(c.host.(ui := c.host.ui.(cancelDisabled := false)), c.out)
    else
      var detail := if reply.CreateFailed? then reply.detail else "La respuesta del servidor no incluyó un código de partida.";
      var r := Reset(rev, h);
      ShowIn(Reaction(r.host, [Alert(CreateFailedNotice(detail))] + r.out), DashboardView)
  }

  /** The socket's open handler: join as the host, then send the quiz
      copy, or cancel the game when there is none. */
  function HandleOpened(rev: Revision, h: Host, id: nat): (r: Reaction)
    ensures Keeps(rev, h, r)
    ensures id < |h.conn.sockets| && h.conn.sockets[id].state == Connecting && h.conn.socket == Some(id) && h.conn.gameQuiz.Some? ==>
              r.out == [Transmit(id, JoinGame(HostNickname(h.hostEmail, h.conn.sockets[id].code))),
                        Transmit(id, LoadQuizData(h.conn.gameQuiz.value))]
    ensures id < |h.conn.sockets| && h.conn.sockets[id].state == Connecting && h.conn.socket == Some(id) && h.conn.gameQuiz.None? ==>
              r.out == [Transmit(id, JoinGame(HostNickname(h.hostEmail, h.conn.sockets[id].code))),
                        Alert(NoQuizToSend), CloseSocket(id, Some(CloseNormal))]
              && r.host.ui.view == DashboardView && r.host.conn.socket.None? && r.host.conn.gameCode.None?
              && r.host.lobby == ResetLobby()
  {
    if id >= |h.conn.sockets| || h.conn.sockets[id].state != Connecting then Reaction(h, [])
    else
      var h1 := h.(conn := h.conn.(sockets := h.conn.sockets[id := h.conn.sockets[id].(state := Open)]));
      var (j, _) := SendCommand(rev, h1, JoinGame(HostNickname(h.hostEmail, h.conn.sockets[id].code)));
      var h2 := j.host;
      if h2.conn.gameQuiz.Some? then
        var (l, _) := SendCommand(rev, h2.(ui := h2.ui.(status := SendingQuiz(h2.conn.gameQuiz.value.title))),
                                  LoadQuizData(h2.conn.gameQuiz.value));
        Reaction(l.host, j.out + l.out)
      else
        var c := Cancel(rev, h2.(ui := h2.ui.(status := NoQuizData)), true);
        Reaction(c.host, j.out + [Alert(NoQuizToSend)] + c.out)
  }

  /** The socket's close handler. It does not check which socket closed.
      After the end view was shown it only forgets the socket; otherwise
      it alerts on an unexpected close (not clean, code other than 1000
      and 1008), resets, and shows the dashboard unless the login view is
      showing. */
  function HandleClosed(rev: Revision, h: Host, id: nat, code: int, reason: string, wasClean: bool): (r: Reaction)
    ensures Keeps(rev, h, r)
    ensures id < |h.conn.sockets| && h.conn.sockets[id].state != Closed && h.ui.view == EndView ==>
              r.host.ui == h.ui && r.host.stage == h.stage && r.host.conn.socket.None? && r.out == []
    ensures id < |h.conn.sockets| && h.conn.sockets[id].state != Closed && h.ui.view != EndView ==>
              r.host.conn.gameCode.None? && r.host.conn.socket.None?
              && (|r.out| >= 1 && r.out[0].Alert? <==> !wasClean && code != CloseNormal && code != ClosePolicyViolation)
              && r.host.ui.view == (if h.ui.view == AuthView then AuthView else DashboardView)
  {
    if id >= |h.conn.sockets| || h.conn.sockets[id].state == Closed then Reaction(h, [])
    else
      var h1 := h.(conn := h.conn.(sockets := h.conn.sockets[id := h.conn.sockets[id].(state := Closed)]));
      if h.ui.view == EndView then Reaction(h1.(conn := h1.conn.(socket := None)), [])
      else
        var shown := if reason != [] then reason else IntToString(code);
        var alert := if !wasClean && code != CloseNormal && code != ClosePolicyViolation
                     then [Alert(ConnectionLost(shown))] else [];
        var r := Reset(rev, h1);
        var s := if h.ui.view != AuthView then ShowIn(r, DashboardView) else r;
        Reaction(s.host, alert + s.out)
  }

  /** The buttons: start (enabled only), cancel (with its confirmation),
      the code display (copies a real code), next, the end confirmation
      (disables next and end once sent) and back to the dashboard. */
  function HandleClick(rev: Revision, h: Host, e: Event): (r: Reaction)
    requires e.StartClicked? || e.CancelClicked? || e.CodeClicked? || e.NextClicked? || e.EndConfirmed? || e.BackClicked?
    ensures Keeps(rev, h, r)
    ensures e.EndConfirmed? && !h.ui.endDisabled && IsOpen(h.conn) ==>
              r.host.ui.endDisabled && r.host.ui.nextDisabled && r.out == [Transmit(h.conn.socket.value, EndGame)]
    ensures e.StartClicked? && !h.lobby.startDisabled && IsOpen(h.conn) ==>
              r.host.lobby.startDisabled && r.host.ui.starting && r.out == [Transmit(h.conn.socket.value, StartGame)]
    ensures e.CodeClicked? ==> r.host == h && (r.out != [] <==> h.conn.gameCode.Some? && h.ui.codeText !in {CreatingCodeText, ResetCodeText})
    ensures e.BackClicked? ==> r.host.ui.view == DashboardView && r.host.conn.socket.None? && |r.out| >= 1 && r.out[|r.out| - 1] == ReloadQuizzes
  {
    match e
    case StartClicked =>
      if h.lobby.startDisabled then Reaction(h, [])
      else SendCommand(rev, h.(lobby := h.lobby.(startDisabled := true), ui := h.ui.(starting := true)), StartGame).0
    case CancelClicked(confirmed) =>
      if h.ui.cancelDisabled then Reaction(h, []) else Cancel(rev, h, confirmed)
    case CodeClicked =>
      if h.conn.gameCode.Some? && h.ui.codeText != CreatingCodeText && h.ui.codeText != ResetCodeText
      then Reaction(h, [CopyToClipboard(h.conn.gameCode.value)]) else Reaction(h, [])
    case NextClicked =>
      if h.ui.nextDisabled then Reaction(h, []) else SendCommand(rev, h, NextQuestion).0
    case EndConfirmed =>
      if h.ui.endDisabled then Reaction(h, [])
      else
        var (s, sent) := SendCommand(rev, h, EndGame);
        if sent then Reaction(s.host.(ui := s.host.ui.(nextDisabled := true, endDisabled := true)), s.out) else s
    case BackClicked =>
      var r := Reset(rev, h);
      ShowIn(Reaction(r.host, r.out + [ReloadQuizzes]), DashboardView)
  }

  /** One event on the host screen. Socket events reach their handlers
      only in the states a browser delivers them in: open while
      connecting, messages while open, errors while connecting (a failed
      attempt) or open, close once. */
  function Step(rev: Revision, h: Host, e: Event): (r: Reaction)
    ensures Keeps(rev, h, r)
  {
    match e
    case Initiate(quizId) => HandleInitiate(rev, h, quizId)
    case CreateDone(reply, created) => HandleCreateDone(rev, h, reply, created)
    case Opened(id) => HandleOpened(rev, h, id)
    case Received(id, inbound) =>
      if id < |h.conn.sockets| && h.conn.sockets[id].state == Open && inbound.Known? then HandleMessage(rev, h, inbound.msg)
      else Reaction(h, [])
    case Errored(id) =>
      if id < |h.conn.sockets| && h.conn.sockets[id].state in {Connecting, Open} then
        ShowIn(Reaction(h, [Alert(SocketError)]), DashboardView)
      else Reaction(h, [])
    case SocketClosed(id, code, reason, wasClean) => HandleClosed(rev, h, id, code, reason, wasClean)
    case TimerTick => Reaction(h.(stage := h.stage.(timer := Tick(h.stage.timer))), [])
    case _ => HandleClick(rev, h, e)
  }

  /** A connection attempt that fails fires `error` before the socket
      ever opens: the host is alerted and sent to the dashboard. */
  lemma {:induction false} FailedConnectionAlerts(rev: Revision, h: Host, id: nat)
    requires id < |h.conn.sockets| && h.conn.sockets[id].state == Connecting
    ensures var r := Step(rev, h, Errored(id));
            r.out == [Alert(SocketError)] && r.host.ui.view == DashboardView
  {
  }

  /** The page as it loads: the login view, nothing connected, every
      control in its initial state. */
  function Initial(hostEmail: string, quizzes: seq<RawQuiz>): (h: Host)
    ensures Valid(h) && Shows(h.lobby) && !h.ui.endDisabled
  {
    Host(hostEmail, quizzes, Conn(None, None, None, []), WaitingLobby(),
         Stage(Timer(0, 0, false, false), 0, 0, None, Preview(false, []), BoardText(WaitingAnswers), BoardRows([]), false),
         Ui(AuthView, ResetCodeText, false, false, true, false, NoStatus))
  }

  // ----- properties over whole runs -----

  function Run(rev: Revision, h: Host, es: seq<Event>): Host
    decreases |es|
  {
    if es == [] then h else Run(rev, Step(rev, h, es[0]).host, es[1..])
  }

  /** Every run keeps the screen's invariant, and with the correction the
      lobby list keeps showing exactly the roster. */
  lemma {:induction false} RunKeepsValid(rev: Revision, h: Host, es: seq<Event>)
    requires Valid(h)
    ensures Valid(Run(rev, h, es))
    ensures rev == Corrected && Shows(h.lobby) ==> Shows(Run(rev, h, es).lobby)
    decreases |es|
  {
    if es != [] {
      RunKeepsValid(rev, Step(rev, h, es[0]).host, es[1..]);
    }
  }

  /** As written, once the end-game button is disabled no event enables
      it again, so it stays disabled in every later game. */
  lemma {:induction false} EndButtonStaysDisabled(h: Host, es: seq<Event>)
    requires h.ui.endDisabled
    ensures Run(AsWritten, h, es).ui.endDisabled
    decreases |es|
  {
    if es != [] {
      EndButtonStaysDisabled(Step(AsWritten, h, es[0]).host, es[1..]);
    }
  }

  /** As written, a game ended from the end button leaves every later
      game without one: ending, going back and starting anew keeps it
      disabled. */
  lemma {:induction false} EndedGameDisablesNextGame(h: Host, quizId: string)
    requires !h.ui.endDisabled && IsOpen(h.conn)
    ensures Run(AsWritten, h, [EndConfirmed, BackClicked, Initiate(quizId)]).ui.endDisabled
  {
    var h0 := Step(AsWritten, h, EndConfirmed).host;
    assert h0.ui.endDisabled;
    EndButtonStaysDisabled(h0, [BackClicked, Initiate(quizId)]);
    assert [EndConfirmed, BackClicked, Initiate(quizId)][1..] == [BackClicked, Initiate(quizId)];
  }

  /** With the correction, every game that gets past the quiz checks
      starts with the end-game button enabled. */
  lemma {:induction false} NewGameOffersEnd(h: Host, quizId: string)
    requires FindQuiz(h.quizzes, quizId).Some? && FindQuiz(h.quizzes, quizId).value.questions != []
    ensures !Step(Corrected, h, Initiate(quizId)).host.ui.endDisabled
  {
  }

  /** A close event from an earlier socket is handled like one from the
      current socket: it tears down the game in progress. */
  lemma {:induction false} StaleCloseResets(rev: Revision, h: Host, prior: nat)
    requires Valid(h) && h.conn.socket.Some? && prior != h.conn.socket.value && prior < |h.conn.sockets|
    requires h.conn.sockets[prior].state == Closing && h.conn.sockets[h.conn.socket.value].state == Open
    requires h.ui.view == GameView
    ensures var r := Step(rev, h, SocketClosed(prior, CloseNormal, "", true));
            r.host.conn.socket.None? && r.host.ui.view == DashboardView
            && r.out == [CloseSocket(h.conn.socket.value, Some(CloseNormal))]
  {
    var h1 := h.(conn := h.conn.(sockets := h.conn.sockets[prior := h.conn.sockets[prior].(state := Closed)]));
    assert IsOpen(h1.conn);
  }
}

=== FILE: models.dfy ===
/** The server's data model: game phases, quiz data as the host uploads it
    and as it is validated, players, games, and the messages the server
    sends to clients. */
module Models {
  import opened Wrappers
  import opened Text

  /** Which revision of a client handler a step uses: as written, or with
      the defect recorded in the findings fixed. The host client and the
      builder both offer the choice. */
  datatype Revision = AsWritten | Corrected

  /** Phases of a game. */
  datatype GameState = Lobby | QuestionDisplay | Leaderboard | Finished

  /** The string value each phase carries on the wire and in messages. */
  function StateValue(s: GameState): string {
    match s
    case Lobby => "LOBBY"
    case QuestionDisplay => "QUESTION_DISPLAY"
    case Leaderboard => "LEADERBOARD"
    case Finished => "FINISHED"
  }

  /** Reading a phase back from its string value: defined exactly on the
      four values, and inverse to StateValue. */
  function ParseState(v: string): (r: Option<GameState>)
    ensures forall s :: r == Some(s) <==> StateValue(s) == v
  {
    if v == "LOBBY" then Some(Lobby)
    else if v == "QUESTION_DISPLAY" then Some(QuestionDisplay)
    else if v == "LEADERBOARD" then Some(Leaderboard)
    else if v == "FINISHED" then Some(Finished)
    else None
  }

  // ----- quiz data -----

  const MinOptions := 2
  const MaxOptions := 4
  const MinTimeLimit := 5
  const MaxTimeLimit := 120
  const DefaultTimeLimit := 20

  /** Quiz data as uploaded, once its JSON has been decoded into typed
      fields. A field the upload leaves out is None. */
  datatype RawOption = RawOption(id: Option<string>, text: string, isCorrect: bool)
  datatype RawQuestion = RawQuestion(id: Option<string>, text: string, options: seq<RawOption>, timeLimit: Option<int>)
  datatype RawQuiz = RawQuiz(id: Option<string>, title: string, questions: seq<RawQuestion>)

  /** Quiz data after validation. */
  datatype OptionData = OptionData(id: Option<string>, text: string, isCorrect: bool)
  datatype QuestionData = QuestionData(id: Option<string>, text: string, options: seq<OptionData>, timeLimit: int)
  datatype QuizData = QuizData(id: Option<string>, title: string, questions: seq<QuestionData>)

  predicate ValidQuestion(q: QuestionData) {
    MinOptions <= |q.options| <= MaxOptions && MinTimeLimit <= q.timeLimit <= MaxTimeLimit
  }

  predicate ValidQuiz(q: QuizData) {
    forall i :: 0 <= i < |q.questions| ==> ValidQuestion(q.questions[i])
  }

  /** The constraints the validator places on one uploaded question: two to
      four options and, when given, a time limit between 5 and 120 seconds. */
  predicate RawQuestionAcceptable(q: RawQuestion) {
    MinOptions <= |q.options| <= MaxOptions
    && (q.timeLimit.Some? ==> MinTimeLimit <= q.timeLimit.value <= MaxTimeLimit)
  }

  function ConvertOption(o: RawOption): OptionData {
    OptionData(o.id, o.text, o.isCorrect)
  }

  function ConvertQuestion(q: RawQuestion): QuestionData {
    QuestionData(q.id, q.text, seq(|q.options|, i requires 0 <= i < |q.options| => ConvertOption(q.options[i])),
                 q.timeLimit.GetOr(DefaultTimeLimit))
  }

  /** Validation of an uploaded quiz: it succeeds exactly when every
      question is acceptable; the result keeps titles, texts, options and
      flags, gives a missing time limit the default of 20 seconds, and is a
      valid quiz. A quiz with no questions is accepted. */
  function ValidateQuiz(raw: RawQuiz): (r: Option<QuizData>)
    ensures r.Some? <==> forall i :: 0 <= i < |raw.questions| ==> RawQuestionAcceptable(raw.questions[i])
    ensures r.Some? ==> ValidQuiz(r.value)
    ensures r.Some? ==> r.value.title == raw.title && |r.value.questions| == |raw.questions|
    ensures r.Some? ==> forall i :: 0 <= i < |raw.questions| ==>
              var q := r.value.questions[i];
              var rq := raw.questions[i];
              q.text == rq.text && q.id == rq.id && |q.options| == |rq.options|
              && (rq.timeLimit.None? ==> q.timeLimit == DefaultTimeLimit)
              && (rq.timeLimit.Some? ==> q.timeLimit == rq.timeLimit.value)
              && forall j :: 0 <= j < |rq.options| ==>
                   q.options[j].text == rq.options[j].text
                   && q.options[j].isCorrect == rq.options[j].isCorrect
                   && q.options[j].id == rq.options[j].id
  {
    if forall i :: 0 <= i < |raw.questions| ==> RawQuestionAcceptable(raw.questions[i]) then
      Some(QuizData(raw.id, raw.title,
                    seq(|raw.questions|, i requires 0 <= i < |raw.questions| => ConvertQuestion(raw.questions[i]))))
    else None
  }

  // ----- processed questions, players and games -----

  /** An option as it is sent to players: its id is always present. */
  datatype WireOption = WireOption(id: string, text: string)

  /** A question ready to be sent, with the id of its correct option. */
  datatype Question = Question(id: string, text: string, options: seq<WireOption>, correctAnswerId: string, timeLimit: int)

  /** Connections are identified by number; the game object itself is not
      a connection. */
  type ConnId = nat

  datatype Player = Player(conn: ConnId, nickname: string, score: int, lastAnswerTime: Option<real>, hasAnswered: bool)

  datatype AnswerRecord = AnswerRecord(nickname: string, answerId: string, receivedAt: real, scoreAwarded: int, isCorrect: bool)

  /** One game. Players are kept in joining order, which is the order the
      server's player dictionary iterates in. */
  datatype Game = Game(
    code: string,
    host: Option<ConnId>,
    quiz: Option<QuizData>,
    players: seq<Player>,
    state: GameState,
    index: int,
    questionStart: Option<real>,
    answers: map<string, AnswerRecord>,
    activeConns: seq<ConnId>,
    correctId: Option<string>)

  /** A freshly created game: in the lobby, question index -1, no host, no
      quiz, no players and no connections. */
  function NewGame(code: string): Game {
    Game(code, None, None, [], Lobby, -1, None, map[], [], None)
  }

  // ----- messages from server to clients -----

  datatype ScoreboardEntry = ScoreboardEntry(rank: int, nickname: string, score: int)

  /** The welcome line of a join acknowledgement. */
  datatype Welcome = HostWelcome(code: string) | PlayerWelcome(code: string, nickname: string)

  datatype ServerMsg =
    | JoinAck(nickname: string, welcome: Welcome, playerCount: int)
    | PlayerJoined(nickname: string, playerCount: int)
    | PlayerLeft(nickname: string, playerCount: int)
    | GameStarted
    | NewQuestion(questionId: string, questionText: string, options: seq<WireOption>, timeLimit: int,
                  questionNumber: int, totalQuestions: int)
    | AnswerResult(isCorrect: bool, correctAnswerId: string, pointsAwarded: int, currentScore: int, currentRank: int)
    | UpdateScoreboard(scoreboard: seq<ScoreboardEntry>)
    | GameOver(podium: seq<ScoreboardEntry>, myFinalRank: Option<int>, myFinalScore: Option<int>)
    | QuizLoadedAck(title: string, questionCount: int)
    | Error(message: string, code: Option<string>)

  // Error texts, as the server words them.
  const ErrEmptyNickname := "El nickname no puede estar vacío."
  const ErrAlreadyStarted := "La partida ya ha comenzado."
  const ErrNicknameTaken := "El nickname ya está en uso."
  const ErrConnAlreadyJoined := "Ya estás unido a esta partida con esta conexión."
  const ErrInvalidJoinData := "Datos de unión inválidos."
  const ErrJoinInternal := "Error interno al unirse a la partida."
  const ErrOnlyHostStart := "Solo el anfitrión puede iniciar la partida."
  const ErrNotWaiting := "La partida no está esperando para iniciar (ya empezó o finalizó)."
  const ErrNotEnoughPlayers := "No hay suficientes jugadores (aparte del host) para iniciar."
  const ErrNoQuiz := "Error: No se han cargado los datos del cuestionario."
  const ErrMissingCorrectId := "Error interno del servidor (ID correcto no encontrado)."
  const ErrMissingStartTime := "Error interno del servidor (tiempo inválido)."
  const ErrInvalidAnswerData := "Datos de respuesta inválidos."
  const ErrAnswerInternal := "Error interno al procesar tu respuesta."
  const ErrOnlyHostControl := "Solo el anfitrión puede controlar el avance del juego."
  const ErrHostDisconnected := "El anfitrión se ha desconectado. La partida terminará."
  const ErrGameNotFound := "Código de partida no encontrado."
  const ErrAlreadyJoined := "Ya te has unido a la partida."
  const ErrMustJoinFirst := "Debes unirte ('join_game') primero."
  const ErrOnlyHostLoad := "Solo el anfitrión puede cargar datos del cuestionario."
  const ErrLoadAfterStart := "No se pueden cargar datos del cuestionario una vez iniciada la partida."
  const ErrInvalidQuiz := "Formato de cuestionario inválido."
  const ErrOnlyHostAdvance := "Solo el anfitrión puede avanzar la partida."
  const ErrOnlyHostEnd := "Solo el anfitrión puede finalizar la partida."
  const ErrInvalidJson := "Mensaje JSON inválido."

  function ErrCannotAdvanceFrom(s: GameState): string {
    "No se puede avanzar manualmente desde el estado actual (" + StateValue(s) + ")."
  }

  function ErrUnknownType(t: string): string {
    "Tipo de mensaje desconocido: '" + t + "'"
  }

  /** The structure error quotes the validator's own report, which is not
      modelled; only its fixed prefix is. */
  const ErrInvalidStructurePrefix := "Estructura de mensaje inválida: "

  const CodeInvalidGame := "INVALID_GAME_CODE"
  const CodeHostDisconnected := "HOST_DISCONNECTED"

  // WebSocket close codes (section 7.4.1 of RFC 6455).
  const CloseNormal := 1000
  const CloseUnsupportedData := 1003
  const ClosePolicyViolation := 1008

  /** What a game handler asks the server to do. A broadcast names the game
      by code: it reaches whatever game is registered under that code. */
  datatype Effect =
    | Send(to: ConnId, msg: ServerMsg)
    | Broadcast(code: string, msg: ServerMsg, exclude: Option<ConnId>)
    | Close(to: ConnId, closeCode: int)
    | ScheduleFirstQuestion
    | ScheduleAutoAdvance(code: string)
    | ScheduleGameOver
}

=== FILE: scoreboard.dfy ===
/** Ranking: who counts as a real player (everyone but the host), the
    stable descending sort by score, and the ranked scoreboards built from
    it. */
module Scoreboard {
  import opened Wrappers
  import opened Models

  // ----- real players -----

  predicate IsReal(g: Game, p: Player) {
    g.host != Some(p.conn)
  }

  /** The players other than the host, in joining order. With no host
      every player is real. */
  function RealPlayers(ps: seq<Player>, host: Option<ConnId>): (r: seq<Player>)
    ensures |r| <= |ps|
    ensures forall i :: 0 <= i < |r| ==> host != Some(r[i].conn) && r[i] in ps
  {
    if ps == [] then []
    else if host == Some(ps[0].conn) then RealPlayers(ps[1..], host)
    else [ps[0]] + RealPlayers(ps[1..], host)
  }

  function RealPlayerCount(g: Game): nat {
    |RealPlayers(g.players, g.host)|
  }

  function Conns(ps: seq<Player>): (r: seq<ConnId>)
    ensures |r| == |ps|
    ensures forall i :: 0 <= i < |ps| ==> r[i] == ps[i].conn
  {
    seq(|ps|, i requires 0 <= i < |ps| => ps[i].conn)
  }

  predicate DistinctConns(ps: seq<Player>) {
    forall i, j :: 0 <= i < j < |ps| ==> ps[i].conn != ps[j].conn
  }

  /** Every player other than the host is listed among the real players. */
  lemma {:induction false} RealPlayersComplete(ps: seq<Player>, host: Option<ConnId>, p: Player)
    requires p in ps && host != Some(p.conn)
    ensures p in RealPlayers(ps, host)
  {
    if ps[0] != p {
      assert p in ps[1..];
      RealPlayersComplete(ps[1..], host, p);
    }
  }

  /** With distinct connections, the real-player count is the number of
      players less one exactly when the host is among them. */
  lemma {:induction false} RealPlayerCountExcludesHost(ps: seq<Player>, host: Option<ConnId>)
    requires DistinctConns(ps)
    ensures |RealPlayers(ps, host)| == |ps| - (if host.Some? && host.value in Conns(ps) then 1 else 0)
  {
    if ps != [] {
      var tail := ps[1..];
      assert DistinctConns(tail) by {
        forall i, j | 0 <= i < j < |tail| ensures tail[i].conn != tail[j].conn {
          assert tail[i] == ps[i + 1] && tail[j] == ps[j + 1];
        }
      }
      RealPlayerCountExcludesHost(tail, host);
      assert Conns(ps) == [ps[0].conn] + Conns(tail);
      if host == Some(ps[0].conn) {
        forall i | 0 <= i < |tail| ensures Conns(tail)[i] != ps[0].conn {
          assert tail[i] == ps[i + 1];
        }
      }
    }
  }

  // ----- stable descending sort -----

  predicate NonIncreasing(ps: seq<Player>) {
    forall i, j :: 0 <= i < j < |ps| ==> ps[i].score >= ps[j].score
  }

  /** The players of ps with score v, in their order in ps. */
  function WithScore(ps: seq<Player>, v: int): seq<Player> {
    if ps == [] then []
    else (if ps[0].score == v then [ps[0]] else []) + WithScore(ps[1..], v)
  }

  /** Insert x into a non-increasing sequence before the first element
      whose score is not above x's. */
  function Insert(x: Player, s: seq<Player>): (r: seq<Player>)
    requires NonIncreasing(s)
    ensures |r| == |s| + 1
    ensures NonIncreasing(r)
    ensures forall i :: 0 <= i < |r| ==> r[i] == x || r[i] in s
  {
    if s == [] || s[0].score <= x.score then
      [x] + s
    else
      var t := Insert(x, s[1..]);
      assert forall i :: 0 <= i < |t| ==> t[i] == x || t[i] in s by {
        forall i | 0 <= i < |t| && t[i] != x ensures t[i] in s {
          assert t[i] in s[1..];
        }
      }
      [s[0]] + t
  }

  lemma {:induction false} InsertPermutes(x: Player, s: seq<Player>)
    requires NonIncreasing(s)
    ensures multiset(Insert(x, s)) == multiset(s) + multiset{x}
  {
    if !(s == [] || s[0].score <= x.score) {
      InsertPermutes(x, s[1..]);
      assert s == [s[0]] + s[1..];
    }
  }

  lemma {:induction false} WithScoreAppend(a: seq<Player>, b: seq<Player>, v: int)
    ensures WithScore(a + b, v) == WithScore(a, v) + WithScore(b, v)
  {
    if a == [] {
      assert a + b == b;
    } else {
      var ab := a + b;
      assert ab[0] == a[0] && ab[1..] == a[1..] + b;
      var h := if a[0].score == v then [a[0]] else [];
      WithScoreAppend(a[1..], b, v);
      assert WithScore(ab, v) == h + (WithScore(a[1..], v) + WithScore(b, v));
      assert WithScore(a, v) == h + WithScore(a[1..], v);
    }
  }

  lemma {:induction false} InsertKeepsTies(x: Player, s: seq<Player>, v: int)
    requires NonIncreasing(s)
    ensures WithScore(Insert(x, s), v) == WithScore([x] + s, v)
  {
    if !(s == [] || s[0].score <= x.score) {
      var h, rest := s[0], s[1..];
      var t := Insert(x, rest);
      assert Insert(x, s) == [h] + t;
      var a := if h.score == v then [h] else [];
      var b := if x.score == v then [x] else [];
      var w := WithScore(rest, v);
      InsertKeepsTies(x, rest, v);
      WithScoreCons(h, t, v);
      WithScoreCons(x, rest, v);
      assert WithScore(Insert(x, s), v) == a + (b + w);
      assert s == [h] + rest;
      WithScoreCons(h, rest, v);
      WithScoreCons(x, s, v);
      assert WithScore([x] + s, v) == b + (a + w);
      SwapAroundEmpty(a, b, w);
    }
  }

  lemma {:induction false} SwapAroundEmpty(a: seq<Player>, b: seq<Player>, w: seq<Player>)
    requires a == [] || b == []
    ensures a + (b + w) == b + (a + w)
  {
    if a == [] {
      assert a + (b + w) == b + w == b + (a + w);
    } else {
      assert a + (b + w) == a + w == b + (a + w);
    }
  }

  lemma {:induction false} WithScoreCons(p: Player, r: seq<Player>, v: int)
    ensures WithScore([p] + r, v) == (if p.score == v then [p] else []) + WithScore(r, v)
  {
    assert ([p] + r)[0] == p;
    assert ([p] + r)[1..] == r;
  }

  /** Python's sorted(players, key=score, reverse=True). */
  function SortByScore(ps: seq<Player>): (r: seq<Player>)
    ensures |r| == |ps|
    ensures NonIncreasing(r)
  {
    if ps == [] then [] else Insert(ps[0], SortByScore(ps[1..]))
  }

  /** The sort is a permutation of its input. */
  lemma {:induction false} SortPermutes(ps: seq<Player>)
    ensures multiset(SortByScore(ps)) == multiset(ps)
  {
    if ps != [] {
      var t := SortByScore(ps[1..]);
      calc {
        multiset(SortByScore(ps));
        multiset(Insert(ps[0], t));
        { InsertPermutes(ps[0], t); }
        multiset(t) + multiset{ps[0]};
        { SortPermutes(ps[1..]); }
        multiset(ps[1..]) + multiset{ps[0]};
        { assert ps == [ps[0]] + ps[1..]; }
        multiset(ps);
      }
    }
  }

  /** The sort is stable: players with equal scores keep their original
      relative order. */
  lemma {:induction false} SortKeepsTies(ps: seq<Player>, v: int)
    ensures WithScore(SortByScore(ps), v) == WithScore(ps, v)
  {
    if ps != [] {
      SortKeepsTies(ps[1..], v);
      InsertKeepsTies(ps[0], SortByScore(ps[1..]), v);
      assert ([ps[0]] + SortByScore(ps[1..]))[1..] == SortByScore(ps[1..]);
      assert ps[1..] == ([ps[0]] + ps[1..])[1..];
    }
  }

  // ----- scoreboards -----

  /** Number the sorted players 1, 2, 3, ... */
  function Ranked(ps: seq<Player>): (r: seq<ScoreboardEntry>)
    ensures |r| == |ps|
    ensures forall i :: 0 <= i < |ps| ==> r[i] == ScoreboardEntry(i + 1, ps[i].nickname, ps[i].score)
  {
    seq(|ps|, i requires 0 <= i < |ps| => ScoreboardEntry(i + 1, ps[i].nickname, ps[i].score))
  }

  /** The scoreboard over every player, host included: one entry per
      player, ranks 1..n in order, scores non-increasing, and every entry
      the nickname and score of a player. */
  function FullScoreboard(g: Game): (r: seq<ScoreboardEntry>)
    ensures |r| == |g.players|
    ensures forall i :: 0 <= i < |r| ==> r[i].rank == i + 1
    ensures forall i, j :: 0 <= i < j < |r| ==> r[i].score >= r[j].score
    ensures forall i :: 0 <= i < |r| ==>
              exists p :: p in g.players && p.nickname == r[i].nickname && p.score == r[i].score
    ensures forall p :: p in g.players ==>
              exists i :: 0 <= i < |r| && r[i].nickname == p.nickname && r[i].score == p.score
  {
    var sorted := SortByScore(g.players);
    SortSameMembers(g.players);
    var r := Ranked(sorted);
    assert forall i :: 0 <= i < |r| ==> r[i].nickname == sorted[i].nickname && r[i].score == sorted[i].score;
    r
  }

  /** The sort neither loses nor invents players. */
  lemma {:induction false} SortSameMembers(ps: seq<Player>)
    ensures forall p :: p in SortByScore(ps) <==> p in ps
  {
    SortPermutes(ps);
    forall p
      ensures p in SortByScore(ps) <==> p in ps
    {
      assert p in SortByScore(ps) <==> p in multiset(SortByScore(ps));
    }
  }

  /** The scoreboard over real players only: one entry per real player,
      ranks 1..n in order, scores non-increasing. */
  function PlayerOnlyScoreboard(g: Game): (r: seq<ScoreboardEntry>)
    ensures |r| == RealPlayerCount(g)
    ensures forall i :: 0 <= i < |r| ==> r[i].rank == i + 1
    ensures forall i, j :: 0 <= i < j < |r| ==> r[i].score >= r[j].score
  {
    Ranked(SortByScore(RealPlayers(g.players, g.host)))
  }

  /** Every entry of the real-player scoreboard is the nickname and score
      of a real player. */
  lemma {:induction false} ScoreboardEntriesAreReal(g: Game, i: nat)
    requires i < |PlayerOnlyScoreboard(g)|
    ensures exists p :: p in g.players && IsReal(g, p)
              && p.nickname == PlayerOnlyScoreboard(g)[i].nickname && p.score == PlayerOnlyScoreboard(g)[i].score
  {
    var members := RealPlayers(g.players, g.host);
    var sorted := SortByScore(members);
    SortPermutes(members);
    assert sorted[i] in multiset(sorted);
    assert sorted[i] in members;
    assert IsReal(g, sorted[i]);
  }

  /** Every real player has an entry with its nickname and score. */
  lemma {:induction false} RealPlayersHaveEntries(g: Game, p: Player)
    requires p in g.players && IsReal(g, p)
    ensures exists i :: 0 <= i < |PlayerOnlyScoreboard(g)|
              && PlayerOnlyScoreboard(g)[i].nickname == p.nickname && PlayerOnlyScoreboard(g)[i].score == p.score
  {
    var members := RealPlayers(g.players, g.host);
    var sorted := SortByScore(members);
    SortPermutes(members);
    RealPlayersComplete(g.players, g.host, p);
    assert p in multiset(members);
    assert p in sorted;
    var i :| 0 <= i < |sorted| && sorted[i] == p;
    assert PlayerOnlyScoreboard(g)[i].nickname == p.nickname;
  }

  /** The top three entries (fewer when there are fewer players). */
  function Podium(sb: seq<ScoreboardEntry>): (r: seq<ScoreboardEntry>)
    ensures |r| == if |sb| < 3 then |sb| else 3
    ensures r == sb[..|r|]
  {
    if |sb| < 3 then sb else sb[..3]
  }

  /** The podium holds the best three real players (fewer when there are
      fewer): a real player missing from it scored no more than anyone on
      it. */
  lemma {:induction false} PodiumIsTopThree(g: Game, p: Player)
    requires p in g.players && IsReal(g, p)
    ensures var pod := Podium(PlayerOnlyScoreboard(g));
            |pod| == (if RealPlayerCount(g) < 3 then RealPlayerCount(g) else 3)
            && ((exists i :: 0 <= i < |pod| && pod[i].nickname == p.nickname && pod[i].score == p.score)
                || forall i :: 0 <= i < |pod| ==> pod[i].score >= p.score)
  {
    var sb := PlayerOnlyScoreboard(g);
    var pod := Podium(sb);
    RealPlayersHaveEntries(g, p);
    var k :| 0 <= k < |sb| && sb[k].nickname == p.nickname && sb[k].score == p.score;
    if k < |pod| {
      assert pod[k] == sb[k];
    } else {
      forall i | 0 <= i < |pod| ensures pod[i].score >= p.score {
        assert pod[i] == sb[i];
      }
    }
  }

  /** The rank of the first entry with the given nickname, or 0 when no
      entry has it. */
  function RankOf(sb: seq<ScoreboardEntry>, nickname: string): (r: int)
    ensures (forall i :: 0 <= i < |sb| ==> sb[i].nickname != nickname) ==> r == 0
    ensures forall i :: (0 <= i < |sb| && sb[i].nickname == nickname
                         && forall j :: 0 <= j < i ==> sb[j].nickname != nickname) ==> r == sb[i].rank
  {
    if sb == [] then 0
    else if sb[0].nickname == nickname then sb[0].rank
    else
      var r := RankOf(sb[1..], nickname);
      assert forall i :: 1 <= i < |sb| ==> sb[1..][i - 1] == sb[i];
      r
  }

  /** Entry i is the last entry of sb with nickname n. */
  predicate LastEntry(sb: seq<ScoreboardEntry>, n: string, i: int) {
    0 <= i < |sb| && sb[i].nickname == n && forall j :: i < j < |sb| ==> sb[j].nickname != n
  }

  /** Final ranks and scores keyed by nickname; a later entry with the same
      nickname replaces an earlier one. */
  function FinalTable(sb: seq<ScoreboardEntry>): (m: map<string, (int, int)>)
    ensures forall i :: 0 <= i < |sb| ==> sb[i].nickname in m
    ensures forall n :: n in m ==> exists i :: LastEntry(sb, n, i) && m[n] == (sb[i].rank, sb[i].score)
  {
    if sb == [] then map[]
    else
      var last := sb[|sb| - 1];
      var m0 := FinalTable(sb[..|sb| - 1]);
      FinalTableStep(sb, sb[..|sb| - 1], m0);
      m0[last.nickname := (last.rank, last.score)]
  }

  /** Recording the last entry over a table of the entries before it gives
      a table of all of them. */
  lemma {:induction false} FinalTableStep(sb: seq<ScoreboardEntry>, init: seq<ScoreboardEntry>, m0: map<string, (int, int)>)
    requires |sb| > 0 && init == sb[..|sb| - 1]
    requires forall i :: 0 <= i < |init| ==> init[i].nickname in m0
    requires forall n :: n in m0 ==> exists i :: LastEntry(init, n, i) && m0[n] == (init[i].rank, init[i].score)
    ensures var last := sb[|sb| - 1];
            var m := m0[last.nickname := (last.rank, last.score)];
            (forall i :: 0 <= i < |sb| ==> sb[i].nickname in m)
            && forall n :: n in m ==> exists i :: LastEntry(sb, n, i) && m[n] == (sb[i].rank, sb[i].score)
  {
    var last := sb[|sb| - 1];
    var m := m0[last.nickname := (last.rank, last.score)];
    forall i | 0 <= i < |sb| ensures sb[i].nickname in m {
      if i < |init| {
        assert init[i] == sb[i];
      }
    }
    forall n | n in m ensures exists i :: LastEntry(sb, n, i) && m[n] == (sb[i].rank, sb[i].score) {
      if n == last.nickname {
        assert LastEntry(sb, n, |sb| - 1);
      } else {
        var i :| LastEntry(init, n, i) && m0[n] == (init[i].rank, init[i].score);
        LastEntryExtends(init, sb, n, i);
      }
    }
  }

  /** The last entry with nickname n stays the last when an entry with
      another nickname is appended. */
  lemma {:induction false} LastEntryExtends(init: seq<ScoreboardEntry>, sb: seq<ScoreboardEntry>, n: string, i: int)
    requires |sb| == |init| + 1 && init == sb[..|init|] && sb[|init|].nickname != n
    requires LastEntry(init, n, i)
    ensures LastEntry(sb, n, i) && sb[i] == init[i]
  {
    forall j | i < j < |sb| ensures sb[j].nickname != n {
      if j < |init| {
        assert sb[j] == init[j];
      }
    }
  }
}

=== FILE: server.dfy ===
/** The server around the game engine: the registry of games by code, game
    creation over HTTP, accepting a WebSocket for a code, routing each
    decoded message to its handler with the join and host checks, cleaning
    up when a client goes away, and the background tasks the handlers
    schedule. Handlers act on the game object a connection was accepted
    for; broadcasts and the automatic advance look the game up by code. */
module Server {
  import opened Wrappers
  import opened Text
  import opened Models
  import opened Scoreboard
  import opened GameLogic

  const CodeLength := 4
  const MaxCodeAttempts := 10
  const StatusServerError := 500

  predicate CodeChar(c: char) {
    'A' <= c <= 'Z' || '0' <= c <= '9'
  }

  /** Four characters from A-Z and 0-9. */
  predicate ValidCode(s: string) {
    |s| == CodeLength && forall i :: 0 <= i < |s| ==> CodeChar(s[i])
  }

  /** Game objects are identified by number: a game stays reachable from
      the connections accepted for it after its code is unregistered. */
  type GameId = nat

  /** What the server keeps for one accepted connection: the game it was
      accepted for, the code it asked for, and whether it has joined. */
  datatype Route = Route(game: GameId, code: string, joined: bool)

  /** Work scheduled to run later: sending the first question of a game
      just started, the automatic advance from the scoreboard (which finds
      its game by code), and ending a game whose host left. */
  datatype Task = FirstQuestion(game: GameId) | AutoAdvance(code: string) | EndGame(game: GameId)

  datatype Server = Server(
    games: map<GameId, Game>,
    registry: map<string, GameId>,
    routes: map<ConnId, Route>,
    tasks: seq<Task>,
    nextGame: GameId)

  /** What the server does towards the outside. */
  datatype Output =
    | Deliver(to: ConnId, msg: ServerMsg)
    | CloseSocket(to: ConnId, closeCode: int)
    | Created(code: string)
    | HttpError(status: int)

  datatype Step = Step(server: Server, out: seq<Output>)

  /** A server with no game and no connection. */
  const Empty := Server(map[], map[], map[], [], 0)

  // ----- carrying out a handler's effects -----

  function Recipients(conns: seq<ConnId>, exclude: Option<ConnId>): (r: seq<ConnId>)
    ensures forall c :: c in r <==> c in conns && exclude != Some(c)
  {
    if conns == [] then []
    else (if exclude == Some(conns[0]) then [] else [conns[0]]) + Recipients(conns[1..], exclude)
  }

  function Deliveries(conns: seq<ConnId>, msg: ServerMsg): (r: seq<Output>)
    ensures |r| == |conns|
    ensures forall i :: 0 <= i < |conns| ==> r[i] == Deliver(conns[i], msg)
  {
    seq(|conns|, i requires 0 <= i < |conns| => Deliver(conns[i], msg))
  }

  /** One effect: a broadcast reaches the active connections of whatever
      game is registered under its code at that moment, and none when no
      game is. */
  function Realize(games: map<GameId, Game>, registry: map<string, GameId>, gid: GameId, e: Effect): (r: (seq<Output>, seq<Task>))
  {
    match e
    case Send(to, msg) => ([Deliver(to, msg)], [])
    case Broadcast(code, msg, exclude) =>
      if code in registry && registry[code] in games
      then (Deliveries(Recipients(games[registry[code]].activeConns, exclude), msg), [])
      else ([], [])
    case Close(to, closeCode) => ([CloseSocket(to, closeCode)], [])
    case ScheduleFirstQuestion => ([], [FirstQuestion(gid)])
    case ScheduleAutoAdvance(code) => ([], [AutoAdvance(code)])
    case ScheduleGameOver => ([], [EndGame(gid)])
  }

  function RealizeAll(games: map<GameId, Game>, registry: map<string, GameId>, gid: GameId, es: seq<Effect>): (r: (seq<Output>, seq<Task>))
    ensures forall t :: t in r.1 ==> (t.FirstQuestion? || t.EndGame? ==> t.game == gid)
    ensures (forall e :: e in es ==> !e.ScheduleFirstQuestion? && !e.ScheduleAutoAdvance? && !e.ScheduleGameOver?) ==> r.1 == []
  {
    if es == [] then ([], [])
    else
      var (o1, t1) := Realize(games, registry, gid, es[0]);
      var (o2, t2) := RealizeAll(games, registry, gid, es[1..]);
      assert forall e :: e in es[1..] ==> e in es;
      (o1 + o2, t1 + t2)
  }

  /** Store the handler's game under its id and carry out its effects. */
  function Apply(s: Server, gid: GameId, o: Outcome): (r: Step)
    ensures r.server.games == s.games[gid := o.game]
    ensures r.server.registry == s.registry && r.server.routes == s.routes && r.server.nextGame == s.nextGame
    ensures |r.server.tasks| >= |s.tasks| && r.server.tasks[..|s.tasks|] == s.tasks
    ensures forall t :: t in r.server.tasks[|s.tasks|..] ==> (t.FirstQuestion? || t.EndGame? ==> t.game == gid)
  {
    var games := s.games[gid := o.game];
    var (outs, tasks) := RealizeAll(games, s.registry, gid, o.effects);
    assert (s.tasks + tasks)[..|s.tasks|] == s.tasks;
    assert (s.tasks + tasks)[|s.tasks|..] == tasks;
    Step(s.(games := games, tasks := s.tasks + tasks), outs)
  }

  // ----- creating a game -----

  /** The first of the random codes drawn that is not registered. */
  function FirstFree(draws: seq<string>, registry: map<string, GameId>): (r: Option<nat>)
    ensures r.Some? ==> r.value < |draws| && draws[r.value] !in registry
                        && forall j :: 0 <= j < r.value ==> draws[j] in registry
    ensures r.None? ==> forall j :: 0 <= j < |draws| ==> draws[j] in registry
  {
    if draws == [] then None
    else if draws[0] !in registry then Some(0)
    else
      var r := FirstFree(draws[1..], registry);
      assert forall j :: 1 <= j < |draws| ==> draws[1..][j - 1] == draws[j];
      if r.Some? then Some(r.value + 1) else None
  }

  /** create_game, given the codes its random generator would draw in turn.
      The first draw not in use becomes the new game's code and a fresh game
      in the lobby is registered under it; when all ten draws are in use the
      request fails with status 500 and nothing changes. */
  function CreateGame(s: Server, draws: seq<string>): (r: Step)
    requires |draws| == MaxCodeAttempts && forall i :: 0 <= i < |draws| ==> ValidCode(draws[i])
    ensures (forall i :: 0 <= i < |draws| ==> draws[i] in s.registry) <==> r == Step(s, [HttpError(StatusServerError)])
    ensures r.out != [HttpError(StatusServerError)] ==>
              exists i :: 0 <= i < |draws| && draws[i] !in s.registry
                          && r.out == [Created(draws[i])]
                          && r.server.registry == s.registry[draws[i] := s.nextGame]
                          && r.server.games == s.games[s.nextGame := NewGame(draws[i])]
                          && r.server.routes == s.routes && r.server.tasks == s.tasks
                          && r.server.nextGame == s.nextGame + 1
  {
    match FirstFree(draws, s.registry)
    case None => Step(s, [HttpError(StatusServerError)])
    case Some(i) =>
      var code := draws[i];
      Step(s.(games := s.games[s.nextGame := NewGame(code)],
              registry := s.registry[code := s.nextGame],
              nextGame := s.nextGame + 1),
           [Created(code)])
  }

  // ----- accepting a connection -----

  /** The code a connection asks for: the path segment stripped and upper-cased. */
  function NormalizeCode(fromUrl: string): (code: string)
    ensures |code| <= |fromUrl|
  {
    UpperStr(PyStrip(fromUrl))
  }

  /** The WebSocket endpoint's opening: a connection for an unregistered
      code is told the code was not found and closed with 1008; otherwise it
      is accepted for the registered game, not yet joined. */
  function Connect(s: Server, conn: ConnId, fromUrl: string): (r: Step)
    ensures r.server.games == s.games && r.server.registry == s.registry && r.server.tasks == s.tasks
    ensures NormalizeCode(fromUrl) !in s.registry ==>
              r.server == s
              && r.out == [Deliver(conn, Error(ErrGameNotFound, Some(CodeInvalidGame))), CloseSocket(conn, ClosePolicyViolation)]
    ensures NormalizeCode(fromUrl) in s.registry ==>
              r.out == [] && r.server.routes == s.routes[conn := Route(s.registry[NormalizeCode(fromUrl)], NormalizeCode(fromUrl), false)]
  {
    var code := NormalizeCode(fromUrl);
    if code !in s.registry then
      Step(s, [Deliver(conn, Error(ErrGameNotFound, Some(CodeInvalidGame))), CloseSocket(conn, ClosePolicyViolation)])
    else
      Step(s.(routes := s.routes[conn := Route(s.registry[code], code, false)]), [])
  }

  // ----- routing messages -----

  /** The readings of a message's payload each handler would make: as a
      join request, as an answer, and as quiz data (None when it does not
      have the shape of a quiz). */
  datatype Payload = Payload(join: Parsed<string>, answer: Parsed<string>, quiz: Option<RawQuiz>)

  /** A received text frame: not JSON, JSON without the message structure
      (with the validator's report), or a message of some type. */
  datatype Envelope =
    | NotJson
    | BadStructure(report: string)
    | Message(kind: string, payload: Payload)

  /** load_quiz_data from a joined connection: only the host, only in the
      lobby; quiz data that validates replaces the game's quiz and the host
      is told its title and question count, anything else is refused as an
      invalid quiz format. */
  function LoadQuiz(g: Game, c: ConnId, raw: Option<RawQuiz>): (o: Outcome)
    ensures g.host == Some(c) && g.state == Lobby && raw.Some? && ValidateQuiz(raw.value).Some? ==>
              var q := ValidateQuiz(raw.value).value;
              o == Outcome(g.(quiz := Some(q)), [Send(c, QuizLoadedAck(q.title, |q.questions|))])
    ensures !(g.host == Some(c) && g.state == Lobby && raw.Some? && ValidateQuiz(raw.value).Some?) ==>
              o.game == g && |o.effects| == 1 && o.effects[0].Send? && o.effects[0].to == c && o.effects[0].msg.Error?
  {
    if g.host != Some(c) then Outcome(g, [Send(c, Error(ErrOnlyHostLoad, None))])
    else if g.state != Lobby then Outcome(g, [Send(c, Error(ErrLoadAfterStart, None))])
    else if raw.None? then Outcome(g, [Send(c, Error(ErrInvalidQuiz, None))])
    else match ValidateQuiz(raw.value)
      case None => Outcome(g, [Send(c, Error(ErrInvalidQuiz, None))])
      case Some(q) =>
        Outcome(g.(quiz := Some(q)), [Send(c, QuizLoadedAck(q.title, |q.questions|))])
  }

  /** The message types a joined connection's message is routed by. */
  const RoutedKinds: set<string> := {"load_quiz_data", "start_game", "submit_answer", "next_question", "end_game"}

  /** The handler a joined connection's message goes to. Only the host may
      start, advance or end the game; anyone else gets one error and the
      game stays as it was. The host's answers are ignored, and an unknown
      type is answered with an error naming it. */
  function Dispatch(g: Game, c: ConnId, kind: string, p: Payload, now: real): (o: Outcome)
    ensures g.host != Some(c) ==> o.game.state == g.state && o.game.quiz == g.quiz && o.game.index == g.index
    ensures g.host != Some(c) ==> forall e :: e in o.effects ==> e.Send? && e.to == c
    ensures g.host != Some(c) && kind == "start_game" ==> o == Outcome(g, [Send(c, Error(ErrOnlyHostStart, None))])
    ensures g.host != Some(c) && kind == "next_question" ==> o == Outcome(g, [Send(c, Error(ErrOnlyHostAdvance, None))])
    ensures g.host != Some(c) && kind == "end_game" ==> o == Outcome(g, [Send(c, Error(ErrOnlyHostEnd, None))])
    ensures g.host == Some(c) && kind == "submit_answer" ==> o == Outcome(g, [])
    ensures kind !in RoutedKinds ==> o == Outcome(g, [Send(c, Error(ErrUnknownType(kind), None))])
  {
    var isHost := g.host == Some(c);
    if kind == "load_quiz_data" then LoadQuiz(g, c, p.quiz)
    else if kind == "start_game" then
      if isHost then HandleStartGame(g, c) else Outcome(g, [Send(c, Error(ErrOnlyHostStart, None))])
    else if kind == "submit_answer" then
      if !isHost then HandleSubmitAnswer(g, c, p.answer, now) else Outcome(g, [])
    else if kind == "next_question" then
      if isHost then HandleNextQuestion(g, c, now) else Outcome(g, [Send(c, Error(ErrOnlyHostAdvance, None))])
    else if kind == "end_game" then
      if isHost then GameOverOutcome(g) else Outcome(g, [Send(c, Error(ErrOnlyHostEnd, None))])
    else Outcome(g, [Send(c, Error(ErrUnknownType(kind), None))])
  }

  /** Ends a connection from the server side without the disconnect
      clean-up: its route is dropped and it stays in its game. */
  function Drop(s: Server, conn: ConnId, err: string): (r: Step) {
    Step(s.(routes := s.routes - {conn}), [Deliver(conn, Error(err, None)), CloseSocket(conn, CloseUnsupportedData)])
  }

  /** One received frame on an accepted connection. Frames that are not
      JSON or lack the message structure, and any message but join_game
      before joining, are answered with an error and the connection is
      closed with 1003 without the disconnect clean-up. A join_game before
      joining goes to the join handler and the connection counts as joined
      exactly when it is then a player; a second join_game is refused.
      Other messages go to their handler for the connection's game. */
  function Receive(s: Server, conn: ConnId, env: Envelope, now: real): (r: Step)
    requires conn in s.routes
    ensures r.server.registry == s.registry && r.server.nextGame == s.nextGame
    ensures (env.NotJson? || env.BadStructure? || (env.Message? && env.kind != "join_game" && !s.routes[conn].joined)) ==>
              r.server == s.(routes := s.routes - {conn})
              && |r.out| == 2 && r.out[1] == CloseSocket(conn, CloseUnsupportedData)
    ensures forall gid :: gid in s.games && gid != s.routes[conn].game ==> gid in r.server.games && r.server.games[gid] == s.games[gid]
    ensures env.Message? && env.kind == "join_game" && s.routes[conn].joined ==>
              r == Step(s, [Deliver(conn, Error(ErrAlreadyJoined, None))])
    ensures env.Message? && env.kind == "join_game" && !s.routes[conn].joined && s.routes[conn].game in s.games ==>
              var gid := s.routes[conn].game;
              var g' := HandleJoinAsWritten(s.games[gid], conn, env.payload.join).game;
              r.server.games == s.games[gid := g']
              && r.server.routes == s.routes[conn := s.routes[conn].(joined := HasConn(g'.players, conn))]
    ensures env.Message? && env.kind != "join_game" && s.routes[conn].joined && s.routes[conn].game in s.games ==>
              var gid := s.routes[conn].game;
              r.server.games == s.games[gid := Dispatch(s.games[gid], conn, env.kind, env.payload, now).game]
              && r.server.routes == s.routes
  {
    var route := s.routes[conn];
    match env
    case NotJson => Drop(s, conn, ErrInvalidJson)
    case BadStructure(report) => Drop(s, conn, ErrInvalidStructurePrefix + report)
    case Message(kind, p) =>
      if kind == "join_game" then
        if route.joined then Step(s, [Deliver(conn, Error(ErrAlreadyJoined, None))])
        else if route.game !in s.games then Step(s, [])
        else
          var o := HandleJoinAsWritten(s.games[route.game], conn, p.join);
          var st := Apply(s, route.game, o);
          var joined := HasConn(o.game.players, conn);
          Step(st.server.(routes := st.server.routes[conn := route.(joined := joined)]), st.out)
      else if !route.joined then Drop(s, conn, ErrMustJoinFirst)
      else if route.game !in s.games then Step(s, [])
      else Apply(s, route.game, Dispatch(s.games[route.game], conn, kind, p, now))
  }

  // ----- disconnection and tasks -----

  /** The client went away. The route goes; the game registered under the
      connection's code, if any, runs its disconnect handler (its broadcasts
      reach the game's remaining connections) and is unregistered when no
      active connection is left. */
  function ClientGone(s: Server, conn: ConnId): (r: Step)
    ensures conn !in r.server.routes
    ensures conn in s.routes && s.routes[conn].code in s.registry && s.registry[s.routes[conn].code] in s.games ==>
              var code := s.routes[conn].code;
              var gid := s.registry[code];
              var g' := HandleDisconnect(s.games[gid], conn).game;
              r.server.games == s.games[gid := g']
              && (code in r.server.registry <==> g'.activeConns != [])
              && r.server.registry - {code} == s.registry - {code}
  {
    if conn !in s.routes then Step(s, [])
    else
      var route := s.routes[conn];
      var s1 := s.(routes := s.routes - {conn});
      if route.code !in s.registry || s.registry[route.code] !in s.games then Step(s1, [])
      else
        var gid := s.registry[route.code];
        var st := Apply(s1, gid, HandleDisconnect(s.games[gid], conn));
        var registry := if st.server.games[gid].activeConns == [] then st.server.registry - {route.code} else st.server.registry;
        Step(st.server.(registry := registry), st.out)
  }

  function RemoveTask(ts: seq<Task>, i: nat): (r: seq<Task>)
    requires i < |ts|
    ensures |r| == |ts| - 1
    ensures forall t :: t in r ==> t in ts
  {
    ts[..i] + ts[i + 1..]
  }

  /** A started game still waiting for its first question: in question
      display at index 0, with no question shown yet. */
  predicate FirstQuestionDue(g: Game) {
    g.state == QuestionDisplay && g.index == 0 && g.questionStart.None?
  }

  /** An accepted start leaves its game waiting for the first question
      the start schedules. */
  lemma {:induction false} StartMakesFirstQuestionDue(g: Game, c: ConnId)
    requires Inv(g)
    requires HandleStartGame(g, c).game != g
    ensures FirstQuestionDue(HandleStartGame(g, c).game)
    ensures ScheduleFirstQuestion in HandleStartGame(g, c).effects
  {
  }

  /** A first question whose game has moved on, for instance to the
      scoreboard or to its end, changes no game: a finished game is never
      reopened. */
  lemma {:induction false} MovedOnGameKeepsState(s: Server, i: nat, now: real)
    requires i < |s.tasks| && s.tasks[i].FirstQuestion? && s.tasks[i].game in s.games
    requires !FirstQuestionDue(s.games[s.tasks[i].game])
    ensures RunTask(s, i, now).server.games == s.games && RunTask(s, i, now).out == []
  {
  }

  /** Run the i-th pending task at time now. The first question is sent for
      the game it was scheduled for if that game still waits for it; in the
      source the host's start handler sends it before the host's next
      message is read, so a game that has moved on drops it. The automatic
      advance acts only if a game is registered under its code and that
      game shows the scoreboard. Ending a game acts on the game it was
      scheduled for. */
  function RunTask(s: Server, i: nat, now: real): (r: Step)
    requires i < |s.tasks|
    ensures r.server.registry == s.registry && r.server.routes == s.routes && r.server.nextGame == s.nextGame
    ensures s.tasks[i].FirstQuestion? && !(s.tasks[i].game in s.games && FirstQuestionDue(s.games[s.tasks[i].game])) ==>
              r == Step(s.(tasks := RemoveTask(s.tasks, i)), [])
    ensures s.tasks[i].AutoAdvance? && !(s.tasks[i].code in s.registry && s.registry[s.tasks[i].code] in s.games
                                         && s.games[s.registry[s.tasks[i].code]].state == Leaderboard) ==>
              r == Step(s.(tasks := RemoveTask(s.tasks, i)), [])
  {
    var s1 := s.(tasks := RemoveTask(s.tasks, i));
    match s.tasks[i]
    case FirstQuestion(gid) =>
      if gid in s.games && FirstQuestionDue(s.games[gid]) then Apply(s1, gid, SendCurrentQuestion(s.games[gid], now))
      else Step(s1, [])
    case AutoAdvance(code) =>
      if code in s.registry && s.registry[code] in s.games && s.games[s.registry[code]].state == Leaderboard
      then Apply(s1, s.registry[code], Advance(s.games[s.registry[code]], now))
      else Step(s1, [])
    case EndGame(gid) =>
      if gid in s.games then Apply(s1, gid, GameOverOutcome(s.games[gid])) else Step(s1, [])
  }

  // ----- the server invariant -----

  /** Registered codes are valid and name a game carrying that code; every
      game satisfies the game invariant; routes and tasks refer to existing
      games; game ids below nextGame are the ones in use. */
  predicate ServerInv(s: Server) {
    (forall code :: code in s.registry ==>
       ValidCode(code) && s.registry[code] in s.games && s.games[s.registry[code]].code == code)
    && (forall gid :: gid in s.games ==> gid < s.nextGame && Inv(s.games[gid]))
    && (forall c :: c in s.routes ==> s.routes[c].game in s.games)
    && (forall t :: t in s.tasks ==> (t.FirstQuestion? || t.EndGame?) ==> t.game in s.games)
  }

  lemma {:induction false} EmptyInv()
    ensures ServerInv(Empty)
  {
  }

  /** Applying an outcome that keeps the game invariant and the game's code
      keeps the server invariant. */
  lemma {:induction false} ApplyPreservesInv(s: Server, gid: GameId, o: Outcome)
    requires ServerInv(s) && gid in s.games
    requires Inv(o.game) && o.game.code == s.games[gid].code
    ensures ServerInv(Apply(s, gid, o).server)
  {
    var r := Apply(s, gid, o).server;
    forall t | t in r.tasks && (t.FirstQuestion? || t.EndGame?) ensures t.game in r.games {
      var k :| 0 <= k < |r.tasks| && r.tasks[k] == t;
      if k < |s.tasks| {
        assert r.tasks[..|s.tasks|][k] == t;
        assert t in s.tasks;
      } else {
        assert r.tasks[|s.tasks|..][k - |s.tasks|] == t;
      }
    }
  }

  lemma {:induction false} CreateGamePreservesInv(s: Server, draws: seq<string>)
    requires ServerInv(s)
    requires |draws| == MaxCodeAttempts && forall i :: 0 <= i < |draws| ==> ValidCode(draws[i])
    ensures ServerInv(CreateGame(s, draws).server)
  {
    match FirstFree(draws, s.registry)
    case None =>
    case Some(i) =>
      NewGameInv(draws[i]);
      var r := CreateGame(s, draws).server;
      forall code | code in r.registry
        ensures ValidCode(code) && r.registry[code] in r.games && r.games[r.registry[code]].code == code
      {
        if code != draws[i] {
          assert s.registry[code] < s.nextGame;
        }
      }
  }

  lemma {:induction false} ConnectPreservesInv(s: Server, conn: ConnId, fromUrl: string)
    requires ServerInv(s)
    ensures ServerInv(Connect(s, conn, fromUrl).server)
  {
  }

  lemma {:induction false} DispatchPreservesInv(g: Game, c: ConnId, kind: string, p: Payload, now: real)
    requires Inv(g)
    ensures Inv(Dispatch(g, c, kind, p, now).game) && Dispatch(g, c, kind, p, now).game.code == g.code
  {
    var isHost := g.host == Some(c);
    if kind == "load_quiz_data" {
      var o := LoadQuiz(g, c, p.quiz);
      if o.game != g {
        var q := ValidateQuiz(p.quiz.value).value;
        assert o.game == g.(quiz := Some(q));
      }
    } else if kind == "start_game" {
      if isHost { StartPreservesInv(g, c); }
    } else if kind == "submit_answer" {
      if !isHost { SubmitPreservesInv(g, c, p.answer, now); }
    } else if kind == "next_question" {
      if isHost { NextPreservesInv(g, c, now); }
    } else if kind == "end_game" {
      if isHost { GameOverPreservesInv(g); }
    }
    assert Dispatch(g, c, kind, p, now).game.code == g.code by {
      CodeKept(g, c, kind, p, now);
    }
  }

  /** No handler changes a game's code. */
  lemma {:induction false} CodeKept(g: Game, c: ConnId, kind: string, p: Payload, now: real)
    ensures Dispatch(g, c, kind, p, now).game.code == g.code
  {
    var isHost := g.host == Some(c);
    if kind == "load_quiz_data" {
      assert LoadQuiz(g, c, p.quiz).game.code == g.code;
    } else if kind == "start_game" && isHost {
      assert HandleStartGame(g, c).game.code == g.code;
    } else if kind == "submit_answer" && !isHost {
      assert HandleSubmitAnswer(g, c, p.answer, now).game.code == g.code;
    } else if kind == "next_question" && isHost {
      if g.state == QuestionDisplay {
        assert Advance(g, now).game == g.(state := Leaderboard);
      }
      assert HandleNextQuestion(g, c, now).game.code == g.code;
    } else if kind == "end_game" && isHost {
      assert GameOverOutcome(g).game.code == g.code;
    }
  }

  lemma {:induction false} ReceivePreservesInv(s: Server, conn: ConnId, env: Envelope, now: real)
    requires ServerInv(s) && conn in s.routes
    ensures ServerInv(Receive(s, conn, env, now).server)
  {
    var route := s.routes[conn];
    if env.Message? && route.game in s.games {
      if env.kind == "join_game" {
        if !route.joined {
          ReceiveJoinPreservesInv(s, conn, env, now);
        }
      } else if route.joined {
        ReceiveDispatchPreservesInv(s, conn, env, now);
      }
    }
  }

  lemma {:induction false} ReceiveJoinPreservesInv(s: Server, conn: ConnId, env: Envelope, now: real)
    requires ServerInv(s) && conn in s.routes && s.routes[conn].game in s.games && !s.routes[conn].joined
    requires env.Message? && env.kind == "join_game"
    ensures ServerInv(Receive(s, conn, env, now).server)
  {
    var route := s.routes[conn];
    var g := s.games[route.game];
    var o := HandleJoinAsWritten(g, conn, env.payload.join);
    JoinAsWrittenKeepsInv(g, conn, env.payload.join);
    var st := Apply(s, route.game, o);
    ApplyPreservesInv(s, route.game, o);
    RouteUpdateKeepsInv(st.server, conn, route.(joined := HasConn(o.game.players, conn)));
  }

  lemma {:induction false} JoinAsWrittenKeepsInv(g: Game, c: ConnId, payload: Parsed<string>)
    requires Inv(g)
    ensures Inv(HandleJoinAsWritten(g, c, payload).game) && HandleJoinAsWritten(g, c, payload).game.code == g.code
  {
    JoinPreservesInv(g, c, payload);
    JoinAsWrittenAgrees(g, c, payload);
  }

  lemma {:induction false} RouteUpdateKeepsInv(s: Server, conn: ConnId, route: Route)
    requires ServerInv(s) && route.game in s.games
    ensures ServerInv(s.(routes := s.routes[conn := route]))
  {
  }

  lemma {:induction false} ReceiveDispatchPreservesInv(s: Server, conn: ConnId, env: Envelope, now: real)
    requires ServerInv(s) && conn in s.routes && s.routes[conn].game in s.games && s.routes[conn].joined
    requires env.Message? && env.kind != "join_game"
    ensures ServerInv(Receive(s, conn, env, now).server)
  {
    var route := s.routes[conn];
    var g := s.games[route.game];
    DispatchPreservesInv(g, conn, env.kind, env.payload, now);
    ApplyPreservesInv(s, route.game, Dispatch(g, conn, env.kind, env.payload, now));
  }

  lemma {:induction false} ClientGonePreservesInv(s: Server, conn: ConnId)
    requires ServerInv(s)
    ensures ServerInv(ClientGone(s, conn).server)
  {
    if conn in s.routes {
      var route := s.routes[conn];
      var s1 := s.(routes := s.routes - {conn});
      if route.code in s.registry && s.registry[route.code] in s.games {
        var gid := s.registry[route.code];
        var o := HandleDisconnect(s.games[gid], conn);
        DisconnectPreservesInv(s.games[gid], conn);
        ApplyPreservesInv(s1, gid, o);
      }
    }
  }

  lemma {:induction false} RunTaskPreservesInv(s: Server, i: nat, now: real)
    requires ServerInv(s) && i < |s.tasks|
    ensures ServerInv(RunTask(s, i, now).server)
  {
    var s1 := s.(tasks := RemoveTask(s.tasks, i));
    assert ServerInv(s1);
    match s.tasks[i]
    case FirstQuestion(gid) =>
      if gid in s.games {
        SendQuestionPreservesInv(s.games[gid], now);
        CodeKeptByQuestion(s.games[gid], now);
        ApplyPreservesInv(s1, gid, SendCurrentQuestion(s.games[gid], now));
      }
    case AutoAdvance(code) =>
      if code in s.registry && s.registry[code] in s.games && s.games[s.registry[code]].state == Leaderboard {
        var gid := s.registry[code];
        AdvancePreservesInv(s.games[gid], now);
        CodeKeptByAdvance(s.games[gid], now);
        ApplyPreservesInv(s1, gid, Advance(s.games[gid], now));
      }
    case EndGame(gid) =>
      if gid in s.games {
        GameOverPreservesInv(s.games[gid]);
        ApplyPreservesInv(s1, gid, GameOverOutcome(s.games[gid]));
      }
  }

  lemma {:induction false} CodeKeptByQuestion(g: Game, now: real)
    ensures SendCurrentQuestion(g, now).game.code == g.code
  {
  }

  lemma {:induction false} CodeKeptByAdvance(g: Game, now: real)
    ensures Advance(g, now).game.code == g.code
  {
    if g.state == Leaderboard && g.quiz.Some? && g.index + 1 < |g.quiz.value.questions| {
      CodeKeptByQuestion(g.(index := g.index + 1), now);
    }
  }

  // ----- properties of the routing -----

  /** A connection other than its game's host cannot change the game's
      phase, quiz or question index, and schedules nothing. */
  lemma {:induction false} OnlyHostSteers(s: Server, conn: ConnId, env: Envelope, now: real)
    requires conn in s.routes && s.routes[conn].game in s.games
    requires s.games[s.routes[conn].game].host != Some(conn)
    ensures var r := Receive(s, conn, env, now).server;
            var gid := s.routes[conn].game;
            gid in r.games
            && r.games[gid].state == s.games[gid].state
            && r.games[gid].quiz == s.games[gid].quiz
            && r.games[gid].index == s.games[gid].index
            && r.tasks == s.tasks
  {
    var route := s.routes[conn];
    if env.Message? {
      if env.kind == "join_game" {
        if !route.joined {
          GuestJoinSteersNothing(s, conn, env, now);
        }
      } else if route.joined {
        GuestMessageSteersNothing(s, conn, env, now);
      }
    }
  }

  lemma {:induction false} GuestJoinSteersNothing(s: Server, conn: ConnId, env: Envelope, now: real)
    requires conn in s.routes && s.routes[conn].game in s.games && !s.routes[conn].joined
    requires s.games[s.routes[conn].game].host != Some(conn)
    requires env.Message? && env.kind == "join_game"
    ensures var r := Receive(s, conn, env, now).server;
            var gid := s.routes[conn].game;
            gid in r.games
            && r.games[gid].state == s.games[gid].state
            && r.games[gid].quiz == s.games[gid].quiz
            && r.games[gid].index == s.games[gid].index
            && r.tasks == s.tasks
  {
    var route := s.routes[conn];
    var g := s.games[route.game];
    var o := HandleJoinAsWritten(g, conn, env.payload.join);
    JoinSchedulesNothing(g, conn, env.payload.join);
    var st := Apply(s, route.game, o);
    assert st.server.tasks == s.tasks;
  }

  lemma {:induction false} JoinSchedulesNothing(g: Game, c: ConnId, payload: Parsed<string>)
    ensures var o := HandleJoinAsWritten(g, c, payload);
            o.game.state == g.state && o.game.quiz == g.quiz && o.game.index == g.index
            && forall e :: e in o.effects ==> !e.ScheduleFirstQuestion? && !e.ScheduleAutoAdvance? && !e.ScheduleGameOver?
  {
  }

  lemma {:induction false} GuestMessageSteersNothing(s: Server, conn: ConnId, env: Envelope, now: real)
    requires conn in s.routes && s.routes[conn].game in s.games && s.routes[conn].joined
    requires s.games[s.routes[conn].game].host != Some(conn)
    requires env.Message? && env.kind != "join_game"
    ensures var r := Receive(s, conn, env, now).server;
            var gid := s.routes[conn].game;
            gid in r.games
            && r.games[gid].state == s.games[gid].state
            && r.games[gid].quiz == s.games[gid].quiz
            && r.games[gid].index == s.games[gid].index
            && r.tasks == s.tasks
  {
    var route := s.routes[conn];
    var o := Dispatch(s.games[route.game], conn, env.kind, env.payload, now);
    assert forall e :: e in o.effects ==> !e.ScheduleFirstQuestion? && !e.ScheduleAutoAdvance? && !e.ScheduleGameOver?;
  }
}

=== FILE: text.dfy ===
/** String helpers shared by the server (Python) and the browser code
    (JavaScript): white-space trimming as each language defines it, ASCII
    case mapping, searching, decimal rendering and JavaScript's
    parseInt(value, 10). */
module Text {
  import opened Wrappers

  /** Which language's notion of white space a trim uses. */
  datatype Spaces = Js | Py

  /** JavaScript: the WhiteSpace and LineTerminator characters of ECMA-262
      (used by String.prototype.trim, parseInt and the regular-expression
      class \s). Python: the characters for which str.isspace() holds
      (used by str.strip()). */
  predicate IsSpace(k: Spaces, c: char) {
    || c == '\t' || c == '\n' || c == '\U{000B}' || c == '\U{000C}' || c == '\r' || c == ' '
    || c == '\U{00A0}' || c == '\U{1680}' || ('\U{2000}' <= c <= '\U{200A}')
    || c == '\U{2028}' || c == '\U{2029}' || c == '\U{202F}' || c == '\U{205F}' || c == '\U{3000}'
    || (k == Js && c == '\U{FEFF}')
    || (k == Py && (('\U{001C}' <= c <= '\U{001F}') || c == '\U{0085}'))
  }

  predicate IsBlank(k: Spaces, s: string) {
    forall i :: 0 <= i < |s| ==> IsSpace(k, s[i])
  }

  /** Number of white-space characters at the start of s. */
  function LeadingSpaces(k: Spaces, s: string): (n: nat)
    ensures n <= |s|
  {
    if s == [] || !IsSpace(k, s[0]) then 0 else 1 + LeadingSpaces(k, s[1..])
  }

  /** The leading run is white space and ends at the end of s or at a
      character that is not. */
  lemma {:induction false} LeadingSpacesShape(k: Spaces, s: string)
    ensures forall i :: 0 <= i < LeadingSpaces(k, s) ==> IsSpace(k, s[i])
    ensures LeadingSpaces(k, s) == |s| || !IsSpace(k, s[LeadingSpaces(k, s)])
  {
    if s != [] && IsSpace(k, s[0]) {
      LeadingSpacesShape(k, s[1..]);
    }
  }

  /** Length of s once its trailing white space is removed. */
  function TrimmedEnd(k: Spaces, s: string): (n: nat)
    ensures n <= |s|
    ensures forall i :: n <= i < |s| ==> IsSpace(k, s[i])
    ensures n == 0 || !IsSpace(k, s[n - 1])
  {
    if s == [] || !IsSpace(k, s[|s| - 1]) then |s| else TrimmedEnd(k, s[..|s| - 1])
  }

  /** s without leading and trailing white space (TrimShape). */
  function Trim(k: Spaces, s: string): string {
    var a := LeadingSpaces(k, s);
    s[a..][..TrimmedEnd(k, s[a..])]
  }

  /** The trimmed string is a contiguous slice of s that neither starts nor
      ends with white space and outside of which s holds only white
      space. */
  lemma {:induction false} TrimShape(k: Spaces, s: string)
    ensures var r := Trim(k, s);
            exists a :: 0 <= a <= |s| - |r| && r == s[a..a + |r|]
              && IsBlank(k, s[..a]) && IsBlank(k, s[a + |r|..])
    ensures var r := Trim(k, s);
            r == [] || (!IsSpace(k, r[0]) && !IsSpace(k, r[|r| - 1]))
  {
    LeadingSpacesShape(k, s);
    var a := LeadingSpaces(k, s);
    var t := s[a..];
    var b := TrimmedEnd(k, t);
    assert Trim(k, s) == t[..b];
    assert t[..b] == s[a..a + b];
    assert IsBlank(k, s[a + b..]) by {
      assert s[a + b..] == t[b..];
    }
    assert IsBlank(k, s[..a]);
    TrimEnds(k, s);
  }

  /** The trimmed string neither starts nor ends with white space. */
  lemma {:induction false} TrimEnds(k: Spaces, s: string)
    ensures var r := Trim(k, s);
            r == [] || (!IsSpace(k, r[0]) && !IsSpace(k, r[|r| - 1]))
  {
    LeadingSpacesShape(k, s);
    var a := LeadingSpaces(k, s);
    var t := s[a..];
    var b := TrimmedEnd(k, t);
    var r := t[..b];
    assert Trim(k, s) == r;
    if b > 0 {
      assert r[0] == s[a];
      assert r[b - 1] == t[b - 1];
    }
  }

  function JsTrim(s: string): string { Trim(Js, s) }
  function PyStrip(s: string): string { Trim(Py, s) }

  /** Trimming yields the empty string exactly for blank input. */
  lemma {:induction false} TrimEmptyIffBlank(k: Spaces, s: string)
    ensures Trim(k, s) == [] <==> IsBlank(k, s)
  {
    TrimShape(k, s);
    var r := Trim(k, s);
    var a :| 0 <= a <= |s| - |r| && r == s[a..a + |r|]
              && IsBlank(k, s[..a]) && IsBlank(k, s[a + |r|..]);
    if r == [] {
      assert IsBlank(k, s) by {
        var head, tail := s[..a], s[a..];
        assert IsBlank(k, head) && IsBlank(k, tail);
        forall i | 0 <= i < |s| ensures IsSpace(k, s[i]) {
          if i < a { assert head[i] == s[i]; } else { assert tail[i - a] == s[i]; }
        }
      }
    } else {
      assert !IsBlank(k, s) by {
        assert s[a] == r[0] && !IsSpace(k, r[0]);
      }
    }
  }

  /** Trimming twice is trimming once. */
  lemma {:induction false} TrimIdempotent(k: Spaces, s: string)
    ensures Trim(k, Trim(k, s)) == Trim(k, s)
  {
    TrimShape(k, s);
    var r := Trim(k, s);
    if r != [] {
      assert LeadingSpaces(k, r) == 0;
      assert TrimmedEnd(k, r) == |r|;
    }
  }

  // ----- ASCII case mapping -----

  function Lower(c: char): char {
    if 'A' <= c <= 'Z' then (c as int + 32) as char else c
  }

  function Upper(c: char): char {
    if 'a' <= c <= 'z' then (c as int - 32) as char else c
  }

  function LowerStr(s: string): (r: string)
    ensures |r| == |s|
  {
    seq(|s|, i requires 0 <= i < |s| => Lower(s[i]))
  }

  function UpperStr(s: string): (r: string)
    ensures |r| == |s|
  {
    seq(|s|, i requires 0 <= i < |s| => Upper(s[i]))
  }

  /** Case-insensitive equality as the system compares nicknames. */
  predicate SameIgnoringCase(a: string, b: string) {
    LowerStr(a) == LowerStr(b)
  }

  /** Upper-casing leaves no lower-case ASCII letter and changes no other
      character than those letters. */
  lemma {:induction false} UpperStrMeaning(s: string)
    ensures forall i :: 0 <= i < |s| ==> !('a' <= UpperStr(s)[i] <= 'z')
    ensures forall i :: 0 <= i < |s| && !('a' <= s[i] <= 'z') ==> UpperStr(s)[i] == s[i]
  {
  }

  // ----- searching -----

  predicate StartsWith(s: string, p: string) {
    |p| <= |s| && s[..|p|] == p
  }

  predicate EndsWith(s: string, p: string) {
    |p| <= |s| && s[|s| - |p|..] == p
  }

  predicate OccursAt(s: string, p: string, i: nat) {
    i + |p| <= |s| && s[i..i + |p|] == p
  }

  /** First position at or after `from` where p occurs in s (JavaScript's
      indexOf(p, from) for a non-negative from), or None. */
  function IndexOf(s: string, p: string, from: nat): (r: Option<nat>)
    ensures r.Some? ==> from <= r.value && OccursAt(s, p, r.value)
    ensures forall j :: from <= j && (r.None? || j < r.value) ==> !OccursAt(s, p, j)
    decreases |s| - from
  {
    if from + |p| > |s| then None
    else if s[from..from + |p|] == p then Some(from)
    else IndexOf(s, p, from + 1)
  }

  predicate Contains(s: string, p: string) {
    exists i :: 0 <= i <= |s| && OccursAt(s, p, i)
  }

  lemma {:induction false} IndexOfFindsContained(s: string, p: string)
    ensures IndexOf(s, p, 0).Some? <==> Contains(s, p)
  {
    var r := IndexOf(s, p, 0);
    if r.Some? {
      assert OccursAt(s, p, r.value);
    }
  }

  /** Decidable form of Contains. */
  function ContainsText(s: string, p: string): (b: bool)
    ensures b <==> Contains(s, p)
  {
    IndexOfFindsContained(s, p);
    IndexOf(s, p, 0).Some?
  }

  // ----- decimal numbers -----

  predicate IsDigit(c: char) {
    '0' <= c <= '9'
  }

  function DigitChar(d: nat): (c: char)
    requires d < 10
    ensures IsDigit(c)
  {
    ('0' as int + d) as char
  }

  function DigitValue(c: char): (d: nat)
    requires IsDigit(c)
    ensures d < 10 && DigitChar(d) == c
  {
    c as int - '0' as int
  }

  predicate AllDigits(s: string) {
    forall i :: 0 <= i < |s| ==> IsDigit(s[i])
  }

  /** Value of a string of decimal digits, most significant first. */
  function DigitsValue(s: string): nat
    requires AllDigits(s)
  {
    if s == [] then 0 else 10 * DigitsValue(s[..|s| - 1]) + DigitValue(s[|s| - 1])
  }

  /** Decimal rendering of a natural number, as Python's str() and
      JavaScript's String() write it: at least one digit, no leading zero. */
  function NatToString(n: nat): (r: string)
    ensures |r| >= 1 && AllDigits(r)
    ensures r[0] == '0' ==> n == 0 && |r| == 1
  {
    if n < 10 then [DigitChar(n)] else NatToString(n / 10) + [DigitChar(n % 10)]
  }

  /** Reading back a rendered number gives the number. */
  lemma {:induction false} DigitsValueOfNatToString(n: nat)
    ensures DigitsValue(NatToString(n)) == n
  {
    var r := NatToString(n);
    if n >= 10 {
      DigitsValueOfNatToString(n / 10);
      assert r[..|r| - 1] == NatToString(n / 10);
    }
  }

  /** Distinct numbers render to distinct strings. */
  lemma {:induction false} NatToStringInjective(m: nat, n: nat)
    requires NatToString(m) == NatToString(n)
    ensures m == n
  {
    DigitsValueOfNatToString(m);
    DigitsValueOfNatToString(n);
  }

  function IntToString(i: int): (r: string)
    ensures |r| >= 1
  {
    if i < 0 then "-" + NatToString(-i) else NatToString(i)
  }

  /** Length of the run of decimal digits at the start of s. */
  function DigitRun(s: string): (n: nat)
    ensures n <= |s| && AllDigits(s[..n])
    ensures n == |s| || !IsDigit(s[n])
  {
    if s == [] || !IsDigit(s[0]) then 0
    else
      var m := DigitRun(s[1..]);
      assert s[..1 + m] == [s[0]] + s[1..][..m];
      1 + m
  }

  /** JavaScript's parseInt(s, 10): skip leading white space, read an
      optional sign, then the longest run of decimal digits; None stands
      for NaN (no digit). */
  function ParseIntJs(s: string): Option<int> {
    var t := s[LeadingSpaces(Js, s)..];
    var negative := t != [] && t[0] == '-';
    var u := if t != [] && (t[0] == '+' || t[0] == '-') then t[1..] else t;
    var n := DigitRun(u);
    if n == 0 then None
    else
      var v: int := DigitsValue(u[..n]);
      Some(if negative then -v else v)
  }

  /** parseInt gives NaN exactly when, after the white space and an
      optional sign, no digit follows. */
  lemma {:induction false} ParseIntJsNaN(s: string)
    ensures ParseIntJs(s).None? <==>
      (var t := s[LeadingSpaces(Js, s)..];
       var u := if t != [] && (t[0] == '+' || t[0] == '-') then t[1..] else t;
       u == [] || !IsDigit(u[0]))
  {
  }

  lemma {:induction false} DigitRunOfDigits(s: string)
    requires AllDigits(s)
    ensures DigitRun(s) == |s|
  {
    if s != [] {
      DigitRunOfDigits(s[1..]);
    }
  }

  /** The digit run of digits followed by a non-digit ends where the
      digits do. */
  lemma {:induction false} DigitRunStops(digits: string, rest: string)
    requires AllDigits(digits) && (rest == [] || !IsDigit(rest[0]))
    ensures DigitRun(digits + rest) == |digits|
  {
    if digits != [] {
      assert (digits + rest)[1..] == digits[1..] + rest;
      DigitRunStops(digits[1..], rest);
    } else {
      assert digits + rest == rest;
    }
  }

  /** parseInt of an optional minus sign followed by digits. */
  lemma {:induction false} ParseIntJsSigned(s: string, negative: bool, u: string)
    requires s == (if negative then "-" else "") + u
    requires u != [] && IsDigit(u[0])
    ensures ParseIntJs(s) == Some(if negative then -(DigitsValue(u[..DigitRun(u)]) as int) else DigitsValue(u[..DigitRun(u)]) as int)
  {
    assert s[0] == (if negative then '-' else u[0]);
    assert LeadingSpaces(Js, s) == 0;
    assert s[0..] == s;
    if negative {
      assert s[1..] == u;
    }
  }

  /** parseInt reads a run of digits, with an optional minus sign before
      it, up to the first character that is not a digit. */
  lemma {:induction false} ParseIntJsDigitsThen(negative: bool, digits: string, rest: string)
    requires digits != [] && AllDigits(digits) && (rest == [] || !IsDigit(rest[0]))
    ensures ParseIntJs((if negative then "-" else "") + (digits + rest))
            == Some(if negative then -(DigitsValue(digits) as int) else DigitsValue(digits) as int)
  {
    var u := digits + rest;
    assert u[0] == digits[0];
    DigitRunStops(digits, rest);
    assert u[..|digits|] == digits;
    ParseIntJsSigned((if negative then "-" else "") + u, negative, u);
  }

  /** parseInt reads an integer back from its rendering followed by ". ". */
  lemma {:induction false} ParseIntJsOfIntToStringDot(i: int)
    ensures ParseIntJs(IntToString(i) + ". ") == Some(i)
  {
    var m: nat := if i < 0 then -i else i;
    var digits := NatToString(m);
    assert DigitsValue(digits) == m by {
      DigitsValueOfNatToString(m);
    }
    var sign: string := if i < 0 then "-" else "";
    assert IntToString(i) == sign + digits;
    assert IntToString(i) + ". " == sign + (digits + ". ") by {
      SeqAssoc(sign, digits, ". ");
    }
    ParseIntJsDigitsThen(i < 0, digits, ". ");
  }

  /** Concatenation regroups freely. */
  lemma SeqAssoc<T>(a: seq<T>, b: seq<T>, c: seq<T>)
    ensures (a + b) + c == a + (b + c)
  {
  }

  /** parseInt reads back every integer String() writes. */
  lemma {:induction false} ParseIntJsOfIntToString(i: int)
    ensures ParseIntJs(IntToString(i)) == Some(i)
  {
    var s := IntToString(i);
    var m: nat := if i < 0 then -i else i;
    var digits := NatToString(m);
    assert !IsSpace(Js, s[0]);
    assert LeadingSpaces(Js, s) == 0;
    var u := if s[0] == '-' then s[1..] else s;
    assert u == digits;
    DigitRunOfDigits(digits);
    assert u[..|u|] == digits;
    DigitsValueOfNatToString(m);
  }
}

=== FILE: wrappers.dfy ===
/** Optional values and results with an error branch, used wherever the
    system returns "nothing" or reports an error instead of a value. */
module Wrappers {

  datatype Option<+T> = None | Some(value: T) {
    predicate IsFailure() {
      None?
    }

    function PropagateFailure<U>(): Option<U>
      requires None?
    {
      None
    }

    function Extract(): T
      requires Some?
    {
      value
    }

    function GetOr(default: T): T {
      match this
      case Some(v) => v
      case None() => default
    }
  }

  datatype Result<+T, +R> = Ok(value: T) | Err(error: R) {
    predicate IsFailure() {
      Err?
    }

    function PropagateFailure<U>(): Result<U, R>
      requires Err?
    {
      Err(error)
    }

    function Extract(): T
      requires Ok?
    {
      value
    }
  }
}
